=== FILE: README.md ===
# ImmersiveCinematics camera core in Dafny

This project models the core of ImmersiveCinematics, a Minecraft Forge mod that takes over the camera and plays scripted camera moves. The model covers:

- **Camera paths** (`IMovementPath` and its eight implementations). Each path samples a position, a rotation `(pitch, yaw, roll)` in radians and a field of view at a tick.
  - The linear, direct, smooth, Bézier and stationary-pan paths interpolate between their ends.
  - The smooth, Bézier and pan paths turn along the shortest arc and normalise angles into [0, 2π).
  - The dolly zoom keeps its target at constant apparent size through a clamped FOV.
  - The orbit and the spiral circle a centre.
- **The camera-script data model** (`CameraScript` with its shot rules, movement routes and trigger conditions). This covers its list edits and its NBT encoding and decoding. NBT's `CompoundTag` is modelled in `Nbt` as a map from keys to tags, with Minecraft's getter defaults.
- **The trigger binding** (`TriggerBinding`): NBT serialisation, the legacy trigger type names, `equals` and the 32-bit `hashCode`.
- **The timeline processor**, which walks a script rule by rule and route by route for each player. It waits out each rule's delay and issues "execute this path" calls to the cinematic manager.
- **The world event detector**:
  - it schedules scripts on login, on a dimension change, on entering or leaving a structure and at a time of day;
  - it counts delayed triggers down tick by tick;
  - it matches dimension and structure ids against wildcard patterns (`WildcardPattern`);
  - it parses time-of-day patterns (`TimePattern`).
- **The camera state recorder**, which turns two recorded states into a movement route.
- **The older `CinematicScript` timeline**: its steps and step-list edits.

Modelling choices:

- Doubles and floats are modelled as mathematical reals.
- `Math.cos`, `sin`, `atan`, `atan2` and `sqrt` are left uninterpreted. They arrive as a `Geometry.MathFns` record of functions, so every statement about a path holds for any choice of them. Where a statement needs a trigonometric fact (`cos 0 = 1`, `cos² + sin² = 1`), the lemma takes it as a precondition.
- Java's `int` arithmetic in `hashCode` is written out as 32-bit wrap-around over a string's UTF-16 code units (a character above U+FFFF counts as its surrogate pair), and the `long` subtraction and `Math.abs` of the time-of-day check as 64-bit wrap-around. The `long % 24000` of the time-of-day check is Java's truncating remainder. `(int)(float * 20)` truncates toward zero and saturates.
- `HashMap` iteration order is not specified by Java. Wherever the source iterates a map, the order is an input sequence that enumerates the keys exactly once.
- The detector reads several things from the world: which players are online, the structure at a player's position, the world time and the bindings. These arrive as a `World` value or as plain parameters.
- The timeline reads the game time as a parameter `now`. Its calls into the cinematic manager are returned as a list of `Effect`s.

Four behaviours of the code are modelled as written and stated by lemmas:

- **Wildcards.** A wildcard pattern is escaped *before* `*` and `?` are replaced. So `*` only matches runs of literal dots and `?` a single dot (`WildcardPattern.ShellStyleStarDoesNotMatch`).
- **Starting a script.** `startCameraScript` replaces a player's previous context without stopping it.
- **Rule delays.** A rule's delay is only waited when the rule start time is already set. A freshly entered rule therefore starts its first route on the next update (`TimelineProcessor.DelayNotWaited`). The route index is not reset when moving to the next rule (`TimelineProcessor.ShorterNextRuleIsSkipped`).
- **Single time patterns.** `Math.abs(currentTime - targetTime) <= 250` is computed on `long`s. A difference of exactly `Long.MIN_VALUE` has a negative absolute value and matches, so the pattern `9223372036854775807` matches time -1 (`TimePattern.FarTargetMatchesMinusOne`).

## Model

| member | source | states |
|---|---|---|
| Angles.Ticks | src/main/java/com/example/immersive_cinematics/script/LinearPath.java:31 | a duration in seconds becomes ticks at 20 per second; positive durations give positive tick counts |
| Angles.Progress | src/main/java/com/example/immersive_cinematics/script/LinearPath.java:37 | `min(t / duration, 1)`: never above 1, exactly 1 from the duration on, 0 at time 0, non-negative for non-negative time, and equal to `t / duration` below 1 |
| Angles.ProgressMonotone | src/main/java/com/example/immersive_cinematics/script/LinearPath.java:37 | progress never decreases as time grows |
| Angles.RemTwoPi | src/main/java/com/example/immersive_cinematics/script/SmoothLinearPath.java:75 | Java's floating `%` by 2π: the result has the dividend's sign, is smaller than 2π in magnitude, and differs from the input by whole turns |
| Angles.NormalizeAngle | src/main/java/com/example/immersive_cinematics/script/SmoothLinearPath.java:74-80 | the normalised angle lies in [0, 2π) and differs from the input by a whole number of turns |
| Angles.NormalizeIsFlooredRemainder | src/main/java/com/example/immersive_cinematics/script/SmoothLinearPath.java:74-80 | normalising equals the floored remainder `a - 2π·floor(a / 2π)`, an independent definition |
| Angles.NormalizeWholeTurns | src/main/java/com/example/immersive_cinematics/script/SmoothLinearPath.java:74-80 | angles a whole number of turns apart normalise to the same value |
| Angles.NormalizePeriodic | src/main/java/com/example/immersive_cinematics/script/SmoothLinearPath.java:74-80 | adding k full turns does not change the normalised angle |
| Angles.NormalizeIdempotent | src/main/java/com/example/immersive_cinematics/script/SmoothLinearPath.java:74-80 | normalising twice is normalising once |
| Angles.ReduceAbove | src/main/java/com/example/immersive_cinematics/script/SmoothLinearPath.java:54-56 | the first loop brings a difference to at most π, leaves one already there unchanged, stays above -π, and only removes whole turns |
| Angles.RaiseBelow | src/main/java/com/example/immersive_cinematics/script/SmoothLinearPath.java:57-59 | the second loop brings a difference to at least -π, leaves one already there unchanged, stays below π, and only adds whole turns |
| Angles.WrapDelta | src/main/java/com/example/immersive_cinematics/script/SmoothLinearPath.java:51-59 | the wrapped difference lies in [-π, π] and differs from the raw one by whole turns (the shortest arc) |
| Angles.InterpolateAngle | src/main/java/com/example/immersive_cinematics/script/SmoothLinearPath.java:50-67 | the result lies in [0, 2π); at fraction 0 it is the normalised start and at fraction 1 the normalised end |
| Angles.ShortestArcExample | src/main/java/com/example/immersive_cinematics/script/SmoothLinearPath.java:50-67 | half way from 350° to 10° is 0°, not 180° |
| Angles.EaseInOutQuad | src/main/java/com/example/immersive_cinematics/script/StationaryPanPath.java:79-81 | the easing maps [0, 1] into [0, 1], fixes 0, ½ and 1, stays below ½ in the first half and at or above ½ in the second |
| Angles.EaseBranchesMeet | src/main/java/com/example/immersive_cinematics/script/DollyZoomPath.java:105-107 | the two branches of the easing agree at ½, so the curve is continuous |
| Angles.EaseMonotone | src/main/java/com/example/immersive_cinematics/script/DollyZoomPath.java:105-107 | the easing never decreases on [0, 1] |
| Geometry.Lerp | src/main/java/com/example/immersive_cinematics/script/LinearPath.java:62-64 | interpolation gives the start at 0, the end at 1, and stays between them for fractions in [0, 1] |
| Geometry.LerpMonotone | src/main/java/com/example/immersive_cinematics/script/LinearPath.java:62-64 | interpolation moves monotonically toward the end as the fraction grows |
| Geometry.LerpVec | src/main/java/com/example/immersive_cinematics/script/LinearPath.java:35-43 | coordinate-wise interpolation hits both ends and stays in the box they span |
| Geometry.LookAt | src/main/java/com/example/immersive_cinematics/script/DollyZoomPath.java:86-99 | the look-at rotation has zero roll |
| Geometry.ArcRotation | src/main/java/com/example/immersive_cinematics/script/BezierPath.java:45-50 | a rotation interpolated along the shortest arcs is normalised, has zero roll, and equals the normalised end rotations at fractions 0 and 1 |
| Geometry.CirclePoint | src/main/java/com/example/immersive_cinematics/script/OrbitPath.java:35-44 | a circle point sits at the centre's height plus the rise; at an angle with cos 1 and sin 0 it is due east of the centre |
| Geometry.CirclePointOnCircle | src/main/java/com/example/immersive_cinematics/script/OrbitPath.java:35-44 | given cos² + sin² = 1, the horizontal distance to the centre is the radius |
| LinearPath.New | src/main/java/com/example/immersive_cinematics/script/LinearPath.java:26-32 | the constructor keeps the ends and rotations and stores the duration in ticks |
| LinearPath.Position | src/main/java/com/example/immersive_cinematics/script/LinearPath.java:35-43 | the position starts at the start, is the end from the duration on, and stays between them |
| LinearPath.Rotation | src/main/java/com/example/immersive_cinematics/script/LinearPath.java:46-53 | pitch and yaw go from the start to the end rotation and stay between them; roll is 0 |
| LinearPath.LongWayRoundExample | src/main/java/com/example/immersive_cinematics/script/LinearPath.java:46-53 | without angle wrapping, half way from yaw 350° to 10° is 180°: the long way round |
| LinearPath.RestsAfterEnd | src/main/java/com/example/immersive_cinematics/script/LinearPath.java:37 | after the duration, every sample is the end state |
| DirectLinearPath.New | src/main/java/com/example/immersive_cinematics/script/DirectLinearPath.java:16-20 | the constructor keeps the ends and stores the duration in ticks |
| DirectLinearPath.Position | src/main/java/com/example/immersive_cinematics/script/DirectLinearPath.java:23-29 | the position starts at the start, reaches the end at the duration, and stays between them |
| DirectLinearPath.Rotation | src/main/java/com/example/immersive_cinematics/script/DirectLinearPath.java:32-47 | the camera looks at the end point: at time 0 this is the look-at from the start; once arrived, the offset is zero |
| DirectLinearPath.RotationDependsOnOffset | src/main/java/com/example/immersive_cinematics/script/DirectLinearPath.java:32-47 | the rotation depends only on the offset from the camera to the end point |
| SmoothLinearPath.New | src/main/java/com/example/immersive_cinematics/script/SmoothLinearPath.java:18-24 | the constructor keeps the ends and rotations and stores the duration in ticks |
| SmoothLinearPath.Position | src/main/java/com/example/immersive_cinematics/script/SmoothLinearPath.java:27-33 | the position starts at the start, reaches the end, and stays between them |
| SmoothLinearPath.Rotation | src/main/java/com/example/immersive_cinematics/script/SmoothLinearPath.java:36-41 | the rotation is normalised with zero roll and runs from the normalised start to the normalised end rotation |
| SmoothLinearPath.RotationIsLinearInTime | src/main/java/com/example/immersive_cinematics/script/SmoothLinearPath.java:36-41 | before the end, the rotation is the shortest-arc interpolation at fraction `t / duration` |
| BezierPath.New | src/main/java/com/example/immersive_cinematics/script/BezierPath.java:28-36 | the constructor keeps the three control points and the rotations and stores the duration in ticks |
| BezierPath.Bezier1 | src/main/java/com/example/immersive_cinematics/script/BezierPath.java:55-65 | the one-coordinate curve starts at the first point, ends at the last, and stays within the three points' range |
| BezierPath.ConvexCombination | src/main/java/com/example/immersive_cinematics/script/BezierPath.java:55-65 | a convex combination of three values lies between their minimum and maximum |
| BezierPath.QuadraticBezier | src/main/java/com/example/immersive_cinematics/script/BezierPath.java:55-65 | the curve starts at p0, ends at p2, and each coordinate stays within the control points' range |
| BezierPath.Position | src/main/java/com/example/immersive_cinematics/script/BezierPath.java:39-42 | the position starts at the start, reaches the end, and stays in the control points' box |
| BezierPath.Rotation | src/main/java/com/example/immersive_cinematics/script/BezierPath.java:45-50 | the rotation is normalised with zero roll and runs between the normalised end rotations |
| BezierPath.MidpointControlIsStraight | src/main/java/com/example/immersive_cinematics/script/BezierPath.java:55-65 | with the control point at the midpoint, the curve is plain linear interpolation |
| StationaryPanPath.New | src/main/java/com/example/immersive_cinematics/script/StationaryPanPath.java:24-29 | the constructor keeps the fixed point and rotations and stores the duration in ticks |
| StationaryPanPath.Position | src/main/java/com/example/immersive_cinematics/script/StationaryPanPath.java:32-34 | the camera never leaves its fixed point |
| StationaryPanPath.Rotation | src/main/java/com/example/immersive_cinematics/script/StationaryPanPath.java:37-45 | the pan is normalised with zero roll and runs from the normalised start to the normalised end rotation |
| StationaryPanPath.HalfTimeHalfArc | src/main/java/com/example/immersive_cinematics/script/StationaryPanPath.java:37-45 | at half the duration the eased pan is exactly half way along the arc |
| StationaryPanPath.EasedProgressLagsInFirstHalf | src/main/java/com/example/immersive_cinematics/script/StationaryPanPath.java:37-45 | during the first half of the duration the eased fraction is below ½ |
| DollyZoomPath.New | src/main/java/com/example/immersive_cinematics/script/DollyZoomPath.java:29-41 | the constructor stores the points, rotations, tick duration, and the FOV for each end computed from its distance to the target |
| DollyZoomPath.Eased | src/main/java/com/example/immersive_cinematics/script/DollyZoomPath.java:44-53 | the eased fraction is in [0, 1], 0 at time 0, 1 from the duration on |
| DollyZoomPath.Position | src/main/java/com/example/immersive_cinematics/script/DollyZoomPath.java:44-53 | the position starts at the start, reaches the end, and stays between them |
| DollyZoomPath.Rotation | src/main/java/com/example/immersive_cinematics/script/DollyZoomPath.java:56-59 | the camera looks at the target from its current position, from the start at time 0 to the end at the duration |
| DollyZoomPath.RotationDependsOnOffset | src/main/java/com/example/immersive_cinematics/script/DollyZoomPath.java:56-59 | the rotation depends only on the offset from the camera to the target |
| DollyZoomPath.ClampFov | src/main/java/com/example/immersive_cinematics/script/DollyZoomPath.java:62-69 | the FOV is clamped to [5, 120]: unchanged inside the range, pinned to the nearer bound outside |
| DollyZoomPath.Fov | src/main/java/com/example/immersive_cinematics/script/DollyZoomPath.java:62-69 | the FOV stays in [5, 120], starts and ends at the clamped end FOVs, and lies between them |
| DollyZoomPath.ClampBetween | src/main/java/com/example/immersive_cinematics/script/DollyZoomPath.java:62-69 | clamping preserves "lies between" |
| DollyZoomPath.FovMonotone | src/main/java/com/example/immersive_cinematics/script/DollyZoomPath.java:62-69 | the FOV changes monotonically over time in the direction from the start to the end FOV |
| DollyZoomPath.FovDependsOnlyOnDistances | src/main/java/com/example/immersive_cinematics/script/DollyZoomPath.java:74-81 | two dolly zooms whose ends are at equal distances from their targets have the same FOV at every time |
| OrbitPath.New | src/main/java/com/example/immersive_cinematics/script/OrbitPath.java:26-32 | the constructor keeps centre, radius and height, turns speed per second into speed per tick, and starts at angle 0 |
| OrbitPath.DurationIgnored | src/main/java/com/example/immersive_cinematics/script/OrbitPath.java:26-32 | the duration argument has no effect on the orbit built |
| OrbitPath.AngleUnclamped | src/main/java/com/example/immersive_cinematics/script/OrbitPath.java:35-44 | the orbit angle grows with time without any clamp: `angle · 20 = speed · t` |
| OrbitPath.Position | src/main/java/com/example/immersive_cinematics/script/OrbitPath.java:35-44 | the camera flies at the centre's height plus the orbit height |
| OrbitPath.StartsEastOfCenter | src/main/java/com/example/immersive_cinematics/script/OrbitPath.java:35-44 | at time 0 the camera is one radius east of the centre |
| OrbitPath.StaysOnCircle | src/main/java/com/example/immersive_cinematics/script/OrbitPath.java:35-44 | the horizontal distance to the centre is always the radius |
| OrbitPath.Rotation | src/main/java/com/example/immersive_cinematics/script/OrbitPath.java:47-66 | the orbit's rotation has zero roll |
| OrbitPath.PitchConstant | src/main/java/com/example/immersive_cinematics/script/OrbitPath.java:47-66 | on the circle, the pitch toward the centre is the same at every time |
| OrbitPath.RotationDependsOnOffset | src/main/java/com/example/immersive_cinematics/script/OrbitPath.java:47-66 | the rotation depends only on the offset from the camera to the centre |
| SpiralPath.Turned | src/main/java/com/example/immersive_cinematics/script/SpiralPath.java:61-74 | no angle is turned at progress 0 |
| SpiralPath.PositionAt | src/main/java/com/example/immersive_cinematics/script/SpiralPath.java:61-74 | the spiral starts on the circle at angle 0 and ends at the full height |
| SpiralPath.New | src/main/java/com/example/immersive_cinematics/script/SpiralPath.java:27-38 | the constructor stores `speed · π/180 · 20` as the angle added per tick, spreads the height over the duration in ticks, and stores the look-at rotations of both ends |
| SpiralPath.Position | src/main/java/com/example/immersive_cinematics/script/SpiralPath.java:41-50 | the spiral starts at the centre's height one radius east and ends at the full climb |
| SpiralPath.CalculatePosition | src/main/java/com/example/immersive_cinematics/script/SpiralPath.java:79-88 | the private `calculatePosition` agrees with `getPosition` at every time |
| SpiralPath.Rotation | src/main/java/com/example/immersive_cinematics/script/SpiralPath.java:53-56 | the spiral's rotation has zero roll |
| SpiralPath.ClimbsToHeight | src/main/java/com/example/immersive_cinematics/script/SpiralPath.java:41-50 | the height climbed is the total height times the progress |
| SpiralPath.Settles | src/main/java/com/example/immersive_cinematics/script/SpiralPath.java:41-50 | after the duration the spiral rests at its end point |
| SpiralPath.StoredRotationsMatchEnds | src/main/java/com/example/immersive_cinematics/script/SpiralPath.java:27-38 | the rotations the constructor stores are the rotations sampled at both ends |
| SpiralPath.RotationDependsOnOffset | src/main/java/com/example/immersive_cinematics/script/SpiralPath.java:53-56 | the rotation depends only on the offset from the camera to the centre |
| MovementPath.Position | src/main/java/com/example/immersive_cinematics/script/IMovementPath.java:10-26 | a pan stays at its fixed point; an orbit flies at its fixed height |
| MovementPath.Rotation | src/main/java/com/example/immersive_cinematics/script/IMovementPath.java:10-26 | every path reports zero roll; the arc-interpolating paths report normalised angles |
| MovementPath.Fov | src/main/java/com/example/immersive_cinematics/script/IMovementPath.java:34-36 | paths other than the dolly zoom report the default 70°; the dolly zoom stays in [5, 120] |
| MovementPath.FovInRange | src/main/java/com/example/immersive_cinematics/script/IMovementPath.java:34-36 | every path's FOV lies in [5, 120] |
| MovementPath.SettersAreUnobservable | src/main/java/com/example/immersive_cinematics/script/IMovementPath.java:49-60 | the default `setHeadingOffset` and `setFOVRange` change no sample of any path |
| MovementPath.Build | src/main/java/com/example/immersive_cinematics/director/TimelineProcessor.java:265-380 | each construction builds the path kind it names, never a plain linear path, and the result can be sampled exactly when the duration is positive (an orbit always) |
| MovementPath.OrbitHeadingIgnored | src/main/java/com/example/immersive_cinematics/director/TimelineProcessor.java:303-313 | the heading offset handed to an orbit has no effect on the path |
| MovementPath.PanStaysAtStart | src/main/java/com/example/immersive_cinematics/director/TimelineProcessor.java:265-380 | a built stationary pan stays at its start point |
| CameraScript.ParsePathType | src/main/java/com/example/immersive_cinematics/director/CameraScript.java:610-618 | `PathType.valueOf` succeeds only on a constant's exact name |
| CameraScript.PathTypeNames | src/main/java/com/example/immersive_cinematics/director/CameraScript.java:610-618 | parsing a constant's name gives that constant, and a name parses exactly when some constant has it |
| CameraScript.ParseTriggerType | src/main/java/com/example/immersive_cinematics/director/CameraScript.java:621-629 | `TriggerType.valueOf` succeeds only on a constant's exact name |
| CameraScript.TriggerTypeNames | src/main/java/com/example/immersive_cinematics/director/CameraScript.java:621-629 | parsing a constant's name gives that constant, and a name parses exactly when some constant has it |
| CameraScript.DecodeEncodeList | src/main/java/com/example/immersive_cinematics/director/CameraScript.java:184-224 | decoding a list of encoded elements gives each element back, in order, when each element's decoder undoes its encoder |
| CameraScript.ConditionFromNbt | src/main/java/com/example/immersive_cinematics/director/CameraScript.java:601-606 | decoding succeeds exactly when the stored `triggerType` names a constant; the condition then has that kind and carries the stored parameter and value |
| CameraScript.ConditionRoundTrip | src/main/java/com/example/immersive_cinematics/director/CameraScript.java:593-606 | decoding an encoded condition gives it back, with a null parameter read back as "" |
| CameraScript.GetVec | src/main/java/com/example/immersive_cinematics/director/CameraScript.java:504-547 | a vector is read back exactly when its key is present |
| CameraScript.VecRoundTrip | src/main/java/com/example/immersive_cinematics/director/CameraScript.java:441-547 | a vector written under a fresh key reads back unchanged, and null writes nothing |
| CameraScript.RouteFromNbt | src/main/java/com/example/immersive_cinematics/director/CameraScript.java:484-550 | decoding fails exactly when the path type name is unknown; it reads the name; it reads a start position only when present; the heading defaults when absent |
| CameraScript.RouteRoundTrip | src/main/java/com/example/immersive_cinematics/director/CameraScript.java:423-550 | decoding an encoded route gives it back, with a null name read back as "" |
| CameraScript.RouteToNbtKeepsVectors | src/main/java/com/example/immersive_cinematics/director/CameraScript.java:441-547 | the vectors read back from an encoded route are the route's own |
| CameraScript.NewRule | src/main/java/com/example/immersive_cinematics/director/CameraScript.java:124-134 | a new rule has its name, no routes, no conditions, no looping and no delay |
| CameraScript.AddRoute | src/main/java/com/example/immersive_cinematics/director/CameraScript.java:148-150 | the route goes at the end, the earlier routes are kept in order, and nothing else changes |
| CameraScript.RemoveRoute | src/main/java/com/example/immersive_cinematics/director/CameraScript.java:152-154 | an absent route leaves the rule unchanged; otherwise the first equal route is removed and the others keep their order (one fewer, multiset minus that route); nothing else changes |
| CameraScript.AddCondition | src/main/java/com/example/immersive_cinematics/director/CameraScript.java:160-162 | the condition goes at the end, the earlier ones are kept in order, and nothing else changes |
| CameraScript.RemoveCondition | src/main/java/com/example/immersive_cinematics/director/CameraScript.java:164-166 | an absent condition leaves the rule unchanged; otherwise the first equal condition is removed and the others keep their order; nothing else changes |
| CameraScript.RuleEditsUndo | src/main/java/com/example/immersive_cinematics/director/CameraScript.java:148-166 | removing a route or condition just added, and absent before, restores the rule |
| CameraScript.RuleFromNbt | src/main/java/com/example/immersive_cinematics/director/CameraScript.java:205-224 | a decoded rule carries the stored name, looping flag and delay, and as many routes as the stored list |
| CameraScript.RuleRoundTrip | src/main/java/com/example/immersive_cinematics/director/CameraScript.java:184-224 | decoding an encoded rule gives it back, its routes and conditions normalised |
| CameraScript.NewScript | src/main/java/com/example/immersive_cinematics/director/CameraScript.java:26-35 | a new script has its name, description and id and no shot rules |
| CameraScript.AddShotRule | src/main/java/com/example/immersive_cinematics/director/CameraScript.java:68-71 | `List.add` on the rules: the new rule is last, the rest kept; name, description and id unchanged |
| CameraScript.RemoveShotRule | src/main/java/com/example/immersive_cinematics/director/CameraScript.java:73-76 | `List.remove(Object)` on the rules: the first equal rule is removed; name, description and id unchanged |
| CameraScript.RuleCountAfterEdits | src/main/java/com/example/immersive_cinematics/director/CameraScript.java:68-80 | adding a rule raises the count by one; removing a present rule lowers it by one; removing an absent one changes nothing |
| CameraScript.ScriptFromNbt | src/main/java/com/example/immersive_cinematics/director/CameraScript.java:99-114 | a decoded script carries the stored name and description, and an id that parses from the stored text |
| CameraScript.ScriptRoundTrip | src/main/java/com/example/immersive_cinematics/director/CameraScript.java:83-114 | decoding an encoded script gives it back, its rules normalised |
| UuidText.HexValue | src/main/java/com/example/immersive_cinematics/director/CameraScript.java:102 | a character has a hex value exactly when it is a decimal digit or a letter a–f in either case |
| UuidText.ParseHex | src/main/java/com/example/immersive_cinematics/director/CameraScript.java:102 | parsing hex text succeeds exactly when every character is a hex digit, and yields each digit's value in order |
| UuidText.ToString | src/main/java/com/example/immersive_cinematics/director/CameraScript.java:87 | `UUID.toString` is 36 characters with dashes at positions 8, 13, 18 and 23 |
| UuidText.FromString | src/main/java/com/example/immersive_cinematics/director/CameraScript.java:102 | parsing succeeds exactly on 36 characters with dashes at 8, 13, 18 and 23 and hex digits of either case elsewhere; the UUID then holds those 32 digits' values in order |
| UuidText.ParseHexOfHex | src/main/java/com/example/immersive_cinematics/director/CameraScript.java:87-102 | reading hex digits back gives the nibbles written |
| UuidText.FromToString | src/main/java/com/example/immersive_cinematics/director/CameraScript.java:87-102 | parsing a UUID's text gives the UUID back |
| TriggerBinding.Wrap32 | src/main/java/com/example/immersive_cinematics/director/TriggerBinding.java:118-124 | 32-bit wrap-around: congruent to the input mod 2³², and the identity on values that fit |
| TriggerBinding.CodeUnits | src/main/java/com/example/immersive_cinematics/director/TriggerBinding.java:119-120 | a character is one code unit below U+10000 and otherwise a high and a low surrogate that encode it |
| TriggerBinding.Utf16 | src/main/java/com/example/immersive_cinematics/director/TriggerBinding.java:119-120 | a string has between one and two code units per character, each in [0, 0xFFFF] |
| TriggerBinding.Utf16OfBasicPlane | src/main/java/com/example/immersive_cinematics/director/TriggerBinding.java:119-120 | a string without characters above U+FFFF has exactly its characters as code units |
| TriggerBinding.UnitsHash | src/main/java/com/example/immersive_cinematics/director/TriggerBinding.java:119-120 | the hash loop over no code units gives 0 |
| TriggerBinding.UnitsHashIsPolynomial | src/main/java/com/example/immersive_cinematics/director/TriggerBinding.java:119-120 | the hash loop with wrap-around at each step equals the wrapped base-31 polynomial of the code units |
| TriggerBinding.StringHash | src/main/java/com/example/immersive_cinematics/director/TriggerBinding.java:119-120 | `String.hashCode` is the wrapped base-31 polynomial of the UTF-16 code units, and 0 for the empty string |
| TriggerBinding.SupplementaryCharHash | src/main/java/com/example/immersive_cinematics/director/TriggerBinding.java:119-120 | U+1F600 hashes as its surrogate pair, to `31·0xD83D + 0xDE00` |
| TriggerBinding.Serialize | src/main/java/com/example/immersive_cinematics/director/TriggerBinding.java:65-72 | exactly the keys id, scriptName, triggerType and delay are written |
| TriggerBinding.DecodeKind | src/main/java/com/example/immersive_cinematics/director/TriggerBinding.java:78-89 | the legacy names DIMENSION_ENTRY and DIMENSION_EXIT map to DIMENSION_CHANGE, a constant's name maps to that constant, and anything else falls back to DIMENSION_CHANGE |
| TriggerBinding.Deserialize | src/main/java/com/example/immersive_cinematics/director/TriggerBinding.java:75-92 | the id, script name and type come from their keys, and the delay is read back when it fits an int |
| TriggerBinding.RoundTrip | src/main/java/com/example/immersive_cinematics/director/TriggerBinding.java:65-92 | deserialising a serialised binding gives it back |
| TriggerBinding.LegacyKinds | src/main/java/com/example/immersive_cinematics/director/TriggerBinding.java:82-89 | legacy or unknown type names become DIMENSION_CHANGE |
| TriggerBinding.EqualsIsValueEquality | src/main/java/com/example/immersive_cinematics/director/TriggerBinding.java:105-115 | `equals` holds exactly when all four fields agree |
| TriggerBinding.EqualsImpliesEqualHash | src/main/java/com/example/immersive_cinematics/director/TriggerBinding.java:105-124 | equal bindings have equal hash codes |
| TriggerBinding.HashIsPolynomial | src/main/java/com/example/immersive_cinematics/director/TriggerBinding.java:118-124 | the hash is the wrapped `31³·id + 31²·script + 31·type + delay` |
| CameraStateRecorder.NewState | src/main/java/com/example/immersive_cinematics/util/CameraStateRecorder.java:36-46 | a new state is at the origin looking at the origin, with zero angles, FOV 70, speed and sensitivity 1, cinematic mode off |
| CameraStateRecorder.ToMovementRoute | src/main/java/com/example/immersive_cinematics/util/CameraStateRecorder.java:123-131 | the route takes the state's position, target, FOV, yaw and pitch as its start, and is otherwise the default route |
| CameraStateRecorder.RaisedMidpoint | src/main/java/com/example/immersive_cinematics/util/CameraStateRecorder.java:214-218 | the Bézier control point is the midpoint of the two positions raised by 5 blocks |
| CameraStateRecorder.CreateRouteFromStates | src/main/java/com/example/immersive_cinematics/util/CameraStateRecorder.java:197-230 | the route runs between the two states for 5 seconds; orbit, spiral and dolly zoom target the end position; Bézier gets the raised midpoint; name, speed, radius, height, strength, direction, heading and background point keep their defaults |
| CameraStateRecorder.PanBranchChangesNothing | src/main/java/com/example/immersive_cinematics/util/CameraStateRecorder.java:221-226 | the stationary-pan branch re-sets values already set, so the route differs from a direct one only in its type |
| CameraStateRecorder.SetRecordingEnabled | src/main/java/com/example/immersive_cinematics/util/CameraStateRecorder.java:145-147 | only the enabled flag changes |
| CameraStateRecorder.Reset | src/main/java/com/example/immersive_cinematics/util/CameraStateRecorder.java:251-254 | reset forgets the last state and disables recording |
| CinematicScript.NewMoveStep | src/main/java/com/example/immersive_cinematics/script/CinematicScript.java:160-162 | a move step has duration 0 and no path settings |
| CinematicScript.NewWaitStep | src/main/java/com/example/immersive_cinematics/script/CinematicScript.java:305-307 | a wait step has the given duration |
| CinematicScript.NewTitleStep | src/main/java/com/example/immersive_cinematics/script/CinematicScript.java:335-341 | a title step fades in 10, stays 50 and fades out 20 ticks, with no texts and no black bars |
| CinematicScript.NewCommandStep | src/main/java/com/example/immersive_cinematics/script/CinematicScript.java:410-413 | a command step has no command and does not run as the player |
| CinematicScript.NewScript | src/main/java/com/example/immersive_cinematics/script/CinematicScript.java:24-28 | the default script is "Untitled Script" / "No description" with an empty timeline |
| CinematicScript.NewNamedScript | src/main/java/com/example/immersive_cinematics/script/CinematicScript.java:30-34 | a named script has its name and description and an empty timeline |
| CinematicScript.AddStep | src/main/java/com/example/immersive_cinematics/script/CinematicScript.java:60-62 | the step goes at the end of the timeline |
| CinematicScript.RemoveStep | src/main/java/com/example/immersive_cinematics/script/CinematicScript.java:64-68 | a valid index removes that step and shifts the later ones down; an invalid index changes nothing |
| CinematicScript.GetStep | src/main/java/com/example/immersive_cinematics/script/CinematicScript.java:70-75 | a step is returned exactly for a valid index, and null otherwise |
| CinematicScript.AddThenGetAndRemove | src/main/java/com/example/immersive_cinematics/script/CinematicScript.java:60-75 | an added step is found at the last index, and removing it restores the script |
| CinematicScript.GetAfterRemove | src/main/java/com/example/immersive_cinematics/script/CinematicScript.java:64-75 | after removing index i, indices below i are unchanged and the rest read the next step |
| TimelineProcessor.Started | src/main/java/com/example/immersive_cinematics/director/TimelineProcessor.java:173-179 | starting execution selects the first rule and route, records the start tick, and makes the context active and consistent |
| TimelineProcessor.CurrentRule | src/main/java/com/example/immersive_cinematics/director/TimelineProcessor.java:141-146 | there is a current rule exactly while the rule index is in range |
| TimelineProcessor.CurrentRoute | src/main/java/com/example/immersive_cinematics/director/TimelineProcessor.java:148-154 | there is a current route exactly while both indices are in range |
| TimelineProcessor.CreateMovementPath | src/main/java/com/example/immersive_cinematics/director/TimelineProcessor.java:265-380 | a path is built exactly when the fields its type needs are present (the start defaulting to the player's position), with the route's duration |
| TimelineProcessor.CreateMovementPathKinds | src/main/java/com/example/immersive_cinematics/director/TimelineProcessor.java:265-380 | each route type builds its own path kind, and the explicit start position is used when given |
| TimelineProcessor.StartRouteEffects | src/main/java/com/example/immersive_cinematics/director/TimelineProcessor.java:252-263 | starting a route executes the built path for the route's duration, or does nothing when no path can be built |
| TimelineProcessor.FinishRoute | src/main/java/com/example/immersive_cinematics/director/TimelineProcessor.java:216-241 | a finished route advances to the next route, wraps to the first when the rule loops, or moves to the next rule |
| TimelineProcessor.RunRoutes | src/main/java/com/example/immersive_cinematics/director/TimelineProcessor.java:216-249 | running a rule keeps the script and the flags and advances the rule index by at most one |
| TimelineProcessor.Update | src/main/java/com/example/immersive_cinematics/director/TimelineProcessor.java:191-250 | an inactive context is untouched; a finished script completes and stops the cinematic; the rule index never decreases; consistency and completion are kept |
| TimelineProcessor.WaitsOutDelay | src/main/java/com/example/immersive_cinematics/director/TimelineProcessor.java:207-213 | while the rule delay has not elapsed, an update does nothing |
| TimelineProcessor.DelayNotWaited | src/main/java/com/example/immersive_cinematics/director/TimelineProcessor.java:207-229 | on a freshly entered rule the first route starts at once; the delay clock starts at the same tick |
| TimelineProcessor.UnbuildableRouteOccupiesItsDuration | src/main/java/com/example/immersive_cinematics/director/TimelineProcessor.java:216-229 | a route whose path cannot be built still starts its clock and holds its place for its duration |
| TimelineProcessor.RouteEndsWhenElapsed | src/main/java/com/example/immersive_cinematics/director/TimelineProcessor.java:216-241 | a running route finishes exactly when its duration has elapsed |
| TimelineProcessor.ExhaustedRuleIsSkipped | src/main/java/com/example/immersive_cinematics/director/TimelineProcessor.java:243-249 | a rule entered with its route index past its routes is skipped without running anything |
| TimelineProcessor.LoopingRuleNeverAdvances | src/main/java/com/example/immersive_cinematics/director/TimelineProcessor.java:231-241 | a looping rule is never left, whatever the sequence of updates |
| TimelineProcessor.ShorterNextRuleIsSkipped | src/main/java/com/example/immersive_cinematics/director/TimelineProcessor.java:231-249 | because the route index is not reset, a next rule with no more routes is skipped entirely |
| TimelineProcessor.StartScript | src/main/java/com/example/immersive_cinematics/director/TimelineProcessor.java:41-60 | with no player or an unknown script nothing changes; otherwise the player's context is replaced by a fresh started one |
| TimelineProcessor.StopScript | src/main/java/com/example/immersive_cinematics/director/TimelineProcessor.java:63-70 | stopping removes the player's context and, when there was one, stops the movement and the cinematic if it is active |
| TimelineProcessor.UpdatePlayer | src/main/java/com/example/immersive_cinematics/director/TimelineProcessor.java:73-83 | only the updated player's context can change; players without an active context are untouched; consistency is kept |
| TimelineProcessor.StartThenStop | src/main/java/com/example/immersive_cinematics/director/TimelineProcessor.java:41-89 | a started script is active and is no longer active after a stop |
| TimelineProcessor.FinishedScriptIsRemoved | src/main/java/com/example/immersive_cinematics/director/TimelineProcessor.java:73-83 | a script past its last rule stops the cinematic and its context is removed |
| WildcardPattern.CharPipeline | src/main/java/com/example/immersive_cinematics/trigger/WorldEventDetector.java:428-430 | escaping then replacing `*` and `?` turns each pattern character into its own piece of expression |
| WildcardPattern.ParseToRegex | src/main/java/com/example/immersive_cinematics/trigger/WorldEventDetector.java:428-433 | the compiled expression always parses, to one token per pattern character |
| WildcardPattern.MatchTokensIsGlob | src/main/java/com/example/immersive_cinematics/trigger/WorldEventDetector.java:432-434 | matching the tokens agrees with the direct wildcard definition `Glob` |
| WildcardPattern.MatchesPattern | src/main/java/com/example/immersive_cinematics/trigger/WorldEventDetector.java:423-439 | a null side never matches; otherwise the result is exactly `Glob` of pattern and target |
| WildcardPattern.StarMatchesOnlyDots | src/main/java/com/example/immersive_cinematics/trigger/WorldEventDetector.java:423-443 | the pattern `*` matches exactly the strings made of dots |
| WildcardPattern.LiteralPattern | src/main/java/com/example/immersive_cinematics/trigger/WorldEventDetector.java:423-443 | a pattern without wildcards matches exactly the same text up to ASCII case |
| WildcardPattern.PrefixThenStar | src/main/java/com/example/immersive_cinematics/trigger/WorldEventDetector.java:423-443 | `prefix*` can only match when everything after the prefix is dots |
| WildcardPattern.ShellStyleStarDoesNotMatch | src/main/java/com/example/immersive_cinematics/trigger/WorldEventDetector.java:423-443 | `minecraft:the_*` does not match `minecraft:the_end` |
| WildcardPattern.CaseIsIgnored | src/main/java/com/example/immersive_cinematics/trigger/WorldEventDetector.java:433 | matching ignores case |
| WildcardPattern.PlusIsLiteral | src/main/java/com/example/immersive_cinematics/trigger/WorldEventDetector.java:441-443 | an escaped `+` only matches itself |
| WildcardPattern.DotIsLiteral | src/main/java/com/example/immersive_cinematics/trigger/WorldEventDetector.java:441-443 | an escaped `.` only matches a dot |
| TimePattern.SplitAll | src/main/java/com/example/immersive_cinematics/trigger/WorldEventDetector.java:247 | splitting always yields a part, and no part contains the separator |
| TimePattern.DropTrailingEmpty | src/main/java/com/example/immersive_cinematics/trigger/WorldEventDetector.java:247 | `String.split` keeps a prefix of the parts whose last part is non-empty, dropping only empty ones |
| TimePattern.SplitTwo | src/main/java/com/example/immersive_cinematics/trigger/WorldEventDetector.java:246-248 | `a-b` with non-empty `b` and no other dash splits into exactly `[a, b]` |
| TimePattern.TrimStart | src/main/java/com/example/immersive_cinematics/trigger/WorldEventDetector.java:250-251 | trimming the front leaves a suffix that does not start with a character ≤ space |
| TimePattern.TrimEnd | src/main/java/com/example/immersive_cinematics/trigger/WorldEventDetector.java:250-251 | trimming the back leaves a prefix that does not end with a character ≤ space |
| TimePattern.TrimNoBlank | src/main/java/com/example/immersive_cinematics/trigger/WorldEventDetector.java:250-251 | trimming text without blanks at its ends changes nothing |
| TimePattern.ParseLong | src/main/java/com/example/immersive_cinematics/trigger/WorldEventDetector.java:250-251 | `Long.parseLong` succeeds exactly on an optional sign followed by at least one digit whose value fits a long, and then gives that value; so a `+`-prefixed numeral gives its digits' value, an unsigned numeral above the largest long fails, and any other text fails |
| TimePattern.IsTimeMatch | src/main/java/com/example/immersive_cinematics/trigger/WorldEventDetector.java:244-272 | without a dash the pattern matches when it parses as a long and the `long` comparison `Math.abs(t - target) <= 250` holds, wrap-around included; a dash pattern not splitting into two parts never matches |
| TimePattern.RangePattern | src/main/java/com/example/immersive_cinematics/trigger/WorldEventDetector.java:246-261 | `a-b` matches exactly the times in the range from a to b, wrapping past midnight when a > b |
| TimePattern.WrapLong | src/main/java/com/example/immersive_cinematics/trigger/WorldEventDetector.java:266 | `long` arithmetic: the result is a long congruent to the exact value modulo 2⁶⁴, and equals it when it is already a long |
| TimePattern.AbsLong | src/main/java/com/example/immersive_cinematics/trigger/WorldEventDetector.java:266 | `Math.abs(long)` is non-negative and ± its argument, except at `Long.MIN_VALUE`, where it stays negative |
| TimePattern.SinglePattern | src/main/java/com/example/immersive_cinematics/trigger/WorldEventDetector.java:262-269 | a single number v matches time t exactly when t is in [v − 250, v + 250], or t − v is `Long.MIN_VALUE`, or t − v wraps round to at most 250 |
| TimePattern.DayTimeSinglePattern | src/main/java/com/example/immersive_cinematics/trigger/WorldEventDetector.java:262-269 | for a time of day (abs < 24000), a single number v matches exactly the times in [v − 250, v + 250] and the time v + `Long.MIN_VALUE` |
| TimePattern.MaxTargetMatchesMinusOne | src/main/java/com/example/immersive_cinematics/trigger/WorldEventDetector.java:262-269 | the largest long as a pattern matches time -1, which is not within 250 ticks of it |
| TimePattern.FarTargetMatchesMinusOne | src/main/java/com/example/immersive_cinematics/trigger/WorldEventDetector.java:262-269 | the pattern `9223372036854775807` matches time -1 |
| TimePattern.TrailingDashMatchesNothing | src/main/java/com/example/immersive_cinematics/trigger/WorldEventDetector.java:246-261 | `a-` splits into one part and matches nothing |
| TimePattern.NonNumeralMatchesNothing | src/main/java/com/example/immersive_cinematics/trigger/WorldEventDetector.java:262-270 | a pattern without a dash whose trimmed text is not a signed numeral matches no time (the `NumberFormatException` path) |
| TimePattern.NonNumeralRangeMatchesNothing | src/main/java/com/example/immersive_cinematics/trigger/WorldEventDetector.java:246-261 | a two-part range with either end not a signed numeral matches no time |
| TimePattern.NoonMatchesNothing | src/main/java/com/example/immersive_cinematics/trigger/WorldEventDetector.java:262-270 | the pattern `noon` matches no time |
| WorldEventDetector.InitPlayer | src/main/java/com/example/immersive_cinematics/trigger/WorldEventDetector.java:351-357 | a known player's data is kept; an unknown player gets fresh data; nobody else changes |
| WorldEventDetector.Schedule | src/main/java/com/example/immersive_cinematics/trigger/WorldEventDetector.java:376-390 | a delay ≤ 0 dispatches at once and changes nothing; a positive delay appends a task counting down from the delay; other players' queues are untouched |
| WorldEventDetector.ImmediateMembers | src/main/java/com/example/immersive_cinematics/trigger/WorldEventDetector.java:376-390 | the immediate dispatches are exactly the requests with delay ≤ 0, sent to this player |
| WorldEventDetector.DelayedMembers | src/main/java/com/example/immersive_cinematics/trigger/WorldEventDetector.java:376-390 | the queued tasks are exactly the requests with positive delay, each counting down from its delay |
| WorldEventDetector.ScheduleAll | src/main/java/com/example/immersive_cinematics/trigger/WorldEventDetector.java:376-390 | scheduling a list of requests sends the immediate ones, appends the delayed ones to the player's queue in order, and touches no other player |
| WorldEventDetector.ScheduleInTurnIsScheduleAll | src/main/java/com/example/immersive_cinematics/trigger/WorldEventDetector.java:156-164 | calling `scheduleScriptTrigger` once per request, as the handlers' loops do, gives exactly that closed form |
| WorldEventDetector.TickQueue | src/main/java/com/example/immersive_cinematics/trigger/WorldEventDetector.java:399-415 | each task is either kept or fired, and every kept task still has ticks left |
| WorldEventDetector.TickQueueAppend | src/main/java/com/example/immersive_cinematics/trigger/WorldEventDetector.java:399-415 | ticking a queue ticks each task independently and in order |
| WorldEventDetector.AfterTicksAppend | src/main/java/com/example/immersive_cinematics/trigger/WorldEventDetector.java:399-415 | k ticks of a joined queue are k ticks of each part |
| WorldEventDetector.ExactCountdown | src/main/java/com/example/immersive_cinematics/trigger/WorldEventDetector.java:399-415 | a task with delay n counts down one per tick and fires on exactly the n-th tick |
| WorldEventDetector.ScheduledTaskFiresOnDelay | src/main/java/com/example/immersive_cinematics/trigger/WorldEventDetector.java:376-415 | a newly scheduled task fires on tick n and no other, without disturbing the tasks queued before it |
| WorldEventDetector.SentToNotify | src/main/java/com/example/immersive_cinematics/trigger/WorldEventDetector.java:405-412 | notifications reach only the player they are addressed to |
| WorldEventDetector.TaskDispatches | src/main/java/com/example/immersive_cinematics/trigger/WorldEventDetector.java:392-420 | fired tasks are dispatched only to online players |
| WorldEventDetector.SentToTaskDispatches | src/main/java/com/example/immersive_cinematics/trigger/WorldEventDetector.java:392-420 | an online player receives exactly its fired tasks, in queue order; an offline one receives nothing |
| WorldEventDetector.ProcessScheduledTasks | src/main/java/com/example/immersive_cinematics/trigger/WorldEventDetector.java:392-420 | every queue is ticked and emptied queues are removed; each online player receives exactly its fired scripts and offline players receive none |
| WorldEventDetector.BindingRequests | src/main/java/com/example/immersive_cinematics/trigger/WorldEventDetector.java:151-163 | the requests are exactly the selected bindings' script names and delays |
| WorldEventDetector.OnLogin | src/main/java/com/example/immersive_cinematics/trigger/WorldEventDetector.java:138-165 | login records the dimension as last and visited and schedules every login binding for this player only |
| WorldEventDetector.LoginDispatches | src/main/java/com/example/immersive_cinematics/trigger/WorldEventDetector.java:138-165 | a login dispatch goes out at once exactly for a login binding with delay ≤ 0 |
| WorldEventDetector.DelayTicks | src/main/java/com/example/immersive_cinematics/trigger/WorldEventDetector.java:129 | `(int)(seconds * 20)` is an int, truncates toward zero, and keeps the sign |
| WorldEventDetector.ConditionRequests | src/main/java/com/example/immersive_cinematics/trigger/WorldEventDetector.java:117-132 | every request is for this script with the rule's delay, and one exists exactly when some dimension-change condition matches the new dimension |
| WorldEventDetector.ConditionRequestsSnoc | src/main/java/com/example/immersive_cinematics/trigger/WorldEventDetector.java:117-132 | a condition added at the end adds one request at the end exactly when it fires |
| WorldEventDetector.ConditionRequestsCount | src/main/java/com/example/immersive_cinematics/trigger/WorldEventDetector.java:117-132 | a rule makes as many requests as it has firing conditions, counted by position, so duplicates each count |
| WorldEventDetector.RuleRequests | src/main/java/com/example/immersive_cinematics/trigger/WorldEventDetector.java:113-133 | the requests of a script are the union of its rules' condition requests, each with the rule's delay |
| WorldEventDetector.DimensionRequests | src/main/java/com/example/immersive_cinematics/trigger/WorldEventDetector.java:107-134 | the requests are the union over every stored script |
| WorldEventDetector.OnDimensionChange | src/main/java/com/example/immersive_cinematics/trigger/WorldEventDetector.java:86-135 | the new dimension becomes the last one, and every matching rule is scheduled for this player only |
| WorldEventDetector.DimensionRequestsMatch | src/main/java/com/example/immersive_cinematics/trigger/WorldEventDetector.java:86-135 | a script is requested exactly when one of its rules has a dimension-change condition matching the dimension, with that rule's delay in ticks |
| WorldEventDetector.ScanForStructures | src/main/java/com/example/immersive_cinematics/trigger/WorldEventDetector.java:191-215 | the structure found becomes current; entering a different structure fires enter bindings, leaving all structures fires exit bindings, otherwise nothing |
| WorldEventDetector.ScanIsIdempotent | src/main/java/com/example/immersive_cinematics/trigger/WorldEventDetector.java:191-215 | scanning again with the same result changes nothing and sends nothing |
| WorldEventDetector.SwitchingStructuresSkipsExit | src/main/java/com/example/immersive_cinematics/trigger/WorldEventDetector.java:191-215 | moving straight from one structure to another fires only the enter bindings |
| WorldEventDetector.StructureDispatchesMatch | src/main/java/com/example/immersive_cinematics/trigger/WorldEventDetector.java:301-333 | a structure event dispatches exactly the bindings of its kind whose id pattern matches the structure |
| WorldEventDetector.TimeOfDayOf | src/main/java/com/example/immersive_cinematics/trigger/WorldEventDetector.java:223 | Java's `dayTime % 24000`: below a day in magnitude, with the dividend's sign, and congruent to it |
| WorldEventDetector.CheckTimeOfDay | src/main/java/com/example/immersive_cinematics/trigger/WorldEventDetector.java:217-242 | nothing happens unless the time moved by more than 1000 ticks since the last check; then the time is recorded and the matching time bindings are scheduled |
| WorldEventDetector.NoResampleAtSameTime | src/main/java/com/example/immersive_cinematics/trigger/WorldEventDetector.java:217-242 | a second check at the same time does nothing |
| WorldEventDetector.NextTimer | src/main/java/com/example/immersive_cinematics/trigger/WorldEventDetector.java:179-187 | the scan timer counts up and wraps to 0 at 40 |
| WorldEventDetector.TickPlayer | src/main/java/com/example/immersive_cinematics/trigger/WorldEventDetector.java:175-188 | a player's tick advances its timer; it scans only when the timer wraps; other players are untouched; an offline player gets nothing |
| WorldEventDetector.TickPlayers | src/main/java/com/example/immersive_cinematics/trigger/WorldEventDetector.java:175-188 | players not in the iteration are untouched, and timers stay in range |
| WorldEventDetector.OnServerTick | src/main/java/com/example/immersive_cinematics/trigger/WorldEventDetector.java:168-189 | a server tick keeps the set of known players and keeps every scan timer in [0, 40) |
| WorldEventDetector.ScanTimerCycles | src/main/java/com/example/immersive_cinematics/trigger/WorldEventDetector.java:179-187 | the timer steps modulo 40, and anything is sent only on the tick it wraps to 0 |

## Left out

- Floating point. Doubles and floats are reals: no IEEE rounding, no NaN or infinities, and no float-to-double widening of the FOV and yaw fields.
- `Math.cos`, `sin`, `atan`, `atan2`, `sqrt` and `toRadians` are uninterpreted or exact. Facts about them enter only as lemma preconditions.
- The paths divide by their duration: a zero or negative duration (a Java division giving an infinity or NaN) is excluded by each path's `Valid`. The timeline builds the path regardless.
- DollyZoomPath.New requires both ends to be at a non-zero distance from the target. At distance 0 the source divides by zero.
- `DollyZoomPath.createSimpleDollyZoomPath` is not modelled. The timeline's call to it is recorded as a `NewSimpleDollyZoom` construction that is never built.
- `IMovementPath.getTangent` and the heading getters are not modelled. No path implements them beyond the interface default.
- `List.remove(Object)` uses `equals`. Routes, conditions and rules do not override it, so the source removes by identity; the model removes the first value-equal element.
- UuidText.FromString accepts only the 36-character 8-4-4-4-12 layout (hex digits of either case). Java's `UUID.fromString` also accepts shorter groups and a sign in a group, through `Long.parseLong`. Its fallback parser also accepts longer groups within 36 characters, keeping their low bits, and non-ASCII hexadecimal digits, through `Character.digit`.
- Nbt models `CompoundTag` as a map with its getter defaults. Numeric casts between tag types and `Mth.floor` saturation are not modelled.
- WorldEventDetector.DelayTicks does not model the rounding of the float multiplication `delay * 20` before the cast.
- TimePattern.ParseLong accepts only ASCII digits. Java's `Long.parseLong` also accepts other Unicode decimal digits.
- TriggerBinding.HashIsPolynomial takes the enum's `hashCode` as a parameter, because Java's identity hash is not specified.
- WorldEventDetector.OnDimensionChange states which scripts are requested through membership only, not how many times each is requested in total. The count per rule is stated by `WorldEventDetector.ConditionRequestsCount`.
- `lastTriggerTimestamp` in the player data is never read or written by the source, so the model only carries it.
- `findStructureAtPosition`, `getServerPlayer`, the world time and the loaded scripts and bindings are world queries. They are inputs; `HashMap` iteration order is an input sequence.
- `isFirstTimeInDimension`, `getStructureCenter`, `getCurrentStructureBounds`, `isPlayerInStructure` and `getPlayerStructures` are not modelled. They are not called by the event handlers, or they only return fixed values or pass through the world query.
- `toString`, `getStateDetails`, `getCurrentCameraScriptInfo` and `getRouteProgress` format text for display or read the wall clock. `recordCurrentState` reads the client camera.
- The GUI, the network packets, storage on disk, commands, key handling, mixins and the camera entity are not modelled. They feed inputs to, or display results of, the core.
- SpiralPath documents its speed as radians per second, and its inline comment calls `speed · π/180 · 20` radians per tick. The expression fits neither reading: a per-tick angle would divide by 20. The model keeps the expression as written.

=== FILE: angles.dfy ===
/**
 The scalar helpers every motion path shares: the tick rate, progress
 clamping, degree/radian conversion, Java's truncating remainder on doubles,
 the `normalizeAngle` / `interpolateAngle` pair that picks the shortest arc,
 and the quadratic ease-in-out curve.  Doubles are modelled as reals; IEEE
 rounding is not modelled.
 */
module Angles {

  /** Java's `Math.PI`, as an exact decimal. */
  const Pi: real := 3.141592653589793
  const TwoPi: real := 2.0 * Pi

  /** 20 ticks make one second of game time. */
  const TicksPerSecond: real := 20.0

  /** A duration in seconds as the paths store it: `duration * 20.0`. */
  function Ticks(seconds: real): (r: real)
    ensures seconds > 0.0 ==> r > 0.0
    ensures r / TicksPerSecond == seconds
  {
    seconds * TicksPerSecond
  }

  /** `Math.toRadians` */
  function ToRadians(degrees: real): real {
    degrees * (Pi / 180.0)
  }

  /** `Math.toDegrees` */
  function ToDegrees(radians: real): real {
    radians * (180.0 / Pi)
  }

  /** `Math.min(timeInTicks / durationInTicks, 1.0)`: normalised time, clamped above only. */
  function Progress(t: real, durationTicks: real): (u: real)
    requires durationTicks > 0.0
    ensures u <= 1.0
    ensures t >= durationTicks ==> u == 1.0
    ensures t == 0.0 ==> u == 0.0
    ensures 0.0 <= t ==> 0.0 <= u
    ensures t < 0.0 ==> u < 0.0
    ensures u < 1.0 ==> u * durationTicks == t
  {
    if t / durationTicks < 1.0 then t / durationTicks else 1.0
  }

  /** Dividing by a positive number keeps the order. */
  lemma DivMonotone(a: real, b: real, d: real)
    requires d > 0.0 && a <= b
    ensures a / d <= b / d
  {
    assert b / d - a / d == (b - a) / d;
  }

  /** Later times never have smaller progress. */
  lemma ProgressMonotone(t1: real, t2: real, durationTicks: real)
    requires durationTicks > 0.0
    requires t1 <= t2
    ensures Progress(t1, durationTicks) <= Progress(t2, durationTicks)
  {
    DivMonotone(t1, t2, durationTicks);
  }

  /** Rounds toward zero, as Java's `(long)` and `(int)` casts and `%` do. */
  function Trunc(r: real): (n: int)
    ensures r >= 0.0 ==> n as real <= r < n as real + 1.0
    ensures r < 0.0 ==> n as real - 1.0 < r <= n as real
  {
    if r >= 0.0 then r.Floor else -((-r).Floor)
  }

  /** `y` is an integer. */
  predicate IsWhole(y: real) {
    y.Floor as real == y
  }

  /** `x` is a whole number of full turns (an integer multiple of 2π). */
  predicate WholeTurns(x: real) {
    IsWhole(x / TwoPi)
  }

  lemma WholeTurnsMultiple(k: int)
    ensures WholeTurns(TwoPi * k as real)
  {
    assert (TwoPi * k as real) / TwoPi == k as real;
  }

  lemma WholeTurnsSum(x: real, y: real)
    requires WholeTurns(x) && WholeTurns(y)
    ensures WholeTurns(x + y) && WholeTurns(x - y)
  {
    var a, b := x / TwoPi, y / TwoPi;
    assert (x + y) / TwoPi == a + b;
    assert (x - y) / TwoPi == a - b;
    assert IsWhole(a + b) && IsWhole(a - b) by {
      assert (a + b).Floor == a.Floor + b.Floor;
      assert (a - b).Floor == a.Floor - b.Floor;
    }
  }

  /** The only whole number of turns strictly between -2π and 2π is zero. */
  lemma SmallWholeTurnsIsZero(x: real)
    requires WholeTurns(x) && -TwoPi < x < TwoPi
    ensures x == 0.0
  {
    var y := x / TwoPi;
    assert x == TwoPi * y;
    assert -1.0 < y < 1.0;
  }

  /** Java's `%` with divisor 2π: the remainder has the sign of the dividend. */
  function RemTwoPi(a: real): (r: real)
    ensures a >= 0.0 ==> 0.0 <= r < TwoPi
    ensures a < 0.0 ==> -TwoPi < r <= 0.0
    ensures WholeTurns(a - r)
  {
    var q := a / TwoPi;
    var n := Trunc(q);
    assert a == TwoPi * q;
    WholeTurnsMultiple(n);
    a - TwoPi * n as real
  }

  /**
   `normalizeAngle`: `angle % (2π)`, plus 2π when that is negative.  The
   result is the representative of the argument in [0, 2π) modulo 2π.
   */
  function NormalizeAngle(a: real): (r: real)
    ensures 0.0 <= r < TwoPi
    ensures WholeTurns(a - r)
  {
    var m := RemTwoPi(a);
    if m < 0.0 then
      WholeTurnsMultiple(1);
      WholeTurnsSum(a - m, TwoPi);
      assert a - (m + TwoPi) == (a - m) - TwoPi;
      m + TwoPi
    else
      m
  }

  /** Two angles that differ by whole turns normalise to the same value. */
  lemma NormalizeWholeTurns(a: real, b: real)
    requires WholeTurns(a - b)
    ensures NormalizeAngle(a) == NormalizeAngle(b)
  {
    var ra, rb := NormalizeAngle(a), NormalizeAngle(b);
    WholeTurnsSum(a - ra, a - b);
    assert (a - ra) - (a - b) == b - ra;
    WholeTurnsSum(b - ra, b - rb);
    assert (b - ra) - (b - rb) == rb - ra;
    SmallWholeTurnsIsZero(rb - ra);
  }

  /**
   The truncating remainder plus the sign fix-up computes the floored
   remainder `a - 2π·floor(a / 2π)`.
   */
  lemma NormalizeIsFlooredRemainder(a: real)
    ensures NormalizeAngle(a) == a - TwoPi * (a / TwoPi).Floor as real
  {
    var q := a / TwoPi;
    var f := q.Floor;
    var c := a - TwoPi * f as real;
    assert a == TwoPi * q;
    assert c == TwoPi * (q - f as real);
    assert 0.0 <= c < TwoPi;
    WholeTurnsMultiple(f);
    assert a - c == TwoPi * f as real;
    NormalizeWholeTurns(a, c);
    assert NormalizeAngle(c) == c by {
      var rc := NormalizeAngle(c);
      SmallWholeTurnsIsZero(c - rc);
    }
  }

  /** `normalizeAngle` is 2π-periodic. */
  lemma NormalizePeriodic(a: real, k: int)
    ensures NormalizeAngle(a + TwoPi * k as real) == NormalizeAngle(a)
  {
    assert a + TwoPi * k as real - a == TwoPi * k as real;
    WholeTurnsMultiple(k);
    NormalizeWholeTurns(a + TwoPi * k as real, a);
  }

  /** `normalizeAngle` is idempotent. */
  lemma NormalizeIdempotent(a: real)
    ensures NormalizeAngle(NormalizeAngle(a)) == NormalizeAngle(a)
  {
    var n := NormalizeAngle(a);
    var m := NormalizeAngle(n);
    SmallWholeTurnsIsZero(n - m);
  }

  /** The first loop of `interpolateAngle`: `while (delta > π) delta -= 2π`. */
  function ReduceAbove(d: real): (r: real)
    ensures r <= Pi
    ensures d <= Pi ==> r == d
    ensures d > Pi ==> -Pi < r
    ensures WholeTurns(d - r)
    decreases if d > Pi then (d - Pi).Floor + 1 else 0
  {
    if d > Pi then
      var r := ReduceAbove(d - TwoPi);
      WholeTurnsMultiple(1);
      WholeTurnsSum(d - TwoPi - r, TwoPi);
      assert d - r == (d - TwoPi - r) + TwoPi;
      r
    else
      WholeTurnsMultiple(0);
      d
  }

  /** The second loop of `interpolateAngle`: `while (delta < -π) delta += 2π`. */
  function RaiseBelow(d: real): (r: real)
    ensures -Pi <= r
    ensures d >= -Pi ==> r == d
    ensures d < -Pi ==> r < Pi
    ensures WholeTurns(d - r)
    decreases if d < -Pi then (-Pi - d).Floor + 1 else 0
  {
    if d < -Pi then
      var r := RaiseBelow(d + TwoPi);
      WholeTurnsMultiple(1);
      WholeTurnsSum(d + TwoPi - r, TwoPi);
      assert d - r == (d + TwoPi - r) - TwoPi;
      r
    else
      WholeTurnsMultiple(0);
      d
  }

  /**
   The angle difference after both loops of `interpolateAngle`: it lies in
   [-π, π] and differs from the raw difference by whole turns, so it is the
   shortest signed arc.
   */
  function WrapDelta(d: real): (r: real)
    ensures -Pi <= r <= Pi
    ensures WholeTurns(d - r)
  {
    var a := ReduceAbove(d);
    var r := RaiseBelow(a);
    WholeTurnsSum(d - a, a - r);
    assert d - r == (d - a) + (a - r);
    r
  }

  /**
   `interpolateAngle(start, end, t)`: walk from `start` along the shortest
   arc towards `end` by the fraction `t`, then normalise into [0, 2π).
   */
  function InterpolateAngle(start: real, end: real, t: real): (r: real)
    ensures 0.0 <= r < TwoPi
    ensures t == 0.0 ==> r == NormalizeAngle(start)
    ensures t == 1.0 ==> r == NormalizeAngle(end)
  {
    var delta := WrapDelta(end - start);
    var r := NormalizeAngle(start + delta * t);
    if t == 1.0 then
      assert end - (start + delta) == (end - start) - delta;
      NormalizeWholeTurns(end, start + delta);
      r
    else
      r
  }

  /**
   The shortest-arc promise: from 350 degrees to 10 degrees, half way is
   0 (through north), not 180.
   */
  lemma ShortestArcExample()
    ensures InterpolateAngle(ToRadians(350.0), ToRadians(10.0), 0.5) == 0.0
  {
    var d := ToRadians(10.0) - ToRadians(350.0);
    assert ReduceAbove(d) == d;
    assert RaiseBelow(d + TwoPi) == d + TwoPi;
    assert WrapDelta(d) == d + TwoPi;
    assert ToRadians(350.0) + (d + TwoPi) * 0.5 == TwoPi;
    assert NormalizeAngle(TwoPi) == 0.0 by {
      assert (TwoPi / TwoPi).Floor == 1;
    }
  }

  /** The `t < 0.5` branch of `easeInOutQuad`. */
  function EaseIn(t: real): real {
    2.0 * t * t
  }

  /** The `t >= 0.5` branch of `easeInOutQuad`. */
  function EaseOut(t: real): real {
    -1.0 + (4.0 - 2.0 * t) * t
  }

  /** Products of non-negative reals are non-negative. */
  lemma MulNonNegative(x: real, y: real)
    requires 0.0 <= x && 0.0 <= y
    ensures 0.0 <= x * y
  {
  }

  /** Products of positive reals are positive. */
  lemma MulPositive(x: real, y: real)
    requires 0.0 < x && 0.0 < y
    ensures 0.0 < x * y
  {
  }

  lemma EaseInBounds(t: real)
    requires 0.0 <= t < 0.5
    ensures 0.0 <= EaseIn(t) < 0.5
  {
    MulNonNegative(t, t);
    MulNonNegative(t, 0.5 - t);
    assert t * t <= 0.5 * t by {
      assert 0.5 * t - t * t == t * (0.5 - t);
    }
    assert EaseIn(t) == 2.0 * (t * t);
  }

  /** `easeInOutQuad(t)`: `2t²` below one half, `-1 + (4 - 2t)t` from one half on. */
  function EaseInOutQuad(t: real): (r: real)
    ensures 0.0 <= t <= 1.0 ==> 0.0 <= r <= 1.0
    ensures t == 0.0 ==> r == 0.0
    ensures t == 0.5 ==> r == 0.5
    ensures t == 1.0 ==> r == 1.0
    ensures 0.0 <= t < 0.5 ==> r < 0.5
    ensures 0.5 <= t <= 1.0 ==> 0.5 <= r
  {
    if t < 0.5 then
      if 0.0 <= t then
        EaseInBounds(t);
        EaseIn(t)
      else
        EaseIn(t)
    else
      if t <= 1.0 then
        assert 1.0 - EaseOut(t) == 2.0 * ((1.0 - t) * (1.0 - t));
        MulNonNegative(1.0 - t, 1.0 - t);
        assert EaseOut(t) - 0.5 == 2.0 * ((t - 0.5) * (1.5 - t));
        MulNonNegative(t - 0.5, 1.5 - t);
        EaseOut(t)
      else
        EaseOut(t)
  }

  /** The two branches of the easing curve meet at one half, so the curve is continuous. */
  lemma EaseBranchesMeet()
    ensures EaseIn(0.5) == EaseOut(0.5) == EaseInOutQuad(0.5)
  {
  }

  /** `easeInOutQuad` is monotone non-decreasing on [0, 1]. */
  lemma EaseMonotone(a: real, b: real)
    requires 0.0 <= a <= b <= 1.0
    ensures EaseInOutQuad(a) <= EaseInOutQuad(b)
  {
    if b < 0.5 {
      assert EaseIn(b) - EaseIn(a) == 2.0 * ((b - a) * (b + a));
      MulNonNegative(b - a, b + a);
    } else if 0.5 <= a {
      assert EaseOut(b) - EaseOut(a) == (b - a) * (4.0 - 2.0 * (a + b));
      MulNonNegative(b - a, 4.0 - 2.0 * (a + b));
    }
  }
}

=== FILE: bezier_path.dfy ===
/**
 `BezierPath`: the position follows a quadratic Bezier curve through a
 control point; the rotation takes the shortest arc with linear progress.
 */
module BezierPath {
  import opened Angles
  import opened Geometry

  datatype Path = Path(
    start: Vec3,
    control: Vec3,
    end: Vec3,
    startRotation: Vec3,
    endRotation: Vec3,
    durationTicks: real)

  /** The constructor: the duration is given in seconds and stored in ticks. */
  function New(start: Vec3, control: Vec3, end: Vec3, startRotation: Vec3, endRotation: Vec3, duration: real): (p: Path)
    ensures p.start == start && p.control == control && p.end == end
    ensures p.startRotation == startRotation && p.endRotation == endRotation
    ensures p.durationTicks / TicksPerSecond == duration
  {
    Path(start, control, end, startRotation, endRotation, Ticks(duration))
  }

  predicate Valid(p: Path) {
    p.durationTicks > 0.0
  }

  function Min3(a: real, b: real, c: real): real {
    if a <= b && a <= c then a else if b <= c then b else c
  }

  function Max3(a: real, b: real, c: real): real {
    if a >= b && a >= c then a else if b >= c then b else c
  }

  /** `v` lies within the smallest interval holding `a`, `b` and `c`. */
  predicate Within3(a: real, b: real, c: real, v: real) {
    Min3(a, b, c) <= v <= Max3(a, b, c)
  }

  /** One coordinate of the curve: `(1-u)² a + 2(1-u)u b + u² c`. */
  function Bezier1(a: real, b: real, c: real, u: real): (r: real)
    ensures u == 0.0 ==> r == a
    ensures u == 1.0 ==> r == c
    ensures 0.0 <= u <= 1.0 ==> Within3(a, b, c, r)
  {
    var v := 1.0 - u;
    var r := v * v * a + 2.0 * v * u * b + u * u * c;
    if 0.0 <= u <= 1.0 then
      MulNonNegative(v, v);
      MulNonNegative(2.0 * v, u);
      MulNonNegative(u, u);
      assert v * v + 2.0 * v * u + u * u == 1.0 by {
        assert v + u == 1.0;
        assert (v + u) * (v + u) == v * v + 2.0 * v * u + u * u;
      }
      ConvexCombination(v * v, 2.0 * v * u, u * u, a, b, c);
      r
    else
      r
  }

  /** A weighted average with non-negative weights stays within the extremes. */
  lemma ConvexCombination(w0: real, w1: real, w2: real, a: real, b: real, c: real)
    requires 0.0 <= w0 && 0.0 <= w1 && 0.0 <= w2 && w0 + w1 + w2 == 1.0
    ensures Within3(a, b, c, w0 * a + w1 * b + w2 * c)
  {
    var lo, hi := Min3(a, b, c), Max3(a, b, c);
    MulNonNegative(w0, a - lo);
    MulNonNegative(w1, b - lo);
    MulNonNegative(w2, c - lo);
    assert w0 * a + w1 * b + w2 * c - lo == w0 * (a - lo) + w1 * (b - lo) + w2 * (c - lo);
    MulNonNegative(w0, hi - a);
    MulNonNegative(w1, hi - b);
    MulNonNegative(w2, hi - c);
    assert hi - (w0 * a + w1 * b + w2 * c) == w0 * (hi - a) + w1 * (hi - b) + w2 * (hi - c);
  }

  /** `quadraticBezier(p0, p1, p2, u)` coordinate by coordinate. */
  function QuadraticBezier(p0: Vec3, p1: Vec3, p2: Vec3, u: real): (r: Vec3)
    ensures u == 0.0 ==> r == p0
    ensures u == 1.0 ==> r == p2
    ensures 0.0 <= u <= 1.0 ==>
      Within3(p0.x, p1.x, p2.x, r.x) && Within3(p0.y, p1.y, p2.y, r.y) && Within3(p0.z, p1.z, p2.z, r.z)
  {
    Vec3(Bezier1(p0.x, p1.x, p2.x, u), Bezier1(p0.y, p1.y, p2.y, u), Bezier1(p0.z, p1.z, p2.z, u))
  }

  /** `getPosition`: the curve at progress `min(t / D, 1)`, inside the control triangle's box. */
  function Position(p: Path, t: real): (r: Vec3)
    requires Valid(p)
    ensures t == 0.0 ==> r == p.start
    ensures t >= p.durationTicks ==> r == p.end
    ensures 0.0 <= t ==> Within3(p.start.x, p.control.x, p.end.x, r.x)
    ensures 0.0 <= t ==> Within3(p.start.y, p.control.y, p.end.y, r.y)
    ensures 0.0 <= t ==> Within3(p.start.z, p.control.z, p.end.z, r.z)
  {
    QuadraticBezier(p.start, p.control, p.end, Progress(t, p.durationTicks))
  }

  /** `getRotation`: shortest-arc interpolation of pitch and yaw, normalised, roll 0. */
  function Rotation(p: Path, t: real): (r: Vec3)
    requires Valid(p)
    ensures Normalized(r) && r.z == 0.0
    ensures t == 0.0 ==> r.x == NormalizeAngle(p.startRotation.x) && r.y == NormalizeAngle(p.startRotation.y)
    ensures t >= p.durationTicks ==> r.x == NormalizeAngle(p.endRotation.x) && r.y == NormalizeAngle(p.endRotation.y)
  {
    ArcRotation(p.startRotation, p.endRotation, Progress(t, p.durationTicks))
  }

  /** With the control point on the midpoint of the chord, the curve is the straight segment. */
  lemma MidpointControlIsStraight(a: real, c: real, u: real)
    ensures Bezier1(a, (a + c) / 2.0, c, u) == Lerp(a, c, u)
  {
    var v := 1.0 - u;
    assert v * v * a + 2.0 * v * u * ((a + c) / 2.0) + u * u * c
        == v * (v + u) * a + u * (v + u) * c;
    assert v + u == 1.0;
  }
}

=== FILE: camera_script.dfy ===
/**
 The camera script data model: a script holds shot rules, a shot rule
 holds movement routes and trigger conditions, and each of them converts
 to and from a `CompoundTag`.

 Java's `List.remove(Object)` on these lists compares by reference; the
 model compares values.
 */
module CameraScript {
  import opened Common
  import opened Geometry
  import opened Nbt
  import UuidText

  // ---------------------------------------------------------------- enums

  datatype PathType = Direct | Smooth | Orbit | Bezier | Spiral | DollyZoom | StationaryPan

  /** `PathType.name()` */
  function PathTypeName(t: PathType): string {
    match t
    case Direct => "DIRECT"
    case Smooth => "SMOOTH"
    case Orbit => "ORBIT"
    case Bezier => "BEZIER"
    case Spiral => "SPIRAL"
    case DollyZoom => "DOLLY_ZOOM"
    case StationaryPan => "STATIONARY_PAN"
  }

  /** `PathType.valueOf`: exact, case-sensitive; any other name throws. */
  function ParsePathType(s: string): (r: Result<PathType>)
    ensures r.Ok? ==> PathTypeName(r.value) == s
  {
    if s == "DIRECT" then Ok(Direct)
    else if s == "SMOOTH" then Ok(Smooth)
    else if s == "ORBIT" then Ok(Orbit)
    else if s == "BEZIER" then Ok(Bezier)
    else if s == "SPIRAL" then Ok(Spiral)
    else if s == "DOLLY_ZOOM" then Ok(DollyZoom)
    else if s == "STATIONARY_PAN" then Ok(StationaryPan)
    else Err("No enum constant PathType." + s)
  }

  /** `valueOf(name())` is the identity, and `valueOf` accepts only the names. */
  lemma PathTypeNames(t: PathType, s: string)
    ensures ParsePathType(PathTypeName(t)) == Ok(t)
    ensures ParsePathType(s).Ok? <==> exists u :: PathTypeName(u) == s
  {
    if exists u :: PathTypeName(u) == s {
      var u :| PathTypeName(u) == s;
      assert ParsePathType(s) == Ok(u);
    }
  }

  datatype TriggerType =
    DimensionChange | StructureEnter | StructureExit | PlayerLogin | TimeOfDay | BlockBreak | EntityKill

  /** `TriggerType.name()` */
  function TriggerTypeName(t: TriggerType): string {
    match t
    case DimensionChange => "DIMENSION_CHANGE"
    case StructureEnter => "STRUCTURE_ENTER"
    case StructureExit => "STRUCTURE_EXIT"
    case PlayerLogin => "PLAYER_LOGIN"
    case TimeOfDay => "TIME_OF_DAY"
    case BlockBreak => "BLOCK_BREAK"
    case EntityKill => "ENTITY_KILL"
  }

  /** `TriggerType.valueOf`: exact, case-sensitive; any other name throws. */
  function ParseTriggerType(s: string): (r: Result<TriggerType>)
    ensures r.Ok? ==> TriggerTypeName(r.value) == s
  {
    if s == "DIMENSION_CHANGE" then Ok(DimensionChange)
    else if s == "STRUCTURE_ENTER" then Ok(StructureEnter)
    else if s == "STRUCTURE_EXIT" then Ok(StructureExit)
    else if s == "PLAYER_LOGIN" then Ok(PlayerLogin)
    else if s == "TIME_OF_DAY" then Ok(TimeOfDay)
    else if s == "BLOCK_BREAK" then Ok(BlockBreak)
    else if s == "ENTITY_KILL" then Ok(EntityKill)
    else Err("No enum constant TriggerType." + s)
  }

  /** `valueOf(name())` is the identity, and `valueOf` accepts only the names. */
  lemma TriggerTypeNames(t: TriggerType, s: string)
    ensures ParseTriggerType(TriggerTypeName(t)) == Ok(t)
    ensures ParseTriggerType(s).Ok? <==> exists u :: TriggerTypeName(u) == s
  {
    if exists u :: TriggerTypeName(u) == s {
      var u :| TriggerTypeName(u) == s;
      assert ParseTriggerType(s) == Ok(u);
    }
  }

  // ---------------------------------------------------------------- lists of compounds

  /** A `ListTag` of compounds, one per element, in order. */
  function EncodeList<T>(xs: seq<T>, enc: T -> Compound): (r: seq<Tag>)
    ensures |r| == |xs|
    ensures forall i :: 0 <= i < |xs| ==> r[i] == TCompound(enc(xs[i]))
  {
    if |xs| == 0 then [] else [TCompound(enc(xs[0]))] + EncodeList(xs[1..], enc)
  }

  /** Decodes `getCompound(i)` for each index in order; the first failure aborts. */
  function DecodeList<T>(items: seq<Tag>, dec: Compound -> Result<T>): (r: Result<seq<T>>)
    ensures r.Ok? ==> |r.value| == |items|
  {
    if |items| == 0 then Ok([])
    else match dec(ListCompound(items, 0))
      case Err(e) => Err(e)
      case Ok(x) =>
        match DecodeList(items[1..], dec)
        case Err(e) => Err(e)
        case Ok(rest) => Ok([x] + rest)
  }

  function MapSeq<T, U>(xs: seq<T>, f: T -> U): (r: seq<U>)
    ensures |r| == |xs|
    ensures forall i :: 0 <= i < |xs| ==> r[i] == f(xs[i])
  {
    if |xs| == 0 then [] else [f(xs[0])] + MapSeq(xs[1..], f)
  }

  /** Decoding an encoded list decodes every element, in order. */
  lemma {:induction false} DecodeEncodeList<T>(xs: seq<T>, enc: T -> Compound, dec: Compound -> Result<T>, norm: T -> T)
    requires forall x :: dec(enc(x)) == Ok(norm(x))
    ensures DecodeList(EncodeList(xs, enc), dec) == Ok(MapSeq(xs, norm))
  {
    if |xs| > 0 {
      var items := EncodeList(xs, enc);
      assert items[1..] == EncodeList(xs[1..], enc);
      assert ListCompound(items, 0) == enc(xs[0]);
      DecodeEncodeList(xs[1..], enc, dec, norm);
      assert MapSeq(xs, norm) == [norm(xs[0])] + MapSeq(xs[1..], norm);
    }
  }

  // ---------------------------------------------------------------- trigger conditions

  datatype TriggerCondition = TriggerCondition(kind: TriggerType, parameter: Option<string>, value: real)

  /** `new TriggerCondition()` */
  const DefaultCondition: TriggerCondition := TriggerCondition(DimensionChange, Some(""), 0.0)

  /** `TriggerCondition.toNBT`; a null parameter is written as "". */
  function ConditionToNbt(c: TriggerCondition): Compound {
    map["triggerType" := TString(TriggerTypeName(c.kind)),
        "parameter" := TString(c.parameter.GetOr("")),
        "value" := TDouble(c.value)]
  }

  /** `TriggerCondition.fromNBT`; fails when the type name is not a constant. */
  function ConditionFromNbt(n: Compound): (r: Result<TriggerCondition>)
    ensures r.Ok? <==> ParseTriggerType(GetString(n, "triggerType")).Ok?
    ensures r.Ok? ==> r.value.kind == ParseTriggerType(GetString(n, "triggerType")).value
    ensures r.Ok? ==> r.value.parameter == Some(GetString(n, "parameter")) && r.value.value == GetDouble(n, "value")
  {
    match ParseTriggerType(GetString(n, "triggerType"))
    case Err(e) => Err(e)
    case Ok(kind) => Ok(TriggerCondition(kind, Some(GetString(n, "parameter")), GetDouble(n, "value")))
  }

  /** What a condition looks like after a round trip: a null parameter becomes "". */
  function NormalizeCondition(c: TriggerCondition): TriggerCondition {
    c.(parameter := Some(c.parameter.GetOr("")))
  }

  lemma ConditionRoundTrip(c: TriggerCondition)
    ensures ConditionFromNbt(ConditionToNbt(c)) == Ok(NormalizeCondition(c))
  {
    TriggerTypeNames(c.kind, "");
  }

  // ---------------------------------------------------------------- movement routes

  datatype MovementRoute = MovementRoute(
    routeName: Option<string>,
    pathType: PathType,
    startPosition: Option<Vec3>,
    endPosition: Option<Vec3>,
    controlPosition: Option<Vec3>,
    targetPoint: Option<Vec3>,
    backgroundPoint: Option<Vec3>,
    duration: real,
    startFov: real,
    endFov: real,
    startYaw: real,
    startPitch: real,
    endYaw: real,
    endPitch: real,
    speed: real,
    radius: real,
    height: real,
    strength: real,
    forward: bool,
    heading: real)

  /** `new MovementRoute()` */
  const DefaultRoute: MovementRoute := MovementRoute(
    None, Direct, None, None, None, None, None,
    5.0, 70.0, 70.0, 0.0, 0.0, 0.0, 0.0,
    1.0, 5.0, 2.0, 1.0, true, 0.0)

  /** A position as a list of three doubles. */
  function VecToNbt(v: Vec3): Tag {
    TList([TDouble(v.x), TDouble(v.y), TDouble(v.z)])
  }

  /** Writes the vector under `key` only when it is present. */
  function PutVec(c: Compound, key: string, v: Option<Vec3>): Compound {
    if v.Some? then c[key := VecToNbt(v.value)] else c
  }

  /**
   Reads a vector when `key` is present: `getList(key, 6)` and the doubles
   at 0, 1 and 2, each 0 when missing.
   */
  function GetVec(c: Compound, key: string): (r: Option<Vec3>)
    ensures r.Some? <==> Contains(c, key)
  {
    if Contains(c, key) then
      var items := GetList(c, key, DoubleId);
      Some(Vec3(ListDouble(items, 0), ListDouble(items, 1), ListDouble(items, 2)))
    else
      None
  }

  /** A vector written with `PutVec` reads back, and so does its absence. */
  lemma VecRoundTrip(c: Compound, key: string, v: Option<Vec3>)
    requires !Contains(c, key)
    ensures GetVec(PutVec(c, key, v), key) == v
  {
  }

  /** The scalar part of `MovementRoute.toNBT`. */
  function RouteScalars(r: MovementRoute): Compound {
    map["routeName" := TString(r.routeName.GetOr("")),
        "pathType" := TString(PathTypeName(r.pathType)),
        "duration" := TDouble(r.duration),
        "startFOV" := TFloat(r.startFov),
        "endFOV" := TFloat(r.endFov),
        "startYaw" := TFloat(r.startYaw),
        "startPitch" := TFloat(r.startPitch),
        "endYaw" := TFloat(r.endYaw),
        "endPitch" := TFloat(r.endPitch),
        "speed" := TDouble(r.speed),
        "radius" := TDouble(r.radius),
        "height" := TDouble(r.height),
        "strength" := TDouble(r.strength),
        "isForward" := BoolTag(r.forward),
        "heading" := TDouble(r.heading)]
  }

  /** `MovementRoute.toNBT`: the scalars, then each vector that is not null. */
  function RouteToNbt(r: MovementRoute): Compound {
    var n := RouteScalars(r);
    var n := PutVec(n, "startPosition", r.startPosition);
    var n := PutVec(n, "endPosition", r.endPosition);
    var n := PutVec(n, "controlPosition", r.controlPosition);
    var n := PutVec(n, "targetPoint", r.targetPoint);
    PutVec(n, "backgroundPoint", r.backgroundPoint)
  }

  /** The scalar fields `MovementRoute.fromNBT` reads, with every vector absent. */
  function ScalarsFromNbt(n: Compound, kind: PathType): MovementRoute {
    MovementRoute(
      Some(GetString(n, "routeName")),
      kind,
      None, None, None, None, None,
      GetDouble(n, "duration"),
      GetFloat(n, "startFOV"),
      GetFloat(n, "endFOV"),
      GetFloat(n, "startYaw"),
      GetFloat(n, "startPitch"),
      GetFloat(n, "endYaw"),
      GetFloat(n, "endPitch"),
      GetDouble(n, "speed"),
      GetDouble(n, "radius"),
      GetDouble(n, "height"),
      GetDouble(n, "strength"),
      GetBoolean(n, "isForward"),
      if Contains(n, "heading") then GetDouble(n, "heading") else DefaultRoute.heading)
  }

  /** The five vector fields `MovementRoute.fromNBT` reads into `r`. */
  function VectorsFromNbt(r: MovementRoute, n: Compound): MovementRoute {
    r.(startPosition := GetVec(n, "startPosition"),
       endPosition := GetVec(n, "endPosition"),
       controlPosition := GetVec(n, "controlPosition"),
       targetPoint := GetVec(n, "targetPoint"),
       backgroundPoint := GetVec(n, "backgroundPoint"))
  }

  /**
   `MovementRoute.fromNBT`: starts from the defaults, reads every scalar
   (0 when missing), keeps heading 0 unless the key is present, reads each
   vector only when its key is present; fails when the path type is not a
   constant name.
   */
  function RouteFromNbt(n: Compound): (r: Result<MovementRoute>)
    ensures r.Ok? <==> ParsePathType(GetString(n, "pathType")).Ok?
    ensures r.Ok? ==> r.value.routeName == Some(GetString(n, "routeName"))
    ensures r.Ok? ==> (r.value.startPosition.Some? <==> Contains(n, "startPosition"))
    ensures r.Ok? && !Contains(n, "heading") ==> r.value.heading == DefaultRoute.heading
  {
    match ParsePathType(GetString(n, "pathType"))
    case Err(e) => Err(e)
    case Ok(kind) => Ok(VectorsFromNbt(ScalarsFromNbt(n, kind), n))
  }

  /** What a route looks like after a round trip: a null name becomes "". */
  function NormalizeRoute(r: MovementRoute): MovementRoute {
    r.(routeName := Some(r.routeName.GetOr("")))
  }

  const VectorKeys: set<string> := {"startPosition", "endPosition", "controlPosition", "targetPoint", "backgroundPoint"}

  /** The vectors go under keys the scalars do not use. */
  lemma VectorKeysAreFresh(r: MovementRoute)
    ensures forall k :: k in VectorKeys ==> k !in RouteScalars(r)
  {
  }

  /** The scalars read back from the scalar part alone. */
  lemma ScalarsRoundTrip(r: MovementRoute)
    ensures ScalarsFromNbt(RouteScalars(r), r.pathType)
         == NormalizeRoute(r).(startPosition := None, endPosition := None, controlPosition := None,
                               targetPoint := None, backgroundPoint := None)
  {
  }

  /** Adding the vectors does not disturb the scalars. */
  lemma ScalarsIgnoreVectors(r: MovementRoute, n: Compound, kind: PathType)
    requires forall k :: k in RouteScalars(r) ==> k in n && n[k] == RouteScalars(r)[k]
    ensures ScalarsFromNbt(n, kind) == ScalarsFromNbt(RouteScalars(r), kind)
  {
  }

  /** Writing a vector keeps every other entry, and every other vector, as it was. */
  lemma PutVecKeeps(c: Compound, key: string, v: Option<Vec3>, other: string)
    requires other != key
    ensures other in PutVec(c, key, v) <==> other in c
    ensures other in c ==> PutVec(c, key, v)[other] == c[other]
    ensures GetVec(PutVec(c, key, v), other) == GetVec(c, other)
  {
  }

  /** The scalar entries are all still in the full encoding. */
  lemma RouteToNbtKeepsScalars(r: MovementRoute)
    ensures forall k :: k in RouteScalars(r) ==> k in RouteToNbt(r) && RouteToNbt(r)[k] == RouteScalars(r)[k]
  {
    VectorKeysAreFresh(r);
  }

  /** Each vector reads back from the full encoding. */
  lemma RouteToNbtKeepsVectors(r: MovementRoute)
    ensures VectorsFromNbt(r, RouteToNbt(r)) == r
  {
    VectorKeysAreFresh(r);
    var n0 := RouteScalars(r);
    var n1 := PutVec(n0, "startPosition", r.startPosition);
    var n2 := PutVec(n1, "endPosition", r.endPosition);
    var n3 := PutVec(n2, "controlPosition", r.controlPosition);
    var n4 := PutVec(n3, "targetPoint", r.targetPoint);
    var n5 := PutVec(n4, "backgroundPoint", r.backgroundPoint);
    VecRoundTrip(n0, "startPosition", r.startPosition);
    PutVecKeeps(n1, "endPosition", r.endPosition, "startPosition");
    PutVecKeeps(n2, "controlPosition", r.controlPosition, "startPosition");
    PutVecKeeps(n3, "targetPoint", r.targetPoint, "startPosition");
    PutVecKeeps(n4, "backgroundPoint", r.backgroundPoint, "startPosition");
    PutVecKeeps(n0, "startPosition", r.startPosition, "endPosition");
    VecRoundTrip(n1, "endPosition", r.endPosition);
    PutVecKeeps(n2, "controlPosition", r.controlPosition, "endPosition");
    PutVecKeeps(n3, "targetPoint", r.targetPoint, "endPosition");
    PutVecKeeps(n4, "backgroundPoint", r.backgroundPoint, "endPosition");
    PutVecKeeps(n0, "startPosition", r.startPosition, "controlPosition");
    PutVecKeeps(n1, "endPosition", r.endPosition, "controlPosition");
    VecRoundTrip(n2, "controlPosition", r.controlPosition);
    PutVecKeeps(n3, "targetPoint", r.targetPoint, "controlPosition");
    PutVecKeeps(n4, "backgroundPoint", r.backgroundPoint, "controlPosition");
    PutVecKeeps(n0, "startPosition", r.startPosition, "targetPoint");
    PutVecKeeps(n1, "endPosition", r.endPosition, "targetPoint");
    PutVecKeeps(n2, "controlPosition", r.controlPosition, "targetPoint");
    VecRoundTrip(n3, "targetPoint", r.targetPoint);
    PutVecKeeps(n4, "backgroundPoint", r.backgroundPoint, "targetPoint");
    PutVecKeeps(n0, "startPosition", r.startPosition, "backgroundPoint");
    PutVecKeeps(n1, "endPosition", r.endPosition, "backgroundPoint");
    PutVecKeeps(n2, "controlPosition", r.controlPosition, "backgroundPoint");
    PutVecKeeps(n3, "targetPoint", r.targetPoint, "backgroundPoint");
    VecRoundTrip(n4, "backgroundPoint", r.backgroundPoint);
  }

  /** Every field survives the round trip; absent vectors stay absent. */
  lemma RouteRoundTrip(r: MovementRoute)
    ensures RouteFromNbt(RouteToNbt(r)) == Ok(NormalizeRoute(r))
  {
    var n := RouteToNbt(r);
    PathTypeNames(r.pathType, "");
    RouteToNbtKeepsScalars(r);
    assert "pathType" in RouteScalars(r);
    assert GetString(n, "pathType") == PathTypeName(r.pathType);
    ScalarsIgnoreVectors(r, n, r.pathType);
    ScalarsRoundTrip(r);
    RouteToNbtKeepsVectors(r);
    var s := ScalarsFromNbt(n, r.pathType);
    assert VectorsFromNbt(s, n) == NormalizeRoute(r) by {
      assert VectorsFromNbt(s, n) == VectorsFromNbt(NormalizeRoute(r), n);
      assert VectorsFromNbt(NormalizeRoute(r), n) == NormalizeRoute(VectorsFromNbt(r, n));
    }
  }

  // ---------------------------------------------------------------- shot rules

  datatype ShotRule = ShotRule(
    ruleName: string,
    routes: seq<MovementRoute>,
    conditions: seq<TriggerCondition>,
    looping: bool,
    delay: real)

  /** `new ShotRule(name)`: no routes, no conditions, not looping, no delay. */
  function NewRule(name: string): (r: ShotRule)
    ensures r.ruleName == name && r.routes == [] && r.conditions == []
    ensures !r.looping && r.delay == 0.0
  {
    ShotRule(name, [], [], false, 0.0)
  }

  /** `addRoute`: the route goes at the end; nothing else changes. */
  function AddRoute(rule: ShotRule, route: MovementRoute): (r: ShotRule)
    ensures |r.routes| == |rule.routes| + 1 && r.routes[|rule.routes|] == route
    ensures r.routes[..|rule.routes|] == rule.routes
    ensures r.(routes := rule.routes) == rule
  {
    rule.(routes := Append(rule.routes, route))
  }

  /** `removeRoute`: drops the first equal route, if any; nothing else changes. */
  function RemoveRoute(rule: ShotRule, route: MovementRoute): (r: ShotRule)
    ensures route !in rule.routes ==> r == rule
    ensures route in rule.routes ==> |r.routes| == |rule.routes| - 1
    ensures multiset(r.routes) + (if route in rule.routes then multiset{route} else multiset{}) == multiset(rule.routes)
    ensures route in rule.routes ==>
              exists i :: 0 <= i < |rule.routes| && rule.routes[i] == route && route !in rule.routes[..i] &&
                          r.routes == rule.routes[..i] + rule.routes[i + 1..]
    ensures r.routes == RemoveFirst(rule.routes, route)
    ensures r.(routes := rule.routes) == rule
  {
    rule.(routes := RemoveFirst(rule.routes, route))
  }

  /** `addTriggerCondition`: the condition goes at the end; nothing else changes. */
  function AddCondition(rule: ShotRule, c: TriggerCondition): (r: ShotRule)
    ensures |r.conditions| == |rule.conditions| + 1 && r.conditions[|rule.conditions|] == c
    ensures r.conditions[..|rule.conditions|] == rule.conditions
    ensures r.(conditions := rule.conditions) == rule
  {
    rule.(conditions := Append(rule.conditions, c))
  }

  /** `removeTriggerCondition`: drops the first equal condition, if any; nothing else changes. */
  function RemoveCondition(rule: ShotRule, c: TriggerCondition): (r: ShotRule)
    ensures c !in rule.conditions ==> r == rule
    ensures c in rule.conditions ==> |r.conditions| == |rule.conditions| - 1
    ensures multiset(r.conditions) + (if c in rule.conditions then multiset{c} else multiset{}) == multiset(rule.conditions)
    ensures c in rule.conditions ==>
              exists i :: 0 <= i < |rule.conditions| && rule.conditions[i] == c && c !in rule.conditions[..i] &&
                          r.conditions == rule.conditions[..i] + rule.conditions[i + 1..]
    ensures r.conditions == RemoveFirst(rule.conditions, c)
    ensures r.(conditions := rule.conditions) == rule
  {
    rule.(conditions := RemoveFirst(rule.conditions, c))
  }

  /** Removing a route or condition just added, and not there before, gives the rule back. */
  lemma RuleEditsUndo(rule: ShotRule, route: MovementRoute, c: TriggerCondition)
    ensures route !in rule.routes ==> RemoveRoute(AddRoute(rule, route), route) == rule
    ensures c !in rule.conditions ==> RemoveCondition(AddCondition(rule, c), c) == rule
  {
    if route !in rule.routes {
      RemoveAfterAppend(rule.routes, route);
    }
    if c !in rule.conditions {
      RemoveAfterAppend(rule.conditions, c);
    }
  }

  /** `ShotRule.toNBT` */
  function RuleToNbt(rule: ShotRule): Compound {
    map["ruleName" := TString(rule.ruleName),
        "isLooping" := BoolTag(rule.looping),
        "delay" := TFloat(rule.delay),
        "routes" := TList(EncodeList(rule.routes, RouteToNbt)),
        "triggerConditions" := TList(EncodeList(rule.conditions, ConditionToNbt))]
  }

  /** `ShotRule.fromNBT`: routes and conditions read from lists of compounds, in order. */
  function RuleFromNbt(n: Compound): (r: Result<ShotRule>)
    ensures r.Ok? ==> r.value.ruleName == GetString(n, "ruleName")
    ensures r.Ok? ==> r.value.looping == GetBoolean(n, "isLooping") && r.value.delay == GetFloat(n, "delay")
    ensures r.Ok? ==> |r.value.routes| == |GetList(n, "routes", CompoundId)|
  {
    match DecodeList(GetList(n, "routes", CompoundId), RouteFromNbt)
    case Err(e) => Err(e)
    case Ok(routes) =>
      match DecodeList(GetList(n, "triggerConditions", CompoundId), ConditionFromNbt)
      case Err(e) => Err(e)
      case Ok(conditions) =>
        Ok(ShotRule(GetString(n, "ruleName"), routes, conditions, GetBoolean(n, "isLooping"), GetFloat(n, "delay")))
  }

  /** What a rule looks like after a round trip. */
  function NormalizeRule(rule: ShotRule): ShotRule {
    rule.(routes := MapSeq(rule.routes, NormalizeRoute), conditions := MapSeq(rule.conditions, NormalizeCondition))
  }

  /** A list of compounds written under `key` reads back with `getList(key, 10)`. */
  lemma GetEncodedList<T>(c: Compound, key: string, xs: seq<T>, enc: T -> Compound)
    requires key in c && c[key] == TList(EncodeList(xs, enc))
    ensures GetList(c, key, CompoundId) == EncodeList(xs, enc)
  {
  }

  /** The decoder of each element undoes its encoder, up to `NormalizeRoute`. */
  lemma RouteCodecInverse()
    ensures forall r: MovementRoute :: RouteFromNbt(RouteToNbt(r)) == Ok(NormalizeRoute(r))
  {
    forall r: MovementRoute ensures RouteFromNbt(RouteToNbt(r)) == Ok(NormalizeRoute(r)) {
      RouteRoundTrip(r);
    }
  }

  /** The decoder of each condition undoes its encoder, up to `NormalizeCondition`. */
  lemma ConditionCodecInverse()
    ensures forall c: TriggerCondition :: ConditionFromNbt(ConditionToNbt(c)) == Ok(NormalizeCondition(c))
  {
    forall c: TriggerCondition ensures ConditionFromNbt(ConditionToNbt(c)) == Ok(NormalizeCondition(c)) {
      ConditionRoundTrip(c);
    }
  }

  /** A rule survives the round trip with its name, flags, and routes and conditions in order. */
  lemma RuleRoundTrip(rule: ShotRule)
    ensures RuleFromNbt(RuleToNbt(rule)) == Ok(NormalizeRule(rule))
  {
    var n := RuleToNbt(rule);
    GetEncodedList(n, "routes", rule.routes, RouteToNbt);
    GetEncodedList(n, "triggerConditions", rule.conditions, ConditionToNbt);
    RouteCodecInverse();
    ConditionCodecInverse();
    DecodeEncodeList(rule.routes, RouteToNbt, RouteFromNbt, NormalizeRoute);
    DecodeEncodeList(rule.conditions, ConditionToNbt, ConditionFromNbt, NormalizeCondition);
    assert DecodeList(GetList(n, "routes", CompoundId), RouteFromNbt) == Ok(MapSeq(rule.routes, NormalizeRoute));
    assert DecodeList(GetList(n, "triggerConditions", CompoundId), ConditionFromNbt)
        == Ok(MapSeq(rule.conditions, NormalizeCondition));
    assert GetString(n, "ruleName") == rule.ruleName;
    assert GetBoolean(n, "isLooping") == rule.looping && GetFloat(n, "delay") == rule.delay;
  }

  // ---------------------------------------------------------------- scripts

  datatype Script = Script(name: string, description: string, id: UuidText.Uuid, shotRules: seq<ShotRule>)

  /** `new CameraScript(name, description)`; `id` is the random UUID it draws. */
  function NewScript(name: string, description: string, id: UuidText.Uuid): (s: Script)
    ensures s.name == name && s.description == description && s.id == id && s.shotRules == []
  {
    Script(name, description, id, [])
  }

  /** `addShotRule`: appends. */
  function AddShotRule(s: Script, rule: ShotRule): (r: Script)
    ensures r.shotRules == Append(s.shotRules, rule)
    ensures r.name == s.name && r.description == s.description && r.id == s.id
  {
    s.(shotRules := Append(s.shotRules, rule))
  }

  /** `removeShotRule`: drops the first equal rule, if any. */
  function RemoveShotRule(s: Script, rule: ShotRule): (r: Script)
    ensures r.shotRules == RemoveFirst(s.shotRules, rule)
    ensures r.name == s.name && r.description == s.description && r.id == s.id
  {
    s.(shotRules := RemoveFirst(s.shotRules, rule))
  }

  /** `getShotRuleCount` */
  function ShotRuleCount(s: Script): (n: nat)
    ensures n == |s.shotRules|
  {
    |s.shotRules|
  }

  /** Adding a rule counts one more; removing a present rule counts one fewer; removing an absent one changes nothing. */
  lemma RuleCountAfterEdits(s: Script, rule: ShotRule)
    ensures ShotRuleCount(AddShotRule(s, rule)) == ShotRuleCount(s) + 1
    ensures rule in s.shotRules ==> ShotRuleCount(RemoveShotRule(s, rule)) == ShotRuleCount(s) - 1
    ensures rule !in s.shotRules ==> RemoveShotRule(s, rule) == s
  {
  }

  /** `CameraScript.toNBT` */
  function ScriptToNbt(s: Script): Compound
    requires UuidText.Valid(s.id)
  {
    map["name" := TString(s.name),
        "description" := TString(s.description),
        "id" := TString(UuidText.ToString(s.id)),
        "shotRules" := TList(EncodeList(s.shotRules, RuleToNbt))]
  }

  /** `CameraScript.fromNBT`: fails when the id is not a UUID or a rule fails to decode. */
  function ScriptFromNbt(n: Compound): (r: Result<Script>)
    ensures r.Ok? ==> r.value.name == GetString(n, "name") && r.value.description == GetString(n, "description")
    ensures r.Ok? ==> UuidText.FromString(GetString(n, "id")) == Ok(r.value.id)
  {
    match UuidText.FromString(GetString(n, "id"))
    case Err(e) => Err(e)
    case Ok(id) =>
      match DecodeList(GetList(n, "shotRules", CompoundId), RuleFromNbt)
      case Err(e) => Err(e)
      case Ok(rules) => Ok(Script(GetString(n, "name"), GetString(n, "description"), id, rules))
  }

  /** What a script looks like after a round trip. */
  function NormalizeScript(s: Script): Script {
    s.(shotRules := MapSeq(s.shotRules, NormalizeRule))
  }

  /** The rule decoder undoes the rule encoder, up to `NormalizeRule`. */
  lemma RuleCodecInverse()
    ensures forall rule: ShotRule :: RuleFromNbt(RuleToNbt(rule)) == Ok(NormalizeRule(rule))
  {
    forall rule: ShotRule ensures RuleFromNbt(RuleToNbt(rule)) == Ok(NormalizeRule(rule)) {
      RuleRoundTrip(rule);
    }
  }

  /** A script survives the round trip: name, description, id, and its rules in order. */
  lemma ScriptRoundTrip(s: Script)
    requires UuidText.Valid(s.id)
    ensures ScriptFromNbt(ScriptToNbt(s)) == Ok(NormalizeScript(s))
  {
    var n := ScriptToNbt(s);
    UuidText.FromToString(s.id);
    assert GetString(n, "id") == UuidText.ToString(s.id);
    GetEncodedList(n, "shotRules", s.shotRules, RuleToNbt);
    RuleCodecInverse();
    DecodeEncodeList(s.shotRules, RuleToNbt, RuleFromNbt, NormalizeRule);
  }
}

=== FILE: camera_state_recorder.dfy ===
/**
 A recorded camera state and the route built from two of them.  Reading
 the live camera (`recordCurrentState`) is host I/O and is not part of
 this model; the recorder's static fields become a `Recorder` value.
 */
module CameraStateRecorder {
  import opened Common
  import opened Geometry
  import opened CameraScript

  datatype CameraState = CameraState(
    position: Vec3,
    yaw: real,
    pitch: real,
    fov: real,
    roll: real,
    targetPoint: Vec3,
    movementSpeed: real,
    sensitivity: real,
    cinematicMode: bool)

  /** `new CameraState()` */
  function NewState(): (s: CameraState)
    ensures s.position == Origin && s.targetPoint == Origin
    ensures s.yaw == 0.0 && s.pitch == 0.0 && s.roll == 0.0
    ensures s.fov == 70.0 && s.movementSpeed == 1.0 && s.sensitivity == 1.0
    ensures !s.cinematicMode
  {
    CameraState(Origin, 0.0, 0.0, 70.0, 0.0, Origin, 1.0, 1.0, false)
  }

  /** The route fields `toMovementRoute` writes, put back to their defaults. */
  function ClearStartFields(r: MovementRoute): MovementRoute {
    r.(startPosition := DefaultRoute.startPosition, startFov := DefaultRoute.startFov,
       startYaw := DefaultRoute.startYaw, startPitch := DefaultRoute.startPitch,
       targetPoint := DefaultRoute.targetPoint)
  }

  /** `toMovementRoute`: the start of a default route, seen from this state. */
  function ToMovementRoute(s: CameraState): (r: MovementRoute)
    ensures r.startPosition == Some(s.position) && r.targetPoint == Some(s.targetPoint)
    ensures r.startFov == s.fov && r.startYaw == s.yaw && r.startPitch == s.pitch
    ensures ClearStartFields(r) == DefaultRoute
  {
    DefaultRoute.(startPosition := Some(s.position), startFov := s.fov, startYaw := s.yaw,
                  startPitch := s.pitch, targetPoint := Some(s.targetPoint))
  }

  /** The part of `createRouteFromStates` before the switch on the path type. */
  function CommonRoute(start: CameraState, end: CameraState, kind: PathType): MovementRoute {
    ToMovementRoute(start).(endPosition := Some(end.position), endFov := end.fov, endYaw := end.yaw,
                            endPitch := end.pitch, pathType := kind, duration := 5.0)
  }

  /** The Bézier control point: the midpoint of the two positions, raised by 5. */
  function RaisedMidpoint(a: Vec3, b: Vec3): (c: Vec3)
    ensures c.y - 5.0 - a.y == b.y - (c.y - 5.0)
    ensures c.x - a.x == b.x - c.x && c.z - a.z == b.z - c.z
  {
    Vec3((a.x + b.x) / 2.0, (a.y + b.y) / 2.0 + 5.0, (a.z + b.z) / 2.0)
  }

  /** `createRouteFromStates` */
  function CreateRouteFromStates(start: CameraState, end: CameraState, kind: PathType): (r: MovementRoute)
    ensures r.pathType == kind && r.duration == 5.0
    ensures r.startPosition == Some(start.position) && r.endPosition == Some(end.position)
    ensures r.startFov == start.fov && r.endFov == end.fov
    ensures r.startYaw == start.yaw && r.startPitch == start.pitch
    ensures r.endYaw == end.yaw && r.endPitch == end.pitch
    ensures r.targetPoint == (if kind in {Orbit, Spiral, DollyZoom} then Some(end.position) else Some(start.targetPoint))
    ensures r.controlPosition == (if kind == Bezier then Some(RaisedMidpoint(start.position, end.position)) else None)
    ensures r.speed == DefaultRoute.speed && r.radius == DefaultRoute.radius && r.height == DefaultRoute.height
    ensures r.routeName == DefaultRoute.routeName && r.strength == DefaultRoute.strength
    ensures r.forward == DefaultRoute.forward && r.heading == DefaultRoute.heading
    ensures r.backgroundPoint == DefaultRoute.backgroundPoint
  {
    var route := CommonRoute(start, end, kind);
    match kind
    case Orbit => route.(targetPoint := Some(end.position))
    case Spiral => route.(targetPoint := Some(end.position))
    case DollyZoom => route.(targetPoint := Some(end.position))
    case Bezier => route.(controlPosition := Some(RaisedMidpoint(start.position, end.position)))
    case StationaryPan =>
      route.(startYaw := start.yaw, startPitch := start.pitch, endYaw := end.yaw, endPitch := end.pitch)
    case Direct => route
    case Smooth => route
  }

  /**
   The STATIONARY_PAN branch rewrites angles that are already set, so its
   route is the DIRECT route with only the path type changed.
   */
  lemma PanBranchChangesNothing(start: CameraState, end: CameraState)
    ensures CreateRouteFromStates(start, end, StationaryPan)
         == CreateRouteFromStates(start, end, Direct).(pathType := StationaryPan)
  {
  }

  /** The recorder's static state: the last recorded state and the enabled flag. */
  datatype Recorder = Recorder(lastRecorded: Option<CameraState>, recordingEnabled: bool)

  /** `setRecordingEnabled` */
  function SetRecordingEnabled(rec: Recorder, enabled: bool): (r: Recorder)
    ensures r.recordingEnabled == enabled && r.lastRecorded == rec.lastRecorded
  {
    rec.(recordingEnabled := enabled)
  }

  /** `reset`: forgets the last state and disables recording. */
  function Reset(rec: Recorder): (r: Recorder)
    ensures r.lastRecorded.None? && !r.recordingEnabled
  {
    Recorder(None, false)
  }
}

=== FILE: cinematic_script.dfy ===
/**
 The older timeline script format: a named list of steps (move, wait,
 title, command), each with a type tag and a duration in seconds.
 */
module CinematicScript {
  import opened Common
  import opened Geometry

  datatype StepType = Move | Wait | Title | Command

  datatype PathType = Direct | Smooth | Orbit | Bezier | Spiral | Dolly | StationaryPan

  /** The fields of a move step; an unset reference field is `None`. */
  datatype MoveFields = MoveFields(
    pathType: Option<PathType>,
    startPosition: Option<Vec3>,
    endPosition: Option<Vec3>,
    controlPoint: Option<Vec3>,
    centerPosition: Option<Vec3>,
    radius: real,
    speed: real,
    height: real,
    targetPoint: Option<Vec3>,
    backgroundPoint: Option<Vec3>,
    strength: real,
    forward: bool,
    startRotation: Option<Vec3>,
    endRotation: Option<Vec3>,
    startFov: real,
    endFov: real,
    headingOffset: real)

  datatype Step =
    | MoveStep(duration: real, move: MoveFields)
    | WaitStep(duration: real)
    | TitleStep(duration: real, title: Option<string>, subtitle: Option<string>,
                fadeIn: int, stay: int, fadeOut: int, blackBars: bool, hudText: Option<string>)
    | CommandStep(duration: real, command: Option<string>, executeAsPlayer: bool)

  /** `TimelineStep.getType`: the tag each subclass passes to the base constructor. */
  function TypeOf(s: Step): StepType {
    match s
    case MoveStep(_, _) => Move
    case WaitStep(_) => Wait
    case TitleStep(_, _, _, _, _, _, _, _) => Title
    case CommandStep(_, _, _) => Command
  }

  /** `new MoveStep()`: every field at Java's zero value. */
  function NewMoveStep(): (s: Step)
    ensures TypeOf(s) == Move && s.duration == 0.0
    ensures s.move.pathType.None? && s.move.startPosition.None? && !s.move.forward
  {
    MoveStep(0.0, MoveFields(None, None, None, None, None, 0.0, 0.0, 0.0, None, None, 0.0, false, None, None, 0.0, 0.0, 0.0))
  }

  /** `new WaitStep(duration)` */
  function NewWaitStep(duration: real): (s: Step)
    ensures TypeOf(s) == Wait && s.duration == duration
  {
    WaitStep(duration)
  }

  /** `new TitleStep()`: fades 10, 50 and 20 ticks, no black bars, no text. */
  function NewTitleStep(): (s: Step)
    ensures TypeOf(s) == Title && s.duration == 0.0
    ensures s.fadeIn == 10 && s.stay == 50 && s.fadeOut == 20 && !s.blackBars
    ensures s.title.None? && s.subtitle.None? && s.hudText.None?
  {
    TitleStep(0.0, None, None, 10, 50, 20, false, None)
  }

  /** `new CommandStep()`: no command, run by the server rather than the player. */
  function NewCommandStep(): (s: Step)
    ensures TypeOf(s) == Command && s.duration == 0.0
    ensures s.command.None? && !s.executeAsPlayer
  {
    CommandStep(0.0, None, false)
  }

  datatype Script = Script(name: string, description: string, timeline: seq<Step>)

  /** `new CinematicScript()` */
  function NewScript(): (s: Script)
    ensures s.name == "Untitled Script" && s.description == "No description" && s.timeline == []
  {
    Script("Untitled Script", "No description", [])
  }

  /** `new CinematicScript(name, description)` */
  function NewNamedScript(name: string, description: string): (s: Script)
    ensures s.name == name && s.description == description && s.timeline == []
  {
    Script(name, description, [])
  }

  /** `addStep`: appends; name and description are untouched. */
  function AddStep(s: Script, step: Step): (r: Script)
    ensures r.timeline == Append(s.timeline, step)
    ensures r.name == s.name && r.description == s.description
  {
    s.(timeline := Append(s.timeline, step))
  }

  /** `removeStep(index)`: removes that element when the index is valid, otherwise does nothing. */
  function RemoveStep(s: Script, index: int): (r: Script)
    ensures r.name == s.name && r.description == s.description
    ensures 0 <= index < |s.timeline| ==> |r.timeline| == |s.timeline| - 1
    ensures 0 <= index < |s.timeline| ==> forall j :: 0 <= j < |r.timeline| ==>
              r.timeline[j] == s.timeline[if j < index then j else j + 1]
    ensures !(0 <= index < |s.timeline|) ==> r == s
  {
    if 0 <= index < |s.timeline| then
      s.(timeline := s.timeline[..index] + s.timeline[index + 1..])
    else
      s
  }

  /** `getStep(index)`: the element at a valid index, otherwise null. */
  function GetStep(s: Script, index: int): (r: Option<Step>)
    ensures r.Some? <==> 0 <= index < |s.timeline|
    ensures r.Some? ==> r.value == s.timeline[index]
  {
    if 0 <= index < |s.timeline| then Some(s.timeline[index]) else None
  }

  /** The step just added is found at the old length, and removing it gives the script back. */
  lemma AddThenGetAndRemove(s: Script, step: Step)
    ensures GetStep(AddStep(s, step), |s.timeline|) == Some(step)
    ensures RemoveStep(AddStep(s, step), |s.timeline|) == s
  {
    assert AddStep(s, step).timeline[..|s.timeline|] == s.timeline;
  }

  /** After removing index `i`, `getStep` sees the later steps shifted down by one. */
  lemma GetAfterRemove(s: Script, i: int, j: int)
    requires 0 <= i < |s.timeline|
    ensures GetStep(RemoveStep(s, i), j) == (if j < i then GetStep(s, j) else GetStep(s, j + 1))
  {
  }
}

=== FILE: common.dfy ===
/**
 Small shared vocabulary: optional values (Java's nullable references),
 results of decoders that can throw, and the two list operations of
 `java.util.List` that the data model uses (`add` and `remove(Object)`).
 */
module Common {

  /** A Java reference that may be null. */
  datatype Option<+T> = None | Some(value: T) {
    function GetOr(default: T): T {
      match this
      case Some(v) => v
      case None => default
    }
  }

  /** The outcome of an operation that can throw (decoders, parsers). */
  datatype Result<+T> = Ok(value: T) | Err(reason: string)

  /** `List.add`: the element goes at the end. */
  function Append<T>(s: seq<T>, x: T): (r: seq<T>)
    ensures |r| == |s| + 1 && r[|s|] == x
    ensures forall i :: 0 <= i < |s| ==> r[i] == s[i]
  {
    s + [x]
  }

  /** Index of the first element equal to `x`, or |s| when there is none. */
  function FirstIndex<T(==)>(s: seq<T>, x: T): (i: nat)
    ensures i <= |s|
    ensures i < |s| ==> s[i] == x
    ensures forall j :: 0 <= j < i ==> s[j] != x
  {
    if |s| == 0 then 0
    else if s[0] == x then 0
    else 1 + FirstIndex(s[1..], x)
  }

  /** `List.remove(Object)`: removes the first element equal to `x`, if any. */
  function RemoveFirst<T(==)>(s: seq<T>, x: T): (r: seq<T>)
    ensures x !in s ==> r == s
    ensures x in s ==> |r| == |s| - 1
    ensures x in s ==> multiset(r) + multiset{x} == multiset(s)
    ensures x in s ==> exists i :: 0 <= i < |s| && s[i] == x && x !in s[..i] && r == s[..i] + s[i + 1..]
  {
    var i := FirstIndex(s, x);
    if i == |s| then
      assert x !in s;
      s
    else
      assert s == s[..i] + [s[i]] + s[i + 1..];
      assert x !in s[..i];
      s[..i] + s[i + 1..]
  }

  /** Removing what was just appended gives the list back, when it was not already present. */
  lemma RemoveAfterAppend<T>(s: seq<T>, x: T)
    requires x !in s
    ensures RemoveFirst(Append(s, x), x) == s
  {
    assert Append(s, x)[..|s|] == s;
  }
}

=== FILE: direct_linear_path.dfy ===
/**
 `DirectLinearPath`: the camera moves in a straight line and always looks at
 the end point.
 */
module DirectLinearPath {
  import opened Angles
  import opened Geometry

  datatype Path = Path(start: Vec3, end: Vec3, durationTicks: real)

  /** The constructor: the duration is given in seconds and stored in ticks. */
  function New(start: Vec3, end: Vec3, duration: real): (p: Path)
    ensures p.start == start && p.end == end
    ensures p.durationTicks / TicksPerSecond == duration
  {
    Path(start, end, Ticks(duration))
  }

  predicate Valid(p: Path) {
    p.durationTicks > 0.0
  }

  /** `getPosition`: lerp at progress `min(t / D, 1)`. */
  function Position(p: Path, t: real): (r: Vec3)
    requires Valid(p)
    ensures t == 0.0 ==> r == p.start
    ensures t >= p.durationTicks ==> r == p.end
    ensures 0.0 <= t ==> BetweenVec(p.start, p.end, r)
  {
    LerpVec(p.start, p.end, Progress(t, p.durationTicks))
  }

  /**
   `getRotation`: look from the current position at the end point.  Once
   the end is reached the offset is zero and the rotation is the fixed
   "look along nothing" value.
   */
  function Rotation(m: MathFns, p: Path, t: real): (r: Vec3)
    requires Valid(p)
    ensures r.z == 0.0
    ensures t == 0.0 ==> r == LookAt(m, p.end, p.start)
    ensures t >= p.durationTicks ==> r == Aim(m, Origin)
  {
    var here := Position(p, t);
    assert t >= p.durationTicks ==> Sub(p.end, here) == Origin;
    LookAt(m, p.end, here)
  }

  /**
   The rotation only depends on the remaining offset to the end point:
   two paths whose current offsets agree face the same way.
   */
  lemma RotationDependsOnOffset(m: MathFns, p: Path, q: Path, t: real, s: real)
    requires Valid(p) && Valid(q)
    requires Sub(p.end, Position(p, t)) == Sub(q.end, Position(q, s))
    ensures Rotation(m, p, t) == Rotation(m, q, s)
  {
  }
}

=== FILE: dolly_zoom_path.dfy ===
/**
 `DollyZoomPath`: the camera slides (eased) from start to end while looking
 at a fixed target, and the field of view follows the distance to the
 target, eased between the values at the two ends and clamped to
 [5, 120] degrees.
 */
module DollyZoomPath {
  import opened Angles
  import opened Geometry

  /** Narrowest and widest field of view `getFOV` returns, in degrees. */
  const MinFov: real := 5.0
  const MaxFov: real := 120.0

  /** Height of the virtual screen in the field-of-view formula. */
  const ScreenHeight: real := 0.1

  datatype Path = Path(
    start: Vec3,
    end: Vec3,
    target: Vec3,
    startRotation: Vec3,
    endRotation: Vec3,
    startFov: real,
    endFov: real,
    durationTicks: real)

  /** `calculateFOV(camera, target)`: `toDegrees(2 atan(h / (2 d)))` for the camera-target distance `d`. */
  function FovFor(m: MathFns, camera: Vec3, target: Vec3): real
    requires Distance(m, camera, target) != 0.0
  {
    ToDegrees(2.0 * m.atan(ScreenHeight / (2.0 * Distance(m, camera, target))))
  }

  /** Neither end of the slide sits on the target, so both fields of view are defined. */
  predicate Constructible(m: MathFns, start: Vec3, end: Vec3, target: Vec3) {
    Distance(m, start, target) != 0.0 && Distance(m, end, target) != 0.0
  }

  /** The constructor: the duration is stored in ticks, both end fields of view are computed from the distances. */
  function New(m: MathFns, start: Vec3, end: Vec3, target: Vec3, startRotation: Vec3, endRotation: Vec3, duration: real): (p: Path)
    requires Constructible(m, start, end, target)
    ensures p.start == start && p.end == end && p.target == target
    ensures p.startRotation == startRotation && p.endRotation == endRotation
    ensures p.durationTicks / TicksPerSecond == duration
    ensures p.startFov == FovFor(m, start, target) && p.endFov == FovFor(m, end, target)
  {
    Path(start, end, target, startRotation, endRotation,
      FovFor(m, start, target), FovFor(m, end, target), Ticks(duration))
  }

  predicate Valid(p: Path) {
    p.durationTicks > 0.0
  }

  /** The eased progress both the position and the field of view use. */
  function Eased(p: Path, t: real): (w: real)
    requires Valid(p)
    ensures 0.0 <= t ==> 0.0 <= w <= 1.0
    ensures t == 0.0 ==> w == 0.0
    ensures t >= p.durationTicks ==> w == 1.0
  {
    EaseInOutQuad(Progress(t, p.durationTicks))
  }

  /** `getPosition`: eased slide from start to end. */
  function Position(p: Path, t: real): (r: Vec3)
    requires Valid(p)
    ensures t == 0.0 ==> r == p.start
    ensures t >= p.durationTicks ==> r == p.end
    ensures 0.0 <= t ==> BetweenVec(p.start, p.end, r)
  {
    LerpVec(p.start, p.end, Eased(p, t))
  }

  /** `getRotation`: always look at the target. */
  function Rotation(m: MathFns, p: Path, t: real): (r: Vec3)
    requires Valid(p)
    ensures r.z == 0.0
    ensures t == 0.0 ==> r == LookAt(m, p.target, p.start)
    ensures t >= p.durationTicks ==> r == LookAt(m, p.target, p.end)
  {
    LookAt(m, p.target, Position(p, t))
  }

  /** `Math.max(Math.min(fov, 120), 5)` */
  function ClampFov(v: real): (r: real)
    ensures MinFov <= r <= MaxFov
    ensures MinFov <= v <= MaxFov ==> r == v
    ensures v < MinFov ==> r == MinFov
    ensures v > MaxFov ==> r == MaxFov
  {
    if v > MaxFov then MaxFov else if v < MinFov then MinFov else v
  }

  /** `getFOV`: eased lerp between the end fields of view, clamped to [5, 120]. */
  function Fov(p: Path, t: real): (r: real)
    requires Valid(p)
    ensures MinFov <= r <= MaxFov
    ensures t == 0.0 ==> r == ClampFov(p.startFov)
    ensures t >= p.durationTicks ==> r == ClampFov(p.endFov)
    ensures 0.0 <= t ==> Between(ClampFov(p.startFov), ClampFov(p.endFov), r)
  {
    var w := Eased(p, t);
    var v := Lerp(p.startFov, p.endFov, w);
    if 0.0 <= t then
      ClampBetween(p.startFov, p.endFov, v);
      ClampFov(v)
    else
      ClampFov(v)
  }

  /** Clamping keeps a value between the clamped ends. */
  lemma ClampBetween(a: real, b: real, v: real)
    requires Between(a, b, v)
    ensures Between(ClampFov(a), ClampFov(b), ClampFov(v))
  {
  }

  /**
   When the camera moves away from the target the field of view never
   narrows on the way (and symmetrically when it approaches).
   */
  lemma FovMonotone(p: Path, t1: real, t2: real)
    requires Valid(p)
    requires 0.0 <= t1 <= t2
    ensures p.startFov <= p.endFov ==> Fov(p, t1) <= Fov(p, t2)
    ensures p.startFov >= p.endFov ==> Fov(p, t1) >= Fov(p, t2)
  {
    ProgressMonotone(t1, t2, p.durationTicks);
    EaseMonotone(Progress(t1, p.durationTicks), Progress(t2, p.durationTicks));
    LerpMonotone(p.startFov, p.endFov, Eased(p, t1), Eased(p, t2));
  }

  /**
   The field of view depends only on the two camera-target distances:
   slides with equal distances at both ends zoom identically.
   */
  lemma FovDependsOnlyOnDistances(m: MathFns, s1: Vec3, e1: Vec3, g1: Vec3, s2: Vec3, e2: Vec3, g2: Vec3,
                                  r1: Vec3, r2: Vec3, r3: Vec3, r4: Vec3, duration: real, t: real)
    requires duration > 0.0
    requires Constructible(m, s1, e1, g1) && Constructible(m, s2, e2, g2)
    requires Distance(m, s1, g1) == Distance(m, s2, g2) && Distance(m, e1, g1) == Distance(m, e2, g2)
    ensures Valid(New(m, s1, e1, g1, r1, r2, duration))
    ensures Fov(New(m, s1, e1, g1, r1, r2, duration), t) == Fov(New(m, s2, e2, g2, r3, r4, duration), t)
  {
  }

  /**
   The rotation only depends on the offset from the camera to the target:
   two dolly zooms whose current offsets agree face the same way.
   */
  lemma RotationDependsOnOffset(m: MathFns, p: Path, q: Path, t: real, s: real)
    requires Valid(p) && Valid(q)
    requires Sub(p.target, Position(p, t)) == Sub(q.target, Position(q, s))
    ensures Rotation(m, p, t) == Rotation(m, q, s)
  {
  }
}

=== FILE: geometry.dfy ===
/**
 Minecraft's `Vec3` as a value of three reals, the linear interpolation
 every path uses, and the "look at" rotation several paths share.

 The trigonometric functions and the square root are not interpreted: they
 arrive as a `MathFns` record, so every statement proved here holds for any
 choice of them.  A rotation is a `Vec3(pitch, yaw, roll)` in radians, as in
 the source.
 */
module Geometry {
  import opened Angles

  datatype Vec3 = Vec3(x: real, y: real, z: real)

  /** `Vec3.ZERO` */
  const Origin: Vec3 := Vec3(0.0, 0.0, 0.0)

  /** `Vec3.add` */
  function Add(a: Vec3, b: Vec3): Vec3 {
    Vec3(a.x + b.x, a.y + b.y, a.z + b.z)
  }

  /** `b - a`, coordinate by coordinate. */
  function Sub(b: Vec3, a: Vec3): Vec3 {
    Vec3(b.x - a.x, b.y - a.y, b.z - a.z)
  }

  /** The uninterpreted `java.lang.Math` functions the paths call. */
  datatype MathFns = MathFns(
    cos: real -> real,
    sin: real -> real,
    atan: real -> real,
    atan2: (real, real) -> real,
    sqrt: real -> real)

  /** `Vec3.distanceTo`: the square root of the summed squared differences. */
  function Distance(m: MathFns, a: Vec3, b: Vec3): real {
    var d := Sub(b, a);
    m.sqrt(d.x * d.x + d.y * d.y + d.z * d.z)
  }

  /** `v` lies on the closed segment between `a` and `b` (in either order). */
  predicate Between(a: real, b: real, v: real) {
    (a <= v <= b) || (b <= v <= a)
  }

  /** Each coordinate of `v` lies between the matching coordinates of `a` and `b`. */
  predicate BetweenVec(a: Vec3, b: Vec3, v: Vec3) {
    Between(a.x, b.x, v.x) && Between(a.y, b.y, v.y) && Between(a.z, b.z, v.z)
  }

  /** The `interpolate(start, end, t)` helper: `start + (end - start) * t`, unclamped. */
  function Lerp(a: real, b: real, t: real): (r: real)
    ensures t == 0.0 ==> r == a
    ensures t == 1.0 ==> r == b
    ensures 0.0 <= t <= 1.0 ==> Between(a, b, r)
  {
    if 0.0 <= t <= 1.0 then
      LerpStaysBetween(a, b, t);
      a + (b - a) * t
    else
      a + (b - a) * t
  }

  lemma LerpStaysBetween(a: real, b: real, t: real)
    requires 0.0 <= t <= 1.0
    ensures Between(a, b, a + (b - a) * t)
  {
    if a <= b {
      MulNonNegative(b - a, t);
      MulNonNegative(b - a, 1.0 - t);
      assert (b - a) * t + (b - a) * (1.0 - t) == b - a;
    } else {
      MulNonNegative(a - b, t);
      MulNonNegative(a - b, 1.0 - t);
      assert (a - b) * t + (a - b) * (1.0 - t) == a - b;
    }
  }

  /** Lerp moves monotonically towards its end value as the fraction grows. */
  lemma LerpMonotone(a: real, b: real, w1: real, w2: real)
    requires w1 <= w2
    ensures a <= b ==> Lerp(a, b, w1) <= Lerp(a, b, w2)
    ensures a >= b ==> Lerp(a, b, w1) >= Lerp(a, b, w2)
  {
    var d := b - a;
    if d >= 0.0 {
      MulNonNegative(d, w2 - w1);
    } else {
      MulNonNegative(-d, w2 - w1);
    }
    assert d * w2 - d * w1 == d * (w2 - w1);
  }

  /** Lerp of each coordinate. */
  function LerpVec(a: Vec3, b: Vec3, t: real): (r: Vec3)
    ensures t == 0.0 ==> r == a
    ensures t == 1.0 ==> r == b
    ensures 0.0 <= t <= 1.0 ==> BetweenVec(a, b, r)
  {
    Vec3(Lerp(a.x, b.x, t), Lerp(a.y, b.y, t), Lerp(a.z, b.z, t))
  }

  /**
   The rotation that looks along `offset` (target minus camera): yaw is
   `atan2(dz, dx) - π/2`, pitch is `-atan2(dy, horizontal distance)`, and
   roll is 0.
   */
  function Aim(m: MathFns, offset: Vec3): (r: Vec3)
    ensures r.z == 0.0
  {
    var yaw := m.atan2(offset.z, offset.x) - Pi / 2.0;
    var horizontal := m.sqrt(offset.x * offset.x + offset.z * offset.z);
    var pitch := -m.atan2(offset.y, horizontal);
    Vec3(pitch, yaw, 0.0)
  }

  /** `calculateTargetRotation(target, cameraPosition)`. */
  function LookAt(m: MathFns, target: Vec3, camera: Vec3): (r: Vec3)
    ensures r.z == 0.0
  {
    Aim(m, Sub(target, camera))
  }

  /** Pitch and yaw both normalised into [0, 2π). */
  predicate Normalized(r: Vec3) {
    0.0 <= r.x < TwoPi && 0.0 <= r.y < TwoPi
  }

  /**
   The rotation the angle-interpolating paths return: pitch and yaw each
   walk the shortest arc by the fraction `w`, roll is 0.
   */
  function ArcRotation(from: Vec3, to: Vec3, w: real): (r: Vec3)
    ensures Normalized(r) && r.z == 0.0
    ensures w == 0.0 ==> r.x == NormalizeAngle(from.x) && r.y == NormalizeAngle(from.y)
    ensures w == 1.0 ==> r.x == NormalizeAngle(to.x) && r.y == NormalizeAngle(to.y)
  {
    Vec3(InterpolateAngle(from.x, to.x, w), InterpolateAngle(from.y, to.y, w), 0.0)
  }

  /**
   The point at `angle` on the horizontal circle of `radius` around
   `center`, raised by `rise`: `(cx + r cos a, cy + rise, cz + r sin a)`.
   */
  function CirclePoint(m: MathFns, center: Vec3, radius: real, angle: real, rise: real): (r: Vec3)
    ensures r.y == center.y + rise
    ensures m.cos(angle) == 1.0 && m.sin(angle) == 0.0 ==> r == Vec3(center.x + radius, center.y + rise, center.z)
  {
    Vec3(center.x + radius * m.cos(angle), center.y + rise, center.z + radius * m.sin(angle))
  }

  /** The horizontal offset `(r c, r s)` has squared length `r²` when `c² + s² = 1`. */
  lemma ScaledUnitCircle(r: real, c: real, s: real)
    requires c * c + s * s == 1.0
    ensures (r * c) * (r * c) + (r * s) * (r * s) == r * r
  {
    assert (r * c) * (r * c) + (r * s) * (r * s) == (r * r) * (c * c + s * s);
  }

  /**
   Every circle point lies at horizontal distance `radius` from the centre,
   provided `cos² + sin² = 1` at its angle.
   */
  lemma CirclePointOnCircle(m: MathFns, center: Vec3, radius: real, angle: real, rise: real)
    requires m.cos(angle) * m.cos(angle) + m.sin(angle) * m.sin(angle) == 1.0
    ensures var d := Sub(center, CirclePoint(m, center, radius, angle, rise));
            d.x * d.x + d.z * d.z == radius * radius
  {
    var c, s := m.cos(angle), m.sin(angle);
    var d := Sub(center, CirclePoint(m, center, radius, angle, rise));
    assert d.x * d.x == (radius * c) * (radius * c);
    assert d.z * d.z == (radius * s) * (radius * s);
    ScaledUnitCircle(radius, c, s);
  }
}

=== FILE: linear_path.dfy ===
/**
 `LinearPath`: position and rotation both move in a straight line from start
 to end over `duration` seconds; the rotation is lerped component by
 component with no angle wrapping.
 */
module LinearPath {
  import opened Angles
  import opened Geometry

  datatype Path = Path(
    start: Vec3,
    end: Vec3,
    startRotation: Vec3,
    endRotation: Vec3,
    durationTicks: real)

  /** The constructor: the duration is given in seconds and stored in ticks. */
  function New(start: Vec3, end: Vec3, startRotation: Vec3, endRotation: Vec3, duration: real): (p: Path)
    ensures p.start == start && p.end == end
    ensures p.startRotation == startRotation && p.endRotation == endRotation
    ensures p.durationTicks / TicksPerSecond == duration
  {
    Path(start, end, startRotation, endRotation, Ticks(duration))
  }

  /** The path can be sampled: its duration is positive. */
  predicate Valid(p: Path) {
    p.durationTicks > 0.0
  }

  /** `getPosition`: lerp at progress `min(t / D, 1)`. */
  function Position(p: Path, t: real): (r: Vec3)
    requires Valid(p)
    ensures t == 0.0 ==> r == p.start
    ensures t >= p.durationTicks ==> r == p.end
    ensures 0.0 <= t ==> BetweenVec(p.start, p.end, r)
  {
    LerpVec(p.start, p.end, Progress(t, p.durationTicks))
  }

  /** `getRotation`: pitch and yaw lerped without wrapping, roll 0. */
  function Rotation(p: Path, t: real): (r: Vec3)
    requires Valid(p)
    ensures r.z == 0.0
    ensures t == 0.0 ==> r.x == p.startRotation.x && r.y == p.startRotation.y
    ensures t >= p.durationTicks ==> r.x == p.endRotation.x && r.y == p.endRotation.y
    ensures 0.0 <= t ==> Between(p.startRotation.x, p.endRotation.x, r.x)
    ensures 0.0 <= t ==> Between(p.startRotation.y, p.endRotation.y, r.y)
  {
    var u := Progress(t, p.durationTicks);
    Vec3(Lerp(p.startRotation.x, p.endRotation.x, u), Lerp(p.startRotation.y, p.endRotation.y, u), 0.0)
  }

  /**
   No angle wrapping: turning from 350 to 10 degrees passes through 180
   degrees half way, the long way round.
   */
  lemma LongWayRoundExample()
    ensures var p := New(Origin, Origin, Vec3(0.0, ToRadians(350.0), 0.0), Vec3(0.0, ToRadians(10.0), 0.0), 1.0);
            Rotation(p, 10.0).y == ToRadians(180.0)
  {
  }

  /** Past the end the path rests: every later time samples the end state. */
  lemma RestsAfterEnd(p: Path, t: real, t': real)
    requires Valid(p)
    requires p.durationTicks <= t <= t'
    ensures Position(p, t) == Position(p, t') == p.end
    ensures Rotation(p, t) == Rotation(p, t')
  {
  }
}

=== FILE: movement_path.dfy ===
/**
 `IMovementPath`: the common face of every camera path.  A path is sampled
 at a (fractional) tick for a position, a rotation `(pitch, yaw, roll)` in
 radians and a field of view in degrees.  Sampling is a pure function of
 the path and the time: the interface asks implementations to be
 stateless, and the two setters it offers do nothing by default (no path
 overrides them).

 `Construction` describes the constructor call the timeline makes for a
 route; `Build` performs it.
 */
module MovementPath {
  import opened Angles
  import opened Geometry
  import LinearPath
  import DirectLinearPath
  import SmoothLinearPath
  import BezierPath
  import StationaryPanPath
  import DollyZoomPath
  import OrbitPath
  import SpiralPath

  /** The field of view of every path that does not override `getFOV`. */
  const DefaultFov: real := 70.0

  datatype Path =
    | Linear(linear: LinearPath.Path)
    | Direct(direct: DirectLinearPath.Path)
    | Smooth(smooth: SmoothLinearPath.Path)
    | Bezier(bezier: BezierPath.Path)
    | Pan(pan: StationaryPanPath.Path)
    | Dolly(dolly: DollyZoomPath.Path)
    | Orbit(orbit: OrbitPath.Path)
    | Spiral(spiral: SpiralPath.Path)

  /** The path can be sampled at every time: each duration it divides by is positive. */
  predicate Valid(p: Path) {
    match p
    case Linear(q) => LinearPath.Valid(q)
    case Direct(q) => DirectLinearPath.Valid(q)
    case Smooth(q) => SmoothLinearPath.Valid(q)
    case Bezier(q) => BezierPath.Valid(q)
    case Pan(q) => StationaryPanPath.Valid(q)
    case Dolly(q) => DollyZoomPath.Valid(q)
    case Orbit(_) => true
    case Spiral(q) => SpiralPath.Valid(q)
  }

  /** `getPosition(timeInTicks)` */
  function Position(m: MathFns, p: Path, t: real): (r: Vec3)
    requires Valid(p)
    ensures p.Pan? ==> r == p.pan.fixed
    ensures p.Orbit? ==> r.y == p.orbit.center.y + p.orbit.height
  {
    match p
    case Linear(q) => LinearPath.Position(q, t)
    case Direct(q) => DirectLinearPath.Position(q, t)
    case Smooth(q) => SmoothLinearPath.Position(q, t)
    case Bezier(q) => BezierPath.Position(q, t)
    case Pan(q) => StationaryPanPath.Position(q, t)
    case Dolly(q) => DollyZoomPath.Position(q, t)
    case Orbit(q) => OrbitPath.Position(m, q, t)
    case Spiral(q) => SpiralPath.Position(m, q, t)
  }

  /** `getRotation(timeInTicks)`: no path ever rolls the camera. */
  function Rotation(m: MathFns, p: Path, t: real): (r: Vec3)
    requires Valid(p)
    ensures r.z == 0.0
    ensures p.Smooth? || p.Bezier? || p.Pan? ==> Normalized(r)
  {
    match p
    case Linear(q) => LinearPath.Rotation(q, t)
    case Direct(q) => DirectLinearPath.Rotation(m, q, t)
    case Smooth(q) => SmoothLinearPath.Rotation(q, t)
    case Bezier(q) => BezierPath.Rotation(q, t)
    case Pan(q) => StationaryPanPath.Rotation(q, t)
    case Dolly(q) => DollyZoomPath.Rotation(m, q, t)
    case Orbit(q) => OrbitPath.Rotation(m, q, t)
    case Spiral(q) => SpiralPath.Rotation(m, q, t)
  }

  /** `getFOV(timeInTicks)`: 70 degrees unless the path is a dolly zoom, which stays within [5, 120]. */
  function Fov(p: Path, t: real): (r: real)
    requires Valid(p)
    ensures !p.Dolly? ==> r == DefaultFov
    ensures p.Dolly? ==> DollyZoomPath.MinFov <= r <= DollyZoomPath.MaxFov
  {
    match p
    case Dolly(q) => DollyZoomPath.Fov(q, t)
    case _ => DefaultFov
  }

  /** Every field of view a path reports lies in [5, 120] degrees. */
  lemma FovInRange(p: Path, t: real)
    requires Valid(p)
    ensures DollyZoomPath.MinFov <= Fov(p, t) <= DollyZoomPath.MaxFov
  {
  }

  /** `setHeadingOffset`: the default does nothing, and no path overrides it. */
  function SetHeadingOffset(p: Path, offset: real): Path {
    p
  }

  /** `setFOVRange`: the default does nothing, and no path overrides it. */
  function SetFovRange(p: Path, startFov: real, endFov: real): Path {
    p
  }

  /** The setters leave every sample of the path unchanged. */
  lemma SettersAreUnobservable(m: MathFns, p: Path, offset: real, startFov: real, endFov: real, t: real)
    requires Valid(p)
    ensures var q := SetFovRange(SetHeadingOffset(p, offset), startFov, endFov);
            Valid(q) && Position(m, q, t) == Position(m, p, t) && Rotation(m, q, t) == Rotation(m, p, t)
            && Fov(q, t) == Fov(p, t)
  {
  }

  /** A constructor call, with its arguments, as the timeline issues it. */
  datatype Construction =
    | NewDirect(start: Vec3, end: Vec3, duration: real)
    | NewSmooth(start: Vec3, end: Vec3, startRotation: Vec3, endRotation: Vec3, duration: real)
    | NewOrbit(center: Vec3, radius: real, speed: real, height: real, duration: real, headingOffset: real)
    | NewBezier(start: Vec3, control: Vec3, end: Vec3, startRotation: Vec3, endRotation: Vec3, duration: real)
    | NewSpiral(center: Vec3, radius: real, speed: real, height: real, duration: real)
    | NewDollyZoom(start: Vec3, end: Vec3, target: Vec3, startRotation: Vec3, endRotation: Vec3, duration: real)
    | NewSimpleDollyZoom(start: Vec3, target: Vec3, duration: real, forward: bool)
    | NewStationaryPan(start: Vec3, startRotation: Vec3, endRotation: Vec3, duration: real)

  /**
   The constructions this model can carry out: the simple dolly zoom
   factory is not part of the model, the spiral divides by its duration,
   and a dolly zoom needs both ends off the target.
   */
  predicate Buildable(m: MathFns, c: Construction) {
    match c
    case NewSimpleDollyZoom(_, _, _, _) => false
    case NewSpiral(_, _, _, _, duration) => duration > 0.0
    case NewDollyZoom(start, end, target, _, _, _) => DollyZoomPath.Constructible(m, start, end, target)
    case _ => true
  }

  /** Calls the constructor; the orbit's heading offset goes through the no-op setter. */
  function Build(m: MathFns, c: Construction): (p: Path)
    requires Buildable(m, c)
    ensures c.NewDirect? <==> p.Direct?
    ensures c.NewSmooth? <==> p.Smooth?
    ensures c.NewOrbit? <==> p.Orbit?
    ensures c.NewBezier? <==> p.Bezier?
    ensures c.NewSpiral? <==> p.Spiral?
    ensures c.NewDollyZoom? <==> p.Dolly?
    ensures c.NewStationaryPan? <==> p.Pan?
    ensures !p.Linear?
    ensures c.NewOrbit? || c.duration > 0.0 <==> Valid(p)
  {
    match c
    case NewDirect(start, end, duration) =>
      Direct(DirectLinearPath.New(start, end, duration))
    case NewSmooth(start, end, startRotation, endRotation, duration) =>
      Smooth(SmoothLinearPath.New(start, end, startRotation, endRotation, duration))
    case NewOrbit(center, radius, speed, height, duration, headingOffset) =>
      SetHeadingOffset(Orbit(OrbitPath.New(center, radius, speed, height, duration)), headingOffset)
    case NewBezier(start, control, end, startRotation, endRotation, duration) =>
      Bezier(BezierPath.New(start, control, end, startRotation, endRotation, duration))
    case NewSpiral(center, radius, speed, height, duration) =>
      Spiral(SpiralPath.New(m, center, radius, speed, height, duration))
    case NewDollyZoom(start, end, target, startRotation, endRotation, duration) =>
      Dolly(DollyZoomPath.New(m, start, end, target, startRotation, endRotation, duration))
    case NewStationaryPan(start, startRotation, endRotation, duration) =>
      Pan(StationaryPanPath.New(start, startRotation, endRotation, duration))
  }

  /** The heading offset handed to an orbit has no effect on the path built. */
  lemma OrbitHeadingIgnored(m: MathFns, center: Vec3, radius: real, speed: real, height: real, duration: real,
                            h1: real, h2: real)
    ensures Build(m, NewOrbit(center, radius, speed, height, duration, h1))
         == Build(m, NewOrbit(center, radius, speed, height, duration, h2))
  {
  }

  /** A built stationary pan stays at the start point it was given. */
  lemma PanStaysAtStart(m: MathFns, c: Construction, t: real)
    requires c.NewStationaryPan? && c.duration > 0.0
    ensures Position(m, Build(m, c), t) == c.start
  {
  }
}

=== FILE: nbt.dfy ===
/**
 Minecraft's named binary tags as far as the codecs use them.  A
 `CompoundTag` is a finite map from key to tag; its typed getters never
 throw: a missing key, or a key holding a tag of another type, yields the
 type's default (0, "", false, an empty list, an empty compound).
 */
module Nbt {

  datatype Tag =
    | TByte(b: int)
    | TInt(i: int)
    | TFloat(f: real)
    | TDouble(d: real)
    | TString(s: string)
    | TList(items: seq<Tag>)
    | TCompound(entries: map<string, Tag>)

  type Compound = map<string, Tag>

  /** Tag type ids as `getList(key, type)` takes them. */
  const DoubleId: int := 6
  const CompoundId: int := 10

  function TypeId(t: Tag): int {
    match t
    case TByte(_) => 1
    case TInt(_) => 3
    case TFloat(_) => 5
    case TDouble(_) => 6
    case TString(_) => 8
    case TList(_) => 9
    case TCompound(_) => 10
  }

  predicate IsNumeric(t: Tag) {
    t.TByte? || t.TInt? || t.TFloat? || t.TDouble?
  }

  /** `NumericTag.getAsDouble` */
  function AsDouble(t: Tag): real
    requires IsNumeric(t)
  {
    match t
    case TByte(b) => b as real
    case TInt(i) => i as real
    case TFloat(f) => f
    case TDouble(d) => d
  }

  /** `NumericTag.getAsByte`, as the unsigned value of its low eight bits. */
  function AsByte(t: Tag): (r: int)
    requires IsNumeric(t)
    ensures 0 <= r < 256
  {
    match t
    case TByte(b) => b % 256
    case TInt(i) => i % 256
    case TFloat(f) => f.Floor % 256
    case TDouble(d) => d.Floor % 256
  }

  /** `NumericTag.getAsInt`; floats and doubles round down. */
  function AsInt(t: Tag): int
    requires IsNumeric(t)
  {
    match t
    case TByte(b) => b
    case TInt(i) => i
    case TFloat(f) => f.Floor
    case TDouble(d) => d.Floor
  }

  /** `CompoundTag.contains(key)` */
  predicate Contains(c: Compound, key: string) {
    key in c
  }

  /** `CompoundTag.getString`: the string stored under `key`, or "". */
  function GetString(c: Compound, key: string): string {
    if key in c && c[key].TString? then c[key].s else ""
  }

  /** `CompoundTag.getDouble`: any numeric tag widened to a double, or 0. */
  function GetDouble(c: Compound, key: string): real {
    if key in c && IsNumeric(c[key]) then AsDouble(c[key]) else 0.0
  }

  /** `CompoundTag.getInt`: any numeric tag as an int, or 0. */
  function GetInt(c: Compound, key: string): int {
    if key in c && IsNumeric(c[key]) then AsInt(c[key]) else 0
  }

  /** `CompoundTag.getFloat`: as `GetDouble`; float rounding is not modelled. */
  function GetFloat(c: Compound, key: string): real {
    GetDouble(c, key)
  }

  /** `CompoundTag.getBoolean`: `getByte(key) != 0`. */
  function GetBoolean(c: Compound, key: string): bool {
    key in c && IsNumeric(c[key]) && AsByte(c[key]) != 0
  }

  /** `CompoundTag.getList(key, type)`: the list if every element has type `type`, else empty. */
  function GetList(c: Compound, key: string, typeId: int): (r: seq<Tag>)
    ensures forall i :: 0 <= i < |r| ==> TypeId(r[i]) == typeId
  {
    if key in c && c[key].TList? && forall i :: 0 <= i < |c[key].items| ==> TypeId(c[key].items[i]) == typeId
    then c[key].items
    else []
  }

  /** `ListTag.getDouble(i)`: the double at `i`, or 0 when out of range or not a double. */
  function ListDouble(items: seq<Tag>, i: int): real {
    if 0 <= i < |items| && items[i].TDouble? then items[i].d else 0.0
  }

  /** `ListTag.getCompound(i)`: the compound at `i`, or an empty one. */
  function ListCompound(items: seq<Tag>, i: int): Compound {
    if 0 <= i < |items| && items[i].TCompound? then items[i].entries else map[]
  }

  /** `putBoolean` stores a byte 1 or 0. */
  function BoolTag(v: bool): Tag {
    TByte(if v then 1 else 0)
  }

  /** Each getter reads back what the matching `put` wrote. */
  lemma GettersReadPuts(c: Compound, key: string, s: string, d: real, v: bool, items: seq<Tag>, typeId: int)
    requires forall i :: 0 <= i < |items| ==> TypeId(items[i]) == typeId
    ensures GetString(c[key := TString(s)], key) == s
    ensures GetDouble(c[key := TDouble(d)], key) == d
    ensures GetInt(c[key := TInt(typeId)], key) == typeId
    ensures GetFloat(c[key := TFloat(d)], key) == d
    ensures GetBoolean(c[key := BoolTag(v)], key) == v
    ensures GetList(c[key := TList(items)], key, typeId) == items
  {
  }

  /** Writing one key leaves every getter on every other key unchanged. */
  lemma PutLeavesOtherKeys(c: Compound, key: string, t: Tag, other: string, typeId: int)
    requires other != key
    ensures GetString(c[key := t], other) == GetString(c, other)
    ensures GetDouble(c[key := t], other) == GetDouble(c, other)
    ensures GetInt(c[key := t], other) == GetInt(c, other)
    ensures GetBoolean(c[key := t], other) == GetBoolean(c, other)
    ensures GetList(c[key := t], other, typeId) == GetList(c, other, typeId)
    ensures Contains(c[key := t], other) == Contains(c, other)
  {
  }

  /** Reading a missing key gives the defaults. */
  lemma MissingKeyDefaults(c: Compound, key: string, typeId: int)
    requires !Contains(c, key)
    ensures GetString(c, key) == "" && GetDouble(c, key) == 0.0 && GetInt(c, key) == 0 && !GetBoolean(c, key)
    ensures GetList(c, key, typeId) == []
  {
  }
}

=== FILE: orbit_path.dfy ===
/**
 `OrbitPath`: the camera circles a centre at a fixed height, always looking
 at the centre.  The angle grows without bound (`ω t`, never clamped) and
 the duration passed to the constructor is ignored.
 */
module OrbitPath {
  import opened Angles
  import opened Geometry

  datatype Path = Path(center: Vec3, radius: real, angularVelocity: real, height: real, startAngle: real)

  /** The constructor: the speed is in radians per second, stored per tick; the start angle is 0. */
  function New(center: Vec3, radius: real, speed: real, height: real, duration: real): (p: Path)
    ensures p.center == center && p.radius == radius && p.height == height
    ensures p.angularVelocity * TicksPerSecond == speed
    ensures p.startAngle == 0.0
  {
    Path(center, radius, speed / TicksPerSecond, height, 0.0)
  }

  /** The orbit angle at time `t`, in radians. */
  function Angle(p: Path, t: real): real {
    p.startAngle + p.angularVelocity * t
  }

  /** `getPosition`: a point on the horizontal circle at the orbit's height. */
  function Position(m: MathFns, p: Path, t: real): (r: Vec3)
    ensures r.y == p.center.y + p.height
  {
    CirclePoint(m, p.center, p.radius, Angle(p, t), p.height)
  }

  /** `getRotation`: look at the centre from the current position. */
  function Rotation(m: MathFns, p: Path, t: real): (r: Vec3)
    ensures r.z == 0.0
  {
    LookAt(m, p.center, Position(m, p, t))
  }

  /** The duration argument has no effect on the path. */
  lemma DurationIgnored(center: Vec3, radius: real, speed: real, height: real, d1: real, d2: real)
    ensures New(center, radius, speed, height, d1) == New(center, radius, speed, height, d2)
  {
  }

  /** The angle is not clamped: after `t` ticks it is `speed · t / 20`, however large `t` is. */
  lemma AngleUnclamped(center: Vec3, radius: real, speed: real, height: real, duration: real, t: real)
    ensures Angle(New(center, radius, speed, height, duration), t) * TicksPerSecond == speed * t
  {
    var p := New(center, radius, speed, height, duration);
    assert p.angularVelocity * t * TicksPerSecond == (p.angularVelocity * TicksPerSecond) * t;
  }

  /** With `cos 0 = 1` and `sin 0 = 0` the orbit starts `radius` east of the centre. */
  lemma StartsEastOfCenter(m: MathFns, center: Vec3, radius: real, speed: real, height: real, duration: real)
    requires m.cos(0.0) == 1.0 && m.sin(0.0) == 0.0
    ensures Position(m, New(center, radius, speed, height, duration), 0.0)
         == Vec3(center.x + radius, center.y + height, center.z)
  {
    assert Angle(New(center, radius, speed, height, duration), 0.0) == 0.0;
  }

  /**
   Wherever the camera is on the orbit, its horizontal distance from the
   centre is the radius, provided `cos² + sin² = 1` at that angle.
   */
  lemma StaysOnCircle(m: MathFns, p: Path, t: real)
    requires var a := Angle(p, t); m.cos(a) * m.cos(a) + m.sin(a) * m.sin(a) == 1.0
    ensures var d := Sub(p.center, Position(m, p, t)); d.x * d.x + d.z * d.z == p.radius * p.radius
  {
    CirclePointOnCircle(m, p.center, p.radius, Angle(p, t), p.height);
  }

  /**
   The camera keeps the same pitch all the way round: the vertical offset
   to the centre and the horizontal distance never change.
   */
  lemma PitchConstant(m: MathFns, p: Path, t1: real, t2: real)
    requires var a := Angle(p, t1); m.cos(a) * m.cos(a) + m.sin(a) * m.sin(a) == 1.0
    requires var a := Angle(p, t2); m.cos(a) * m.cos(a) + m.sin(a) * m.sin(a) == 1.0
    ensures Rotation(m, p, t1).x == Rotation(m, p, t2).x
  {
    StaysOnCircle(m, p, t1);
    StaysOnCircle(m, p, t2);
    var d1, d2 := Sub(p.center, Position(m, p, t1)), Sub(p.center, Position(m, p, t2));
    var h1, h2 := d1.x * d1.x + d1.z * d1.z, d2.x * d2.x + d2.z * d2.z;
    assert h1 == h2 && d1.y == d2.y;
    assert m.sqrt(h1) == m.sqrt(h2);
  }

  /**
   The rotation only depends on the offset from the camera to the centre:
   two orbits whose current offsets agree face the same way.
   */
  lemma RotationDependsOnOffset(m: MathFns, p: Path, q: Path, t: real, s: real)
    requires Sub(p.center, Position(m, p, t)) == Sub(q.center, Position(m, q, s))
    ensures Rotation(m, p, t) == Rotation(m, q, s)
  {
  }
}

=== FILE: smooth_linear_path.dfy ===
/**
 `SmoothLinearPath`: a straight-line position with a rotation that takes the
 shortest arc.  Both use the plain linear progress `min(t / D, 1)`; no
 smoothstep easing is applied.
 */
module SmoothLinearPath {
  import opened Angles
  import opened Geometry

  datatype Path = Path(
    start: Vec3,
    end: Vec3,
    startRotation: Vec3,
    endRotation: Vec3,
    durationTicks: real)

  /** The constructor: the duration is given in seconds and stored in ticks. */
  function New(start: Vec3, end: Vec3, startRotation: Vec3, endRotation: Vec3, duration: real): (p: Path)
    ensures p.start == start && p.end == end
    ensures p.startRotation == startRotation && p.endRotation == endRotation
    ensures p.durationTicks / TicksPerSecond == duration
  {
    Path(start, end, startRotation, endRotation, Ticks(duration))
  }

  predicate Valid(p: Path) {
    p.durationTicks > 0.0
  }

  /** `getPosition`: lerp at progress `min(t / D, 1)`. */
  function Position(p: Path, t: real): (r: Vec3)
    requires Valid(p)
    ensures t == 0.0 ==> r == p.start
    ensures t >= p.durationTicks ==> r == p.end
    ensures 0.0 <= t ==> BetweenVec(p.start, p.end, r)
  {
    LerpVec(p.start, p.end, Progress(t, p.durationTicks))
  }

  /** `getRotation`: shortest-arc interpolation of pitch and yaw, normalised, roll 0. */
  function Rotation(p: Path, t: real): (r: Vec3)
    requires Valid(p)
    ensures Normalized(r) && r.z == 0.0
    ensures t == 0.0 ==> r.x == NormalizeAngle(p.startRotation.x) && r.y == NormalizeAngle(p.startRotation.y)
    ensures t >= p.durationTicks ==> r.x == NormalizeAngle(p.endRotation.x) && r.y == NormalizeAngle(p.endRotation.y)
  {
    ArcRotation(p.startRotation, p.endRotation, Progress(t, p.durationTicks))
  }

  /**
   The rotation progresses linearly in time: at any moment before the end
   it is the shortest-arc interpolation at exactly `t / D`.
   */
  lemma RotationIsLinearInTime(p: Path, t: real)
    requires Valid(p)
    requires t < p.durationTicks
    ensures Rotation(p, t) == ArcRotation(p.startRotation, p.endRotation, t / p.durationTicks)
  {
  }
}

=== FILE: spiral_path.dfy ===
/**
 `SpiralPath`: the camera circles a centre while climbing, looking at the
 centre.  Angle and climb both use the clamped progress, so the spiral
 stops at its end.  The constructor converts the speed with
 `speed · π / 180 · 20` (degrees per second read as an angle per tick
 multiplied by 20), and computes start and end rotations that the path
 never reads.
 */
module SpiralPath {
  import opened Angles
  import opened Geometry

  datatype Path = Path(
    center: Vec3,
    radius: real,
    angularSpeed: real,
    verticalSpeed: real,
    startRotation: Vec3,
    endRotation: Vec3,
    durationTicks: real)

  /** The angle turned after progress `u`: `angularSpeed · u · D`. */
  function Turned(angularSpeed: real, u: real, durationTicks: real): (a: real)
    ensures u == 0.0 ==> a == 0.0
  {
    angularSpeed * u * durationTicks
  }

  /** `calculatePosition` / `getPosition` from the stored speeds, at clamped progress. */
  function PositionAt(m: MathFns, center: Vec3, radius: real, angularSpeed: real, verticalSpeed: real,
                      durationTicks: real, t: real): (r: Vec3)
    requires durationTicks > 0.0
    ensures t == 0.0 ==> r == CirclePoint(m, center, radius, 0.0, 0.0)
    ensures t >= durationTicks ==> r.y == center.y + verticalSpeed * durationTicks
  {
    var u := Progress(t, durationTicks);
    CirclePoint(m, center, radius, Turned(angularSpeed, u, durationTicks), verticalSpeed * u * durationTicks)
  }

  /**
   The constructor.  The duration must be positive: it divides the height
   to give the climb per tick.
   */
  function New(m: MathFns, center: Vec3, radius: real, speed: real, height: real, duration: real): (p: Path)
    requires duration > 0.0
    ensures p.center == center && p.radius == radius
    ensures p.durationTicks / TicksPerSecond == duration
    ensures p.angularSpeed == ToRadians(speed) * 20.0
    ensures p.verticalSpeed * p.durationTicks == height
    ensures p.startRotation == LookAt(m, center, Add(center, Vec3(radius, 0.0, 0.0)))
  {
    var ticks := Ticks(duration);
    var angular := speed * Pi / 180.0 * 20.0;
    var vertical := height / (duration * 20.0);
    var endPos := PositionAt(m, center, radius, angular, vertical, ticks, ticks);
    Path(center, radius, angular, vertical,
      LookAt(m, center, Add(center, Vec3(radius, 0.0, 0.0))),
      LookAt(m, center, endPos),
      ticks)
  }

  predicate Valid(p: Path) {
    p.durationTicks > 0.0
  }

  /** `getPosition` */
  function Position(m: MathFns, p: Path, t: real): (r: Vec3)
    requires Valid(p)
    ensures t == 0.0 ==> r.y == p.center.y
    ensures t >= p.durationTicks ==> r.y == p.center.y + p.verticalSpeed * p.durationTicks
    ensures t == 0.0 && m.cos(0.0) == 1.0 && m.sin(0.0) == 0.0 ==> r == Add(p.center, Vec3(p.radius, 0.0, 0.0))
  {
    PositionAt(m, p.center, p.radius, p.angularSpeed, p.verticalSpeed, p.durationTicks, t)
  }

  /** `calculatePosition`, a duplicate of `getPosition` in the source. */
  function CalculatePosition(m: MathFns, p: Path, t: real): (r: Vec3)
    requires Valid(p)
    ensures r == Position(m, p, t)
  {
    var u := Progress(t, p.durationTicks);
    CirclePoint(m, p.center, p.radius, Turned(p.angularSpeed, u, p.durationTicks), p.verticalSpeed * u * p.durationTicks)
  }

  /** `getRotation`: look at the centre from the current position. */
  function Rotation(m: MathFns, p: Path, t: real): (r: Vec3)
    requires Valid(p)
    ensures r.z == 0.0
  {
    LookAt(m, p.center, Position(m, p, t))
  }

  /** The climb is proportional to progress: the camera rises by `height · min(t / D, 1)`. */
  lemma {:induction false} ClimbsToHeight(m: MathFns, center: Vec3, radius: real, speed: real, height: real,
                                          duration: real, t: real)
    requires duration > 0.0
    ensures var p := New(m, center, radius, speed, height, duration);
            Position(m, p, t).y == center.y + height * Progress(t, p.durationTicks)
  {
    var p := New(m, center, radius, speed, height, duration);
    var u := Progress(t, p.durationTicks);
    assert p.verticalSpeed * u * p.durationTicks == (p.verticalSpeed * p.durationTicks) * u;
  }

  /** After the duration the spiral rests at its end point. */
  lemma Settles(m: MathFns, p: Path, t: real)
    requires Valid(p)
    requires t >= p.durationTicks
    ensures Position(m, p, t) == Position(m, p, p.durationTicks)
  {
    var d := p.durationTicks;
    assert Progress(t, d) == Progress(d, d);
  }

  /** The stored rotations are the rotations at the two ends of the spiral (given `cos 0 = 1`, `sin 0 = 0`). */
  lemma StoredRotationsMatchEnds(m: MathFns, center: Vec3, radius: real, speed: real, height: real, duration: real)
    requires duration > 0.0
    requires m.cos(0.0) == 1.0 && m.sin(0.0) == 0.0
    ensures var p := New(m, center, radius, speed, height, duration);
            p.startRotation == Rotation(m, p, 0.0) && p.endRotation == Rotation(m, p, p.durationTicks)
  {
  }

  /**
   The rotation only depends on the offset from the camera to the centre:
   two spirals whose current offsets agree face the same way.
   */
  lemma RotationDependsOnOffset(m: MathFns, p: Path, q: Path, t: real, s: real)
    requires Valid(p) && Valid(q)
    requires Sub(p.center, Position(m, p, t)) == Sub(q.center, Position(m, q, s))
    ensures Rotation(m, p, t) == Rotation(m, q, s)
  {
  }
}

=== FILE: stationary_pan_path.dfy ===
/**
 `StationaryPanPath`: the camera stays put and turns from the start to the
 end rotation along the shortest arc, eased in and out.
 */
module StationaryPanPath {
  import opened Angles
  import opened Geometry

  datatype Path = Path(fixed: Vec3, startRotation: Vec3, endRotation: Vec3, durationTicks: real)

  /** The constructor: the duration is given in seconds and stored in ticks. */
  function New(fixed: Vec3, startRotation: Vec3, endRotation: Vec3, duration: real): (p: Path)
    ensures p.fixed == fixed
    ensures p.startRotation == startRotation && p.endRotation == endRotation
    ensures p.durationTicks / TicksPerSecond == duration
  {
    Path(fixed, startRotation, endRotation, Ticks(duration))
  }

  predicate Valid(p: Path) {
    p.durationTicks > 0.0
  }

  /** `getPosition`: the camera never moves. */
  function Position(p: Path, t: real): (r: Vec3)
    ensures r == p.fixed
  {
    p.fixed
  }

  /** `getRotation`: shortest-arc interpolation at the eased progress, normalised, roll 0. */
  function Rotation(p: Path, t: real): (r: Vec3)
    requires Valid(p)
    ensures Normalized(r) && r.z == 0.0
    ensures t == 0.0 ==> r.x == NormalizeAngle(p.startRotation.x) && r.y == NormalizeAngle(p.startRotation.y)
    ensures t >= p.durationTicks ==> r.x == NormalizeAngle(p.endRotation.x) && r.y == NormalizeAngle(p.endRotation.y)
  {
    ArcRotation(p.startRotation, p.endRotation, EaseInOutQuad(Progress(t, p.durationTicks)))
  }

  /** Half way through the duration the pan is half way along the arc. */
  lemma HalfTimeHalfArc(p: Path)
    requires Valid(p)
    ensures Rotation(p, p.durationTicks / 2.0) == ArcRotation(p.startRotation, p.endRotation, 0.5)
  {
    var d := p.durationTicks;
    assert (d / 2.0) / d == 0.5 by {
      assert 0.5 * d == d / 2.0;
    }
  }

  /** The pan starts slowly: in the first half it has covered less than half of the arc's parameter. */
  lemma EasedProgressLagsInFirstHalf(p: Path, t: real)
    requires Valid(p)
    requires 0.0 <= t < p.durationTicks / 2.0
    ensures 0.0 <= EaseInOutQuad(Progress(t, p.durationTicks)) < 0.5
  {
    var d := p.durationTicks;
    var u := t / d;
    assert u * d == t;
    if u >= 0.5 {
      MulNonNegative(u - 0.5, d);
      assert false;
    }
  }
}

=== FILE: time_pattern.dfy ===
/**
 Time-of-day patterns of TIME_OF_DAY bindings: "A-B" is an inclusive range
 of day ticks, wrapping past midnight when A > B; a single number "N"
 matches within 250 ticks of N.  A pattern that does not split into two
 parts, or a part that is not a number, matches nothing.

 The helpers follow the Java library calls involved: `String.split("-")`
 (which drops trailing empty strings), `String.trim` and `Long.parseLong`
 (ASCII digits only, see README).
 */
module TimePattern {
  import opened Common

  const MinLong: int := -0x8000_0000_0000_0000
  const MaxLong: int := 0x7fff_ffff_ffff_ffff
  const LongModulus: int := 0x1_0000_0000_0000_0000

  /** Java `long` arithmetic: the 64-bit two's-complement value congruent to `x`. */
  function WrapLong(x: int): (r: int)
    ensures MinLong <= r <= MaxLong
    ensures (x - r) % LongModulus == 0
    ensures MinLong <= x <= MaxLong ==> r == x
  {
    (x - MinLong) % LongModulus + MinLong
  }

  /** `Math.abs(long)`: the negation of `Long.MIN_VALUE` overflows back to itself. */
  function AbsLong(x: int): (r: int)
    requires MinLong <= x <= MaxLong
    ensures x != MinLong ==> 0 <= r && (r == x || r == -x)
    ensures x == MinLong ==> r < 0
  {
    if x == MinLong then MinLong else if x < 0 then -x else x
  }

  // ---------------------------------------------------------------- String.split

  /** Every piece between separators, empty ones included. */
  function SplitAll(s: string, sep: char): (r: seq<string>)
    ensures |r| > 0
    ensures forall i :: 0 <= i < |r| ==> sep !in r[i]
    decreases |s|
  {
    var i := FirstIndex(s, sep);
    if i == |s| then [s]
    else [s[..i]] + SplitAll(s[i + 1..], sep)
  }

  /** Drops the empty strings at the end, as `split` with no limit does. */
  function DropTrailingEmpty(parts: seq<string>): (r: seq<string>)
    ensures |r| <= |parts| && r == parts[..|r|]
    ensures |r| > 0 ==> r[|r| - 1] != ""
    ensures forall i :: |r| <= i < |parts| ==> parts[i] == ""
  {
    if |parts| == 0 then []
    else if parts[|parts| - 1] == "" then DropTrailingEmpty(parts[..|parts| - 1])
    else parts
  }

  /** `String.split` on a one-character, non-special separator. */
  function Split(s: string, sep: char): seq<string> {
    DropTrailingEmpty(SplitAll(s, sep))
  }

  /** Joining two separator-free strings around one separator splits back into them. */
  lemma SplitTwo(a: string, b: string, sep: char)
    requires sep !in a && sep !in b && b != ""
    ensures Split(a + [sep] + b, sep) == [a, b]
  {
    var s := a + [sep] + b;
    var i := FirstIndex(s, sep);
    assert s[|a|] == sep;
    assert i == |a| by {
      assert forall j :: 0 <= j < |a| ==> s[j] == a[j];
    }
    assert s[..i] == a;
    assert s[i + 1..] == b;
    assert SplitAll(b, sep) == [b];
  }

  // ---------------------------------------------------------------- trim and parseLong

  /** `String.trim` strips characters up to U+0020 at both ends. */
  predicate Blank(c: char) {
    c <= ' '
  }

  function TrimStart(s: string): (r: string)
    ensures |r| <= |s| && r == s[|s| - |r|..]
    ensures |r| > 0 ==> !Blank(r[0])
  {
    if |s| > 0 && Blank(s[0]) then TrimStart(s[1..]) else s
  }

  function TrimEnd(s: string): (r: string)
    ensures |r| <= |s| && r == s[..|r|]
    ensures |r| > 0 ==> !Blank(r[|r| - 1])
  {
    if |s| > 0 && Blank(s[|s| - 1]) then TrimEnd(s[..|s| - 1]) else s
  }

  function Trim(s: string): string {
    TrimEnd(TrimStart(s))
  }

  /** A string with no blank character at either end is its own trim. */
  lemma TrimNoBlank(s: string)
    requires |s| > 0 ==> !Blank(s[0]) && !Blank(s[|s| - 1])
    ensures Trim(s) == s
  {
  }

  predicate IsDigit(c: char) {
    '0' <= c <= '9'
  }

  predicate AllDigits(s: string) {
    forall i :: 0 <= i < |s| ==> IsDigit(s[i])
  }

  /** The value of a string of decimal digits. */
  function DecimalValue(s: string): (v: nat)
    requires AllDigits(s)
  {
    if |s| == 0 then 0 else 10 * DecimalValue(s[..|s| - 1]) + (s[|s| - 1] as int - '0' as int)
  }

  /** The digits after an optional leading sign. */
  function Unsigned(s: string): string {
    if |s| > 0 && (s[0] == '-' || s[0] == '+') then s[1..] else s
  }

  /** An optional `-` or `+`, then at least one ASCII digit. */
  predicate SignedNumeral(s: string) {
    |Unsigned(s)| > 0 && AllDigits(Unsigned(s))
  }

  /** The value a signed numeral denotes. */
  function SignedValue(s: string): int
    requires SignedNumeral(s)
  {
    if s[0] == '-' then -(DecimalValue(Unsigned(s)) as int) else DecimalValue(Unsigned(s))
  }

  /** `Long.parseLong`: an optional sign, then at least one digit, within the range of a long. */
  function ParseLong(s: string): (r: Option<int>)
    ensures r.Some? <==> SignedNumeral(s) && MinLong <= SignedValue(s) <= MaxLong
    ensures r.Some? ==> r.value == SignedValue(s) && MinLong <= r.value <= MaxLong
    ensures AllDigits(s) && |s| > 0 && DecimalValue(s) <= MaxLong ==> r == Some(DecimalValue(s))
    ensures AllDigits(s) && |s| > 0 && DecimalValue(s) > MaxLong ==> r.None?
    ensures |s| > 1 && s[0] == '+' && AllDigits(s[1..]) && DecimalValue(s[1..]) <= MaxLong ==> r == Some(DecimalValue(s[1..]))
    ensures |s| == 0 ==> r.None?
  {
    if |s| == 0 then None
    else
      var negative := s[0] == '-';
      var digits := if s[0] == '-' || s[0] == '+' then s[1..] else s;
      if |digits| == 0 || !AllDigits(digits) then None
      else
        var v: int := if negative then 0 - (DecimalValue(digits) as int) else DecimalValue(digits) as int;
        if MinLong <= v <= MaxLong then Some(v) else None
  }

  // ---------------------------------------------------------------- isTimeMatch

  /** An inclusive range of ticks, wrapping past midnight when it runs backwards. */
  predicate InRange(start: int, end: int, t: int) {
    if start <= end then start <= t <= end else t >= start || t <= end
  }

  /**
   `Math.abs(currentTime - targetTime) <= 250` on longs: the difference
   wraps, and an absolute value of `Long.MIN_VALUE` stays negative.
   */
  predicate NearLong(t: int, target: int) {
    AbsLong(WrapLong(t - target)) <= 250
  }

  /** `isTimeMatch(pattern, currentTime)` */
  function IsTimeMatch(pattern: string, t: int): (b: bool)
    ensures '-' !in pattern ==> (b <==> ParseLong(Trim(pattern)).Some? && NearLong(t, ParseLong(Trim(pattern)).value))
    ensures '-' in pattern && |Split(pattern, '-')| != 2 ==> !b
  {
    if '-' in pattern then
      var parts := Split(pattern, '-');
      if |parts| == 2 then
        match (ParseLong(Trim(parts[0])), ParseLong(Trim(parts[1])))
        case (Some(start), Some(end)) => InRange(start, end, t)
        case _ => false
      else false
    else
      match ParseLong(Trim(pattern))
      case Some(target) => NearLong(t, target)
      case None => false
  }

  /** "A-B" for two numerals is exactly the (possibly wrapping) inclusive range. */
  lemma RangePattern(a: string, b: string, t: int)
    requires |a| > 0 && |b| > 0 && AllDigits(a) && AllDigits(b)
    requires DecimalValue(a) <= MaxLong && DecimalValue(b) <= MaxLong
    ensures IsTimeMatch(a + "-" + b, t) <==> InRange(DecimalValue(a), DecimalValue(b), t)
  {
    var s := a + "-" + b;
    NumeralHasNoDash(a);
    NumeralHasNoDash(b);
    SplitTwo(a, b, '-');
    assert s == a + ['-'] + b;
    assert s[|a|] == '-';
    var parts := Split(s, '-');
    assert parts == [a, b];
    TrimNoBlank(a);
    TrimNoBlank(b);
    assert ParseLong(Trim(parts[0])) == Some(DecimalValue(a));
    assert ParseLong(Trim(parts[1])) == Some(DecimalValue(b));
  }

  lemma NumeralHasNoDash(a: string)
    requires AllDigits(a)
    ensures '-' !in a
    ensures |a| > 0 ==> !Blank(a[0]) && !Blank(a[|a| - 1])
  {
    assert forall i :: 0 <= i < |a| ==> a[i] != '-';
  }

  /**
   The long comparison, spelled out for a time `t` and a non-negative target
   `v`: within 250 ticks, or a difference of exactly `Long.MIN_VALUE`, or a
   difference that wraps round to at most 250.
   */
  lemma NearLongCases(t: int, v: int)
    requires MinLong <= t <= MaxLong && 0 <= v <= MaxLong
    ensures NearLong(t, v) <==> v - 250 <= t <= v + 250 || t - v == MinLong || t - v <= 250 - LongModulus
  {
    var x := t - v;
    if x < MinLong {
      assert WrapLong(x) == x + LongModulus by {
        assert (x - MinLong) % LongModulus == x - MinLong + LongModulus;
      }
    }
  }

  /** "N" for a numeral: the long comparison above, against N. */
  lemma SinglePattern(a: string, t: int)
    requires |a| > 0 && AllDigits(a) && DecimalValue(a) <= MaxLong
    requires MinLong <= t <= MaxLong
    ensures IsTimeMatch(a, t) <==>
            DecimalValue(a) - 250 <= t <= DecimalValue(a) + 250 ||
            t - DecimalValue(a) == MinLong || t - DecimalValue(a) <= 250 - LongModulus
  {
    NumeralHasNoDash(a);
    TrimNoBlank(a);
    NearLongCases(t, DecimalValue(a));
  }

  /**
   For the times of day a detector samples (|t| < 24000), "N" matches the
   ticks within 250 of N, and in addition `t = N + Long.MIN_VALUE`.
   */
  lemma DayTimeSinglePattern(a: string, t: int)
    requires |a| > 0 && AllDigits(a) && DecimalValue(a) <= MaxLong
    requires -24000 < t < 24000
    ensures IsTimeMatch(a, t) <==> DecimalValue(a) - 250 <= t <= DecimalValue(a) + 250 || t - DecimalValue(a) == MinLong
  {
    SinglePattern(a, t);
  }

  /**
   The largest long as a target matches time -1: the difference is exactly
   `Long.MIN_VALUE`, whose absolute value is negative.
   */
  lemma MaxTargetMatchesMinusOne(a: string)
    requires |a| > 0 && AllDigits(a) && DecimalValue(a) == MaxLong
    ensures IsTimeMatch(a, -1)
    ensures !(DecimalValue(a) - 250 <= -1 <= DecimalValue(a) + 250)
  {
    SinglePattern(a, -1);
  }

  /** Java's `isTimeMatch("9223372036854775807", -1)` is true. */
  lemma FarTargetMatchesMinusOne()
    ensures IsTimeMatch("9223372036854775807", -1)
  {
    MaxLongNumeral();
    MaxTargetMatchesMinusOne("9223372036854775807");
  }

  /** Appending a digit multiplies the value by ten and adds the digit. */
  lemma DecimalSnoc(s: string, c: char, t: string)
    requires AllDigits(s) && IsDigit(c) && t == s + [c]
    ensures AllDigits(t)
    ensures DecimalValue(t) == 10 * DecimalValue(s) + (c as int - '0' as int)
  {
    assert t[..|s|] == s;
  }

  /** The first 5 digits of the largest long. */
  lemma Numeral5()
    ensures AllDigits("92233") && DecimalValue("92233") == 92233
  {
    DecimalSnoc("9", '2', "92");
    DecimalSnoc("92", '2', "922");
    DecimalSnoc("922", '3', "9223");
    DecimalSnoc("9223", '3', "92233");
  }

  /** The first 10 digits of the largest long. */
  lemma Numeral10()
    ensures AllDigits("9223372036") && DecimalValue("9223372036") == 9223372036
  {
    Numeral5();
    DecimalSnoc("92233", '7', "922337");
    DecimalSnoc("922337", '2', "9223372");
    DecimalSnoc("9223372", '0', "92233720");
    DecimalSnoc("92233720", '3', "922337203");
    DecimalSnoc("922337203", '6', "9223372036");
  }

  /** The first 15 digits of the largest long. */
  lemma Numeral15()
    ensures AllDigits("922337203685477") && DecimalValue("922337203685477") == 922337203685477
  {
    Numeral10();
    DecimalSnoc("9223372036", '8', "92233720368");
    DecimalSnoc("92233720368", '5', "922337203685");
    DecimalSnoc("922337203685", '4', "9223372036854");
    DecimalSnoc("9223372036854", '7', "92233720368547");
    DecimalSnoc("92233720368547", '7', "922337203685477");
  }

  /** The largest long written out in decimal. */
  lemma MaxLongNumeral()
    ensures AllDigits("9223372036854775807") && DecimalValue("9223372036854775807") == MaxLong
  {
    Numeral15();
    DecimalSnoc("922337203685477", '5', "9223372036854775");
    DecimalSnoc("9223372036854775", '8', "92233720368547758");
    DecimalSnoc("92233720368547758", '0', "922337203685477580");
    DecimalSnoc("922337203685477580", '7', "9223372036854775807");
  }

  /** A single pattern whose trimmed text is not a signed numeral matches nothing. */
  lemma NonNumeralMatchesNothing(pattern: string, t: int)
    requires '-' !in pattern && !SignedNumeral(Trim(pattern))
    ensures !IsTimeMatch(pattern, t)
  {
  }

  /** A two-part range with an end that is not a signed numeral matches nothing. */
  lemma NonNumeralRangeMatchesNothing(pattern: string, t: int)
    requires '-' in pattern && |Split(pattern, '-')| == 2
    requires !SignedNumeral(Trim(Split(pattern, '-')[0])) || !SignedNumeral(Trim(Split(pattern, '-')[1]))
    ensures !IsTimeMatch(pattern, t)
  {
  }

  /** A word is not a time: "noon" matches no time at all. */
  lemma NoonMatchesNothing(t: int)
    ensures !IsTimeMatch("noon", t)
  {
    assert !IsDigit(Trim("noon")[0]);
    NonNumeralMatchesNothing("noon", t);
  }

  /** A dangling separator leaves one part after `split`, so the pattern matches nothing. */
  lemma TrailingDashMatchesNothing(a: string, t: int)
    requires |a| > 0 && '-' !in a
    ensures !IsTimeMatch(a + "-", t)
  {
    var s := a + "-";
    assert s[|a|] == '-';
    var i := FirstIndex(s, '-');
    assert i == |a| by {
      assert forall j :: 0 <= j < |a| ==> s[j] == a[j];
    }
    assert s[..i] == a && s[i + 1..] == "";
    assert SplitAll(s, '-') == [a, ""];
    assert DropTrailingEmpty([a, ""]) == [a] by {
      assert [a, ""][..1] == [a];
    }
  }
}

=== FILE: timeline_processor.dfy ===
/**
 The script execution engine.  Each player has at most one execution
 context: which shot rule and which route of it are running, the game
 tick at which each started (-1 while unset), and whether execution is
 active or complete.  An update reads the game time `now` and returns the
 new context together with the calls it makes on the cinematic manager,
 as a list of effects.
 */
module TimelineProcessor {
  import opened Common
  import opened Angles
  import opened Geometry
  import opened CameraScript
  import MP = MovementPath

  /** A start time that has not been set. */
  const Unset: int := -1

  /** The cinematic manager calls the engine makes. */
  datatype Effect =
    | ExecutePath(path: MP.Construction, duration: real)
    | StopMovement
    | StopCinematic

  /** `ScriptExecutionContext` */
  datatype Context = Context(
    script: Script,
    ruleIndex: nat,
    routeIndex: nat,
    ruleStart: int,
    routeStart: int,
    active: bool,
    complete: bool)

  /** A context after one update, with the effects the update emitted. */
  datatype Outcome = Outcome(ctx: Context, effects: seq<Effect>)

  /** What every reachable context satisfies: the rule index stays within the rules, and a complete context is inactive. */
  predicate Consistent(c: Context) {
    c.ruleIndex <= |c.script.shotRules| && (c.complete ==> !c.active)
  }

  /** A fresh context on `startExecution`: first rule and route, rule started now, active. */
  function Started(script: Script, now: int): (c: Context)
    ensures c.ruleIndex == 0 && c.routeIndex == 0 && c.ruleStart == now && c.routeStart == Unset
    ensures c.active && !c.complete && c.script == script
    ensures Consistent(c)
  {
    Context(script, 0, 0, now, Unset, true, false)
  }

  /** `getCurrentShotRule`: the rule at the rule index, or null past the end. */
  function CurrentRule(c: Context): (r: Option<ShotRule>)
    ensures r.Some? <==> c.ruleIndex < |c.script.shotRules|
  {
    if c.ruleIndex < |c.script.shotRules| then Some(c.script.shotRules[c.ruleIndex]) else None
  }

  /** `getCurrentRoute`: the route at the route index of the current rule, or null. */
  function CurrentRoute(c: Context): (r: Option<MovementRoute>)
    ensures r.Some? <==> CurrentRule(c).Some? && c.routeIndex < |CurrentRule(c).value.routes|
  {
    match CurrentRule(c)
    case None => None
    case Some(rule) => if c.routeIndex < |rule.routes| then Some(rule.routes[c.routeIndex]) else None
  }

  // ---------------------------------------------------------------- building a path

  /** A stored rotation: pitch and yaw in degrees, turned into radians with roll 0. */
  function StoredRotation(pitch: real, yaw: real): Vec3 {
    Vec3(ToRadians(pitch), ToRadians(yaw), 0.0)
  }

  /** The fields `createMovementPath` needs for each path type, given the resolved start. */
  predicate HasRequiredFields(route: MovementRoute, start: Option<Vec3>) {
    match route.pathType
    case Direct => start.Some? && route.endPosition.Some?
    case Smooth => start.Some? && route.endPosition.Some?
    case Orbit => route.targetPoint.Some?
    case Bezier => start.Some? && route.endPosition.Some? && route.controlPosition.Some?
    case Spiral => route.targetPoint.Some?
    case DollyZoom => start.Some? && route.targetPoint.Some?
    case StationaryPan => start.Some?
  }

  /**
   `createMovementPath`: the constructor call for the route's path type,
   or null when a field it needs is missing.  A missing start position
   falls back to the player's position, when there is a player.
   */
  function CreateMovementPath(m: MathFns, route: MovementRoute, playerPos: Option<Vec3>): (r: Option<MP.Construction>)
    ensures var start := if route.startPosition.Some? then route.startPosition else playerPos;
            r.Some? <==> HasRequiredFields(route, start)
    ensures r.Some? ==> r.value.duration == route.duration
  {
    var start := if route.startPosition.Some? then route.startPosition else playerPos;
    var startRotation := StoredRotation(route.startPitch, route.startYaw);
    var endRotation := StoredRotation(route.endPitch, route.endYaw);
    var d := route.duration;
    match route.pathType
    case Direct =>
      if start.Some? && route.endPosition.Some? then
        Some(MP.NewDirect(start.value, route.endPosition.value, d))
      else None
    case Smooth =>
      if start.Some? && route.endPosition.Some? then
        Some(MP.NewSmooth(start.value, route.endPosition.value, startRotation, endRotation, d))
      else None
    case Orbit =>
      if route.targetPoint.Some? then
        Some(MP.NewOrbit(route.targetPoint.value, route.radius, route.speed, route.height, d, ToRadians(route.heading)))
      else None
    case Bezier =>
      if start.Some? && route.endPosition.Some? && route.controlPosition.Some? then
        Some(MP.NewBezier(start.value, route.controlPosition.value, route.endPosition.value, startRotation, endRotation, d))
      else None
    case Spiral =>
      if route.targetPoint.Some? then
        Some(MP.NewSpiral(route.targetPoint.value, route.radius, route.speed, route.height, d))
      else None
    case DollyZoom =>
      if start.Some? && route.targetPoint.Some? then
        var target := route.targetPoint.value;
        if route.endPosition.Some? then
          var end := route.endPosition.value;
          Some(MP.NewDollyZoom(start.value, end, target, startRotation, LookAt(m, target, end), d))
        else
          Some(MP.NewSimpleDollyZoom(start.value, target, d, route.forward))
      else None
    case StationaryPan =>
      if start.Some? then
        Some(MP.NewStationaryPan(start.value, startRotation, endRotation, d))
      else None
  }

  /** The constructor called matches the path type, and the route's start wins over the player's position. */
  lemma CreateMovementPathKinds(m: MathFns, route: MovementRoute, playerPos: Option<Vec3>)
    requires CreateMovementPath(m, route, playerPos).Some?
    ensures var c := CreateMovementPath(m, route, playerPos).value;
            (route.pathType == Direct <==> c.NewDirect?) && (route.pathType == Smooth <==> c.NewSmooth?)
            && (route.pathType == Orbit <==> c.NewOrbit?) && (route.pathType == Bezier <==> c.NewBezier?)
            && (route.pathType == Spiral <==> c.NewSpiral?) && (route.pathType == StationaryPan <==> c.NewStationaryPan?)
            && (route.pathType == DollyZoom <==> c.NewDollyZoom? || c.NewSimpleDollyZoom?)
    ensures var c := CreateMovementPath(m, route, playerPos).value;
            route.startPosition.Some? && (c.NewDirect? || c.NewSmooth? || c.NewBezier? || c.NewStationaryPan?)
            ==> c.start == route.startPosition.value
  {
  }

  /**
   `startMovementRoute`: executes the path when one can be built, and does
   nothing otherwise.  Its `setFOVRange` call is the interface's default,
   which leaves a path as it is (`MovementPath.SettersAreUnobservable`).
   */
  function StartRouteEffects(m: MathFns, route: MovementRoute, playerPos: Option<Vec3>): (e: seq<Effect>)
    ensures |e| <= 1
    ensures e == [] <==> CreateMovementPath(m, route, playerPos).None?
    ensures |e| == 1 ==> e[0] == ExecutePath(CreateMovementPath(m, route, playerPos).value, route.duration)
  {
    match CreateMovementPath(m, route, playerPos)
    case None => []
    case Some(path) => [ExecutePath(path, route.duration)]
  }

  // ---------------------------------------------------------------- one update

  /** The rule's delay has not yet passed since the rule started. */
  predicate Waiting(c: Context, rule: ShotRule, now: int) {
    c.ruleStart != Unset && ((now - c.ruleStart) as real) < rule.delay * 20.0
  }

  /** The running route has lasted its duration. */
  predicate RouteElapsed(routeStart: int, now: int, route: MovementRoute) {
    ((now - routeStart) as real) / 20.0 >= route.duration
  }

  /** After the last route of a rule: loop back to the first, or move on to the next rule. */
  function FinishRoute(c: Context, rule: ShotRule): (r: Context)
    ensures r.script == c.script && r.active == c.active && r.complete == c.complete
    ensures r.routeStart == Unset
    ensures c.routeIndex + 1 < |rule.routes| ==> r == c.(routeIndex := c.routeIndex + 1, routeStart := Unset)
    ensures c.routeIndex + 1 >= |rule.routes| && rule.looping
            ==> r == c.(routeIndex := 0, routeStart := Unset)
    ensures c.routeIndex + 1 >= |rule.routes| && !rule.looping
            ==> r == c.(ruleIndex := c.ruleIndex + 1, routeIndex := c.routeIndex + 1, routeStart := Unset, ruleStart := Unset)
  {
    var next := c.(routeIndex := c.routeIndex + 1, routeStart := Unset);
    if next.routeIndex >= |rule.routes| then
      if rule.looping then next.(routeIndex := 0)
      else next.(ruleIndex := next.ruleIndex + 1, routeStart := Unset, ruleStart := Unset)
    else next
  }

  /** The route step of an update, once the rule's delay is out of the way. */
  function RunRoutes(m: MathFns, c: Context, rule: ShotRule, now: int, playerPos: Option<Vec3>): (r: Outcome)
    ensures r.ctx.script == c.script && r.ctx.active == c.active && r.ctx.complete == c.complete
    ensures c.ruleIndex <= r.ctx.ruleIndex <= c.ruleIndex + 1
  {
    if c.routeIndex < |rule.routes| then
      var route := rule.routes[c.routeIndex];
      var started := if c.routeStart == Unset then c.(routeStart := now) else c;
      var effects := if c.routeStart == Unset then StartRouteEffects(m, route, playerPos) else [];
      if RouteElapsed(started.routeStart, now, route) then
        Outcome(FinishRoute(started, rule), effects)
      else
        Outcome(started, effects)
    else
      Outcome(c.(ruleIndex := c.ruleIndex + 1, routeIndex := 0, routeStart := Unset, ruleStart := Unset), [])
  }

  /** `ScriptExecutionContext.update` at game time `now`. */
  function Update(m: MathFns, c: Context, now: int, playerPos: Option<Vec3>): (r: Outcome)
    ensures !c.active ==> r == Outcome(c, [])
    ensures c.active && c.ruleIndex >= |c.script.shotRules|
            ==> r == Outcome(c.(complete := true, active := false), [StopCinematic])
    ensures r.ctx.script == c.script
    ensures c.ruleIndex <= r.ctx.ruleIndex
    ensures Consistent(c) ==> Consistent(r.ctx)
    ensures c.complete ==> r.ctx.complete
  {
    if !c.active then Outcome(c, [])
    else if c.ruleIndex >= |c.script.shotRules| then
      Outcome(c.(complete := true, active := false), [StopCinematic])
    else
      var rule := c.script.shotRules[c.ruleIndex];
      if Waiting(c, rule, now) then Outcome(c, [])
      else
        var c1 := if c.ruleStart == Unset then c.(ruleStart := now) else c;
        RunRoutes(m, c1, rule, now, playerPos)
  }

  // ---------------------------------------------------------------- properties of an update

  /** While the rule's delay has not passed, an update changes nothing and emits nothing. */
  lemma WaitsOutDelay(m: MathFns, c: Context, now: int, playerPos: Option<Vec3>)
    requires c.active && c.ruleIndex < |c.script.shotRules|
    requires Waiting(c, c.script.shotRules[c.ruleIndex], now)
    ensures Update(m, c, now, playerPos) == Outcome(c, [])
  {
  }

  /**
   The first update of a rule records its start and starts the first
   route in the same call: the rule's delay is never waited out before
   that route.
   */
  lemma DelayNotWaited(m: MathFns, c: Context, now: int, playerPos: Option<Vec3>)
    requires c.active && c.ruleIndex < |c.script.shotRules|
    requires c.ruleStart == Unset && c.routeStart == Unset
    requires c.routeIndex < |c.script.shotRules[c.ruleIndex].routes|
    ensures var route := c.script.shotRules[c.ruleIndex].routes[c.routeIndex];
            var r := Update(m, c, now, playerPos);
            r.effects == StartRouteEffects(m, route, playerPos)
            && (route.duration > 0.0 ==> r.ctx == c.(ruleStart := now, routeStart := now))
  {
  }

  /**
   A route whose path cannot be built emits nothing, yet its start time is
   recorded, so it still occupies its duration.
   */
  lemma UnbuildableRouteOccupiesItsDuration(m: MathFns, c: Context, now: int, playerPos: Option<Vec3>)
    requires c.active && c.ruleIndex < |c.script.shotRules|
    requires !Waiting(c, c.script.shotRules[c.ruleIndex], now)
    requires c.routeStart == Unset
    requires c.routeIndex < |c.script.shotRules[c.ruleIndex].routes|
    requires var route := c.script.shotRules[c.ruleIndex].routes[c.routeIndex];
             CreateMovementPath(m, route, playerPos).None? && route.duration > 0.0
    ensures var r := Update(m, c, now, playerPos);
            r.effects == [] && r.ctx.routeStart == now && r.ctx.routeIndex == c.routeIndex
            && r.ctx.ruleIndex == c.ruleIndex
  {
  }

  /** A running route ends on exactly the updates at which its duration has elapsed. */
  lemma RouteEndsWhenElapsed(m: MathFns, c: Context, now: int, playerPos: Option<Vec3>)
    requires c.active && c.ruleIndex < |c.script.shotRules|
    requires !Waiting(c, c.script.shotRules[c.ruleIndex], now)
    requires c.routeStart != Unset
    requires c.routeIndex < |c.script.shotRules[c.ruleIndex].routes|
    ensures var route := c.script.shotRules[c.ruleIndex].routes[c.routeIndex];
            var r := Update(m, c, now, playerPos);
            r.effects == [] && (r.ctx.routeStart == Unset <==> RouteElapsed(c.routeStart, now, route))
  {
  }

  /** A rule entered with its route index already past its routes is skipped without running anything. */
  lemma ExhaustedRuleIsSkipped(m: MathFns, c: Context, now: int, playerPos: Option<Vec3>)
    requires c.active && c.ruleIndex < |c.script.shotRules|
    requires !Waiting(c, c.script.shotRules[c.ruleIndex], now)
    requires c.routeIndex >= |c.script.shotRules[c.ruleIndex].routes|
    ensures Update(m, c, now, playerPos)
         == Outcome(c.(ruleIndex := c.ruleIndex + 1, routeIndex := 0, routeStart := Unset, ruleStart := Unset), [])
  {
  }

  /** Updates at the given times, one after another, collecting every effect. */
  function RunUpdates(m: MathFns, c: Context, times: seq<int>, playerPos: Option<Vec3>): (r: Outcome)
    decreases |times|
  {
    if |times| == 0 then Outcome(c, [])
    else
      var first := Update(m, c, times[0], playerPos);
      var rest := RunUpdates(m, first.ctx, times[1..], playerPos);
      Outcome(rest.ctx, first.effects + rest.effects)
  }

  /** A looping rule holding a valid route index never lets the rule index advance, however many updates run. */
  lemma {:induction false} LoopingRuleNeverAdvances(m: MathFns, c: Context, times: seq<int>, playerPos: Option<Vec3>)
    requires c.active && c.ruleIndex < |c.script.shotRules|
    requires c.script.shotRules[c.ruleIndex].looping
    requires c.routeIndex < |c.script.shotRules[c.ruleIndex].routes|
    ensures var r := RunUpdates(m, c, times, playerPos).ctx;
            r.ruleIndex == c.ruleIndex && r.active && r.routeIndex < |c.script.shotRules[c.ruleIndex].routes|
    decreases |times|
  {
    if |times| > 0 {
      var next := Update(m, c, times[0], playerPos).ctx;
      assert next.ruleIndex == c.ruleIndex && next.active && next.routeIndex < |c.script.shotRules[c.ruleIndex].routes|;
      LoopingRuleNeverAdvances(m, next, times[1..], playerPos);
    }
  }

  /**
   The route index is not reset when a non-looping rule finishes, so when
   the next rule has no more routes than the finished one it is skipped
   on the very next update, without starting any of its routes.
   */
  lemma ShorterNextRuleIsSkipped(m: MathFns, c: Context, now: int, later: int, playerPos: Option<Vec3>)
    requires c.active && c.ruleIndex + 1 < |c.script.shotRules|
    requires var rule := c.script.shotRules[c.ruleIndex];
             !rule.looping && !Waiting(c, rule, now)
             && c.routeStart != Unset && c.routeIndex + 1 == |rule.routes|
             && RouteElapsed(c.routeStart, now, rule.routes[c.routeIndex])
    requires |c.script.shotRules[c.ruleIndex + 1].routes| <= |c.script.shotRules[c.ruleIndex].routes|
    ensures var first := Update(m, c, now, playerPos);
            var second := Update(m, first.ctx, later, playerPos);
            first.ctx.ruleIndex == c.ruleIndex + 1
            && second.ctx.ruleIndex == c.ruleIndex + 2 && second.effects == []
  {
    var rule := c.script.shotRules[c.ruleIndex];
    var first := Update(m, c, now, playerPos);
    var c1 := if c.ruleStart == Unset then c.(ruleStart := now) else c;
    assert first == RunRoutes(m, c1, rule, now, playerPos);
    assert first.ctx == FinishRoute(c1, rule);
    assert first.ctx.routeIndex == |rule.routes| && first.ctx.ruleStart == Unset;
    ExhaustedRuleIsSkipped(m, first.ctx, later, playerPos);
  }

  // ---------------------------------------------------------------- the processor

  /** A player, as the key of the context map. */
  type PlayerId = string

  /** The engine: one execution context per player. */
  datatype Processor = Processor(contexts: map<PlayerId, Context>)

  /** Every context in the map is consistent. */
  predicate AllConsistent(p: Processor) {
    forall q :: q in p.contexts ==> Consistent(p.contexts[q])
  }

  /**
   `startCameraScript`: with a player and a script of that name, a fresh
   started context replaces whatever that player had; otherwise nothing
   changes.  `scripts` is the script storage.
   */
  function StartScript(p: Processor, player: Option<PlayerId>, name: string, scripts: map<string, Script>, now: int): (r: Processor)
    ensures player.None? || name !in scripts ==> r == p
    ensures player.Some? && name in scripts
            ==> r.contexts == p.contexts[player.value := Started(scripts[name], now)]
    ensures AllConsistent(p) ==> AllConsistent(r)
  {
    if player.None? || name !in scripts then p
    else Processor(p.contexts[player.value := Started(scripts[name], now)])
  }

  /** The processor together with the effects a call emitted. */
  datatype ProcessorOutcome = ProcessorOutcome(proc: Processor, effects: seq<Effect>)

  /**
   `stopCameraScript`: stops the movement, stops the cinematic if the
   manager reports one active, and drops the context.  `cinematicActive`
   is the manager's answer.
   */
  function StopScript(p: Processor, player: PlayerId, cinematicActive: bool): (r: ProcessorOutcome)
    ensures player !in r.proc.contexts
    ensures r.proc.contexts == p.contexts - {player}
    ensures player !in p.contexts ==> r.effects == []
    ensures player in p.contexts ==> r.effects == [StopMovement] + (if cinematicActive then [StopCinematic] else [])
    ensures AllConsistent(p) ==> AllConsistent(r.proc)
  {
    if player in p.contexts then
      ProcessorOutcome(Processor(p.contexts - {player}), [StopMovement] + (if cinematicActive then [StopCinematic] else []))
    else
      ProcessorOutcome(p, [])
  }

  /** `update`: runs the player's context, and drops it once it reports completion. */
  function UpdatePlayer(m: MathFns, p: Processor, player: PlayerId, now: int, playerPos: Option<Vec3>): (r: ProcessorOutcome)
    ensures player !in p.contexts ==> r == ProcessorOutcome(p, [])
    ensures player in p.contexts && !p.contexts[player].active && !p.contexts[player].complete
            ==> r == ProcessorOutcome(p, [])
    ensures forall q :: q != player ==> (q in r.proc.contexts <==> q in p.contexts)
    ensures forall q :: q != player && q in p.contexts ==> r.proc.contexts[q] == p.contexts[q]
    ensures AllConsistent(p) ==> AllConsistent(r.proc)
  {
    if player !in p.contexts then ProcessorOutcome(p, [])
    else
      var out := Update(m, p.contexts[player], now, playerPos);
      if out.ctx.complete then ProcessorOutcome(Processor(p.contexts - {player}), out.effects)
      else ProcessorOutcome(Processor(p.contexts[player := out.ctx]), out.effects)
  }

  /** `isCameraScriptActive` */
  predicate IsActive(p: Processor, player: PlayerId) {
    player in p.contexts && p.contexts[player].active
  }

  /** Starting a stored script makes it active; stopping it makes it inactive. */
  lemma StartThenStop(p: Processor, player: PlayerId, name: string, scripts: map<string, Script>, now: int, cinematicActive: bool)
    requires name in scripts
    ensures IsActive(StartScript(p, Some(player), name, scripts, now), player)
    ensures !IsActive(StopScript(StartScript(p, Some(player), name, scripts, now), player, cinematicActive).proc, player)
  {
  }

  /** Once every rule has run, the next update stops the cinematic and removes the context. */
  lemma FinishedScriptIsRemoved(m: MathFns, p: Processor, player: PlayerId, now: int, playerPos: Option<Vec3>)
    requires player in p.contexts
    requires p.contexts[player].active && p.contexts[player].ruleIndex >= |p.contexts[player].script.shotRules|
    ensures var r := UpdatePlayer(m, p, player, now, playerPos);
            player !in r.proc.contexts && r.effects == [StopCinematic] && !IsActive(r.proc, player)
  {
  }
}

=== FILE: trigger_binding.dfy ===
/**
 A standalone event binding: which script to start, on which trigger type,
 after how many ticks.  Bindings serialise to a `CompoundTag`, compare by
 value, and hash the way Java's generated `hashCode` does, over the UTF-16 code
 units of their strings and with 32-bit wrap-around written out.
 */
module TriggerBinding {
  import opened Nbt
  import opened CameraScript

  // ---------------------------------------------------------------- 32-bit ints

  const MinInt32: int := -0x8000_0000
  const MaxInt32: int := 0x7fff_ffff
  const TwoTo32: int := 0x1_0000_0000

  /** A Java `int`. */
  type Int32 = x: int | MinInt32 <= x <= MaxInt32

  /** Two's-complement wrap-around of an unbounded integer into a Java `int`. */
  function Wrap32(x: int): (r: Int32)
    ensures (r - x) % TwoTo32 == 0
    ensures MinInt32 <= x <= MaxInt32 ==> r == x
  {
    (x - MinInt32) % TwoTo32 + MinInt32
  }

  /** Adding a multiple of 2^32 does not change the wrapped value. */
  lemma WrapShift(x: int, m: int)
    ensures Wrap32(x + m * TwoTo32) == Wrap32(x)
  {
  }

  /** Wrapping an intermediate result early does not change the final wrapped value. */
  lemma WrapInner(x: int, a: int, c: int)
    ensures Wrap32(a * Wrap32(x) + c) == Wrap32(a * x + c)
  {
    var k := (Wrap32(x) - x) / TwoTo32;
    assert Wrap32(x) == x + k * TwoTo32;
    assert a * Wrap32(x) + c == (a * x + c) + (a * k) * TwoTo32;
    WrapShift(a * x + c, a * k);
  }

  // ---------------------------------------------------------------- String.hashCode

  /** A UTF-16 code unit, the `char` of a Java string. */
  predicate IsCodeUnit(u: int) {
    0 <= u <= 0xFFFF
  }

  /**
   The UTF-16 code units of one character: itself below U+10000, otherwise
   a high and a low surrogate.
   */
  function CodeUnits(c: char): (r: seq<int>)
    ensures 1 <= |r| <= 2 && forall k :: 0 <= k < |r| ==> IsCodeUnit(r[k])
    ensures c as int < 0x10000 <==> |r| == 1
    ensures |r| == 1 ==> r[0] == c as int
    ensures |r| == 2 ==> 0xD800 <= r[0] < 0xDC00 <= r[1] < 0xE000 &&
                         c as int == 0x10000 + (r[0] - 0xD800) * 0x400 + (r[1] - 0xDC00)
  {
    if c as int < 0x10000 then [c as int]
    else
      var v := c as int - 0x10000;
      [0xD800 + v / 0x400, 0xDC00 + v % 0x400]
  }

  /** A string as Java stores it: the code units of its characters, in order. */
  function Utf16(s: string): (r: seq<int>)
    ensures |s| <= |r| <= 2 * |s|
    ensures forall k :: 0 <= k < |r| ==> IsCodeUnit(r[k])
  {
    if |s| == 0 then [] else Utf16(s[..|s| - 1]) + CodeUnits(s[|s| - 1])
  }

  /** Below U+10000 each character is one code unit with its own value. */
  lemma {:induction false} Utf16OfBasicPlane(s: string)
    requires forall k :: 0 <= k < |s| ==> s[k] as int < 0x10000
    ensures |Utf16(s)| == |s|
    ensures forall k :: 0 <= k < |s| ==> Utf16(s)[k] == s[k] as int
  {
    if |s| > 0 {
      Utf16OfBasicPlane(s[..|s| - 1]);
    }
  }

  /** `u[0]·31^(n-1) + … + u[n-1]` over unbounded integers, in Horner form. */
  function Polynomial(u: seq<int>): int {
    if |u| == 0 then 0 else 31 * Polynomial(u[..|u| - 1]) + u[|u| - 1]
  }

  /** The loop of `String.hashCode`: `h = 31·h + c` for each code unit, in `int` arithmetic. */
  function UnitsHash(u: seq<int>): (h: Int32)
    ensures |u| == 0 ==> h == 0
  {
    if |u| == 0 then 0 else Wrap32(31 * UnitsHash(u[..|u| - 1]) + u[|u| - 1])
  }

  /** The loop's running wrap-around gives the documented polynomial, reduced to 32 bits. */
  lemma {:induction false} UnitsHashIsPolynomial(u: seq<int>)
    ensures UnitsHash(u) == Wrap32(Polynomial(u))
  {
    if |u| > 0 {
      var p := u[..|u| - 1];
      UnitsHashIsPolynomial(p);
      WrapInner(Polynomial(p), 31, u[|u| - 1]);
    }
  }

  /** `String.hashCode`: the wrapped base-31 polynomial of the string's UTF-16 code units. */
  function StringHash(s: string): (h: Int32)
    ensures |s| == 0 ==> h == 0
    ensures h == Wrap32(Polynomial(Utf16(s)))
  {
    UnitsHashIsPolynomial(Utf16(s));
    UnitsHash(Utf16(s))
  }

  /** A character above U+FFFF hashes as its surrogate pair: `31·0xD83D + 0xDE00` for U+1F600. */
  lemma SupplementaryCharHash()
    ensures StringHash("\U{1F600}") == 1772899
  {
    var s := "\U{1F600}";
    assert s[..0] == "";
    assert Utf16(s) == [0xD83D, 0xDE00];
    assert Polynomial([0xD83D, 0xDE00]) == 31 * Polynomial([0xD83D]) + 0xDE00;
    assert [0xD83D, 0xDE00][..1] == [0xD83D];
  }

  // ---------------------------------------------------------------- the binding

  datatype Binding = Binding(id: string, scriptName: string, kind: TriggerType, delay: Int32)

  /** `new TriggerBinding()` */
  const DefaultBinding: Binding := Binding("", "", DimensionChange, 0)

  /** `serializeNBT` */
  function Serialize(b: Binding): (n: Compound)
    ensures n.Keys == {"id", "scriptName", "triggerType", "delay"}
  {
    map["id" := TString(b.id),
        "scriptName" := TString(b.scriptName),
        "triggerType" := TString(TriggerTypeName(b.kind)),
        "delay" := TInt(b.delay)]
  }

  /**
   The trigger type `deserializeNBT` settles on: the legacy names
   DIMENSION_ENTRY and DIMENSION_EXIT, and every name that is not a
   constant, become DIMENSION_CHANGE.
   */
  function DecodeKind(name: string): (t: TriggerType)
    ensures name == "DIMENSION_ENTRY" || name == "DIMENSION_EXIT" ==> t == DimensionChange
    ensures forall u :: TriggerTypeName(u) == name ==> t == u
    ensures (forall u :: TriggerTypeName(u) != name) ==> t == DimensionChange
  {
    if name == "DIMENSION_ENTRY" || name == "DIMENSION_EXIT" then DimensionChange
    else match ParseTriggerType(name)
      case Ok(t) => t
      case Err(_) => DimensionChange
  }

  /** `deserializeNBT`; never fails. */
  function Deserialize(n: Compound): (b: Binding)
    ensures b.id == GetString(n, "id") && b.scriptName == GetString(n, "scriptName")
    ensures b.kind == DecodeKind(GetString(n, "triggerType"))
    ensures MinInt32 <= GetInt(n, "delay") <= MaxInt32 ==> b.delay == GetInt(n, "delay")
  {
    Binding(GetString(n, "id"), GetString(n, "scriptName"), DecodeKind(GetString(n, "triggerType")),
            Wrap32(GetInt(n, "delay")))
  }

  /** Serialising and deserialising gives the binding back exactly. */
  lemma RoundTrip(b: Binding)
    ensures Deserialize(Serialize(b)) == b
  {
    TriggerTypeNames(b.kind, "");
    assert GetString(Serialize(b), "triggerType") == TriggerTypeName(b.kind);
  }

  /** A legacy or unknown type name reads as DIMENSION_CHANGE; the other fields are read as stored. */
  lemma LegacyKinds(n: Compound)
    requires var name := GetString(n, "triggerType");
             name == "DIMENSION_ENTRY" || name == "DIMENSION_EXIT" || ParseTriggerType(name).Err?
    ensures Deserialize(n).kind == DimensionChange
  {
  }

  /** `equals`: delay, id, script name and type all equal. */
  predicate Equals(a: Binding, b: Binding) {
    a.delay == b.delay && a.id == b.id && a.scriptName == b.scriptName && a.kind == b.kind
  }

  /** `equals` is exactly value equality of the four fields. */
  lemma EqualsIsValueEquality(a: Binding, b: Binding)
    ensures Equals(a, b) <==> a == b
  {
  }

  /**
   `hashCode`, with `Enum.hashCode` (an identity hash) supplied as
   `kindHash`.
   */
  function HashCode(b: Binding, kindHash: TriggerType -> Int32): Int32 {
    var h := StringHash(b.id);
    var h := Wrap32(31 * h + StringHash(b.scriptName));
    var h := Wrap32(31 * h + kindHash(b.kind));
    Wrap32(31 * h + b.delay)
  }

  /** Equal bindings hash equally. */
  lemma EqualsImpliesEqualHash(a: Binding, b: Binding, kindHash: TriggerType -> Int32)
    requires Equals(a, b)
    ensures HashCode(a, kindHash) == HashCode(b, kindHash)
  {
  }

  /** The hash is the 32-bit reduction of `31³·id + 31²·name + 31·kind + delay`. */
  lemma HashIsPolynomial(b: Binding, kindHash: TriggerType -> Int32)
    ensures HashCode(b, kindHash)
         == Wrap32(29791 * StringHash(b.id) + 961 * StringHash(b.scriptName) + 31 * kindHash(b.kind) + b.delay)
  {
    var i: int, s: int, k: int, d: int := StringHash(b.id), StringHash(b.scriptName), kindHash(b.kind), b.delay;
    WrapInner(31 * i + s, 31, k);
    WrapInner(31 * (31 * i + s) + k, 31, d);
    assert 31 * (31 * (31 * i + s) + k) + d == 29791 * i + 961 * s + 31 * k + d;
  }
}

=== FILE: uuid_text.dfy ===
/**
 `java.util.UUID` as the scripts store it: 32 hexadecimal digits, written
 by `toString` in the canonical 8-4-4-4-12 lower-case form and read back
 by `UUID.fromString`.
 */
module UuidText {
  import opened Common

  newtype Nibble = x: int | 0 <= x < 16

  datatype Uuid = Uuid(nibbles: seq<Nibble>)

  /** A UUID has 128 bits: 32 hexadecimal digits. */
  predicate Valid(u: Uuid) {
    |u.nibbles| == 32
  }

  const Digits: string := "0123456789abcdef"

  /** The lower-case hexadecimal digit `toString` writes. */
  function HexChar(n: Nibble): char {
    Digits[n]
  }

  /** The value of a hexadecimal digit of either case, if `c` is one. */
  function HexValue(c: char): (r: Option<Nibble>)
    ensures r.Some? <==> ('0' <= c <= '9' || 'a' <= c <= 'f' || 'A' <= c <= 'F')
  {
    if '0' <= c <= '9' then Some((c - '0') as int as Nibble)
    else if 'a' <= c <= 'f' then Some((c - 'a') as int as Nibble + 10)
    else if 'A' <= c <= 'F' then Some((c - 'A') as int as Nibble + 10)
    else None
  }

  lemma HexValueOfHexChar(n: Nibble)
    ensures HexValue(HexChar(n)) == Some(n)
  {
  }

  /** The digits of `ns`, one character each. */
  function Hex(ns: seq<Nibble>): (s: string)
    ensures |s| == |ns|
  {
    if |ns| == 0 then [] else [HexChar(ns[0])] + Hex(ns[1..])
  }

  /** Each character of `Hex(ns)` is the digit of the matching nibble. */
  lemma {:induction false} HexAt(ns: seq<Nibble>, i: int)
    requires 0 <= i < |ns|
    ensures Hex(ns)[i] == HexChar(ns[i])
  {
    if i > 0 {
      HexAt(ns[1..], i - 1);
    }
  }

  /** Parses a run of hexadecimal digits, failing on any other character. */
  function ParseHex(s: string): (r: Option<seq<Nibble>>)
    ensures r.Some? <==> forall i :: 0 <= i < |s| ==> HexValue(s[i]).Some?
    ensures r.Some? ==> |r.value| == |s| && forall i :: 0 <= i < |s| ==> HexValue(s[i]) == Some(r.value[i])
  {
    if |s| == 0 then Some([])
    else match HexValue(s[0])
      case None => None
      case Some(n) =>
        match ParseHex(s[1..])
        case None => None
        case Some(rest) => Some([n] + rest)
  }

  /** Parsing what `Hex` wrote gives the digits back. */
  lemma {:induction false} ParseHexOfHex(ns: seq<Nibble>)
    ensures ParseHex(Hex(ns)) == Some(ns)
  {
    if |ns| > 0 {
      var s := Hex(ns);
      assert s == [HexChar(ns[0])] + Hex(ns[1..]);
      assert s[0] == HexChar(ns[0]) && s[1..] == Hex(ns[1..]);
      HexValueOfHexChar(ns[0]);
      ParseHexOfHex(ns[1..]);
      assert ParseHex(s) == Some([ns[0]] + ns[1..]);
      assert ns == [ns[0]] + ns[1..];
    }
  }

  /** `UUID.toString`: the 8-4-4-4-12 form. */
  function ToString(u: Uuid): (s: string)
    requires Valid(u)
    ensures |s| == 36
    ensures s[8] == '-' && s[13] == '-' && s[18] == '-' && s[23] == '-'
  {
    var n := u.nibbles;
    Hex(n[..8]) + "-" + Hex(n[8..12]) + "-" + Hex(n[12..16]) + "-" + Hex(n[16..20]) + "-" + Hex(n[20..])
  }

  /** The 32 digit characters of a 36-character UUID string, dashes removed. */
  function DigitsOf(s: string): string
    requires |s| == 36
  {
    s[..8] + s[9..13] + s[14..18] + s[19..23] + s[24..]
  }

  /**
   `UUID.fromString` on the canonical layout: 36 characters, dashes at
   offsets 8, 13, 18 and 23, hexadecimal digits of either case elsewhere.
   Anything else is rejected (`IllegalArgumentException`).
   */
  function FromString(s: string): (r: Result<Uuid>)
    ensures r.Ok? <==> |s| == 36 && s[8] == '-' && s[13] == '-' && s[18] == '-' && s[23] == '-' &&
                       forall i :: 0 <= i < 32 ==> HexValue(DigitsOf(s)[i]).Some?
    ensures r.Ok? ==> Valid(r.value) && forall i :: 0 <= i < 32 ==> HexValue(DigitsOf(s)[i]) == Some(r.value.nibbles[i])
  {
    if |s| != 36 || s[8] != '-' || s[13] != '-' || s[18] != '-' || s[23] != '-' then
      Err("Invalid UUID string: " + s)
    else
      match ParseHex(DigitsOf(s))
      case None => Err("Invalid UUID string: " + s)
      case Some(ns) => Ok(Uuid(ns))
  }

  /** `Hex` distributes over concatenation. */
  lemma HexAppend(a: seq<Nibble>, b: seq<Nibble>)
    ensures Hex(a + b) == Hex(a) + Hex(b)
  {
    forall i | 0 <= i < |a + b|
      ensures Hex(a + b)[i] == (Hex(a) + Hex(b))[i]
    {
      HexAt(a + b, i);
      if i < |a| {
        HexAt(a, i);
      } else {
        HexAt(b, i - |a|);
      }
    }
  }

  /** Splitting `x + "-" + y` at the dash gives `x` and `y` back. */
  lemma SplitAtDash(x: string, y: string)
    ensures (x + "-" + y)[..|x|] == x
    ensures (x + "-" + y)[|x| + 1..] == y
  {
    assert (x + "-" + y)[..|x|] == x;
    assert (x + "-" + y)[|x| + 1..] == y;
  }

  /** The digits of the canonical string are the UUID's digits in order. */
  lemma DigitsOfToString(u: Uuid)
    requires Valid(u)
    ensures DigitsOf(ToString(u)) == Hex(u.nibbles)
  {
    var n := u.nibbles;
    var a, b, c, d, e := n[..8], n[8..12], n[12..16], n[16..20], n[20..];
    var x1 := Hex(a) + "-" + Hex(b);
    var x2 := x1 + "-" + Hex(c);
    var x3 := x2 + "-" + Hex(d);
    var s := x3 + "-" + Hex(e);
    assert s == ToString(u);
    SplitAtDash(x3, Hex(e));
    SplitAtDash(x2, Hex(d));
    SplitAtDash(x1, Hex(c));
    SplitAtDash(Hex(a), Hex(b));
    assert s[..23] == x3;
    assert s[..8] == x3[..18][..13][..8] == Hex(a);
    assert s[9..13] == x3[..18][..13][9..] == Hex(b);
    assert s[14..18] == x3[..18][14..] == Hex(c);
    assert s[19..23] == x3[19..] == Hex(d);
    assert s[24..] == Hex(e);
    HexAppend(a, b);
    HexAppend(a + b, c);
    HexAppend(a + b + c, d);
    HexAppend(a + b + c + d, e);
    assert a + b + c + d + e == n;
  }

  /** Reading back the string `toString` wrote gives the same UUID. */
  lemma FromToString(u: Uuid)
    requires Valid(u)
    ensures FromString(ToString(u)) == Ok(u)
  {
    DigitsOfToString(u);
    ParseHexOfHex(u.nibbles);
  }
}

=== FILE: wildcard_pattern.dfy ===
/**
 Wildcard matching of structure and dimension ids.  The pattern is first
 escaped for use in a regular expression, then every `*` becomes `.*` and
 every `?` becomes `.`, and the result is matched against the whole id,
 ignoring ASCII case.  Because the escaping comes first, the `*` and `?`
 being replaced are the escaped ones: `\*` turns into `\.*` (any number of
 literal dots) and `\?` into `\.` (one literal dot).

 The model follows that pipeline step by step, reads the resulting
 expression into tokens, matches the tokens, and proves the whole agrees
 with a direct definition (`Glob`).
 */
module WildcardPattern {
  import opened Common

  // ---------------------------------------------------------------- characters

  /** The characters `escapeRegExp` puts a backslash in front of. */
  predicate Special(c: char) {
    c in {'\\', '[', ']', '{', '}', '(', ')', '*', '+', '?', '.', '^', '$', '|'}
  }

  /** ASCII lower-casing, the only folding a case-insensitive Java pattern does by default. */
  function Lower(c: char): char {
    if 'A' <= c <= 'Z' then (c as int + 32) as char else c
  }

  /** Two characters that a case-insensitive pattern treats as equal. */
  predicate SameIgnoringCase(a: char, b: char) {
    Lower(a) == Lower(b)
  }

  // ---------------------------------------------------------------- the rewriting pipeline

  /** What `escapeRegExp` makes of one character. */
  function EscapeChar(c: char): string {
    if Special(c) then ['\\', c] else [c]
  }

  /** `escapeRegExp`: a backslash before each special character. */
  function Escape(s: string): (r: string)
    ensures |r| >= |s|
  {
    if |s| == 0 then "" else EscapeChar(s[0]) + Escape(s[1..])
  }

  /** `String.replace(c, rep)` for a one-character target: every occurrence, left to right. */
  function Replace(s: string, c: char, rep: string): (r: string)
    ensures c !in s ==> r == s
  {
    if |s| == 0 then "" else (if s[0] == c then rep else [s[0]]) + Replace(s[1..], c, rep)
  }

  /** The regular expression `matchesPattern` compiles. */
  function ToRegex(pattern: string): string {
    Replace(Replace(Escape(pattern), '*', ".*"), '?', ".")
  }

  /** What each pattern character contributes to the regular expression. */
  function CharRegex(c: char): (r: string)
    ensures |r| > 0 && r[0] != '*'
  {
    if c == '*' then "\\.*"
    else if c == '?' then "\\."
    else if Special(c) then ['\\', c]
    else [c]
  }

  lemma {:induction false} ReplaceAppend(a: string, b: string, c: char, rep: string)
    ensures Replace(a + b, c, rep) == Replace(a, c, rep) + Replace(b, c, rep)
    decreases |a|
  {
    if |a| == 0 {
      assert a + b == b;
    } else {
      assert (a + b)[0] == a[0];
      assert (a + b)[1..] == a[1..] + b;
      ReplaceAppend(a[1..], b, c, rep);
      var h := if a[0] == c then rep else [a[0]];
      assert Replace(a + b, c, rep) == h + (Replace(a[1..], c, rep) + Replace(b, c, rep));
      assert Replace(a, c, rep) == h + Replace(a[1..], c, rep);
    }
  }

  /** Replacing in a two-character string replaces in each character. */
  lemma ReplacePair(x: char, y: char, c: char, rep: string)
    ensures Replace([x, y], c, rep) == Replace([x], c, rep) + Replace([y], c, rep)
  {
    ReplaceAppend([x], [y], c, rep);
    assert [x] + [y] == [x, y];
  }

  /** Both replacements applied to one escaped character give its contribution. */
  lemma CharPipeline(c: char)
    ensures Replace(Replace(EscapeChar(c), '*', ".*"), '?', ".") == CharRegex(c)
  {
    if Special(c) {
      ReplacePair('\\', c, '*', ".*");
      var once := Replace(EscapeChar(c), '*', ".*");
      if c == '*' {
        assert once == ['\\', '.', '*'];
        ReplaceAppend(['\\', '.'], ['*'], '?', ".");
        assert ['\\', '.'] + ['*'] == once;
        ReplacePair('\\', '.', '?', ".");
      } else {
        assert once == ['\\', c];
        ReplacePair('\\', c, '?', ".");
      }
    }
  }

  /** The regular expression is the characters' contributions, concatenated. */
  lemma {:induction false} ToRegexByChar(pattern: string)
    requires |pattern| > 0
    ensures ToRegex(pattern) == CharRegex(pattern[0]) + ToRegex(pattern[1..])
  {
    var e := EscapeChar(pattern[0]);
    var rest := Escape(pattern[1..]);
    assert Escape(pattern) == e + rest;
    ReplaceAppend(e, rest, '*', ".*");
    ReplaceAppend(Replace(e, '*', ".*"), Replace(rest, '*', ".*"), '?', ".");
    CharPipeline(pattern[0]);
  }

  // ---------------------------------------------------------------- the expression language

  /** A literal character, alone or repeated any number of times. */
  datatype Token = One(c: char) | Many(c: char)

  /**
   Reads the expressions the pipeline produces: an escaped special
   character or a plain character, optionally followed by `*`.  Anything
   else (an unescaped special character, a dangling backslash) is outside
   this language and yields None.
   */
  function Parse(r: string): (t: Option<seq<Token>>)
    decreases |r|
  {
    if |r| == 0 then Some([])
    else
      var atom: Option<char> :=
        if r[0] == '\\' then (if |r| >= 2 && Special(r[1]) then Some(r[1]) else None)
        else if Special(r[0]) then None
        else Some(r[0]);
      var width := if r[0] == '\\' then 2 else 1;
      if atom.None? then None
      else if width < |r| && r[width] == '*' then
        match Parse(r[width + 1..])
        case None => None
        case Some(rest) => Some([Many(atom.value)] + rest)
      else
        match Parse(r[width..])
        case None => None
        case Some(rest) => Some([One(atom.value)] + rest)
  }

  /** The token each pattern character becomes. */
  function CharToken(c: char): Token {
    if c == '*' then Many('.') else if c == '?' then One('.') else One(c)
  }

  function Tokens(pattern: string): (t: seq<Token>)
    ensures |t| == |pattern|
  {
    if |pattern| == 0 then [] else [CharToken(pattern[0])] + Tokens(pattern[1..])
  }

  /** Reading one character's contribution in front of a further expression. */
  lemma ParseCharRegex(c: char, rest: string)
    requires |rest| == 0 || rest[0] != '*'
    ensures Parse(CharRegex(c) + rest) ==
            match Parse(rest)
            case None => None
            case Some(t) => Some([CharToken(c)] + t)
  {
    var r := CharRegex(c) + rest;
    if c == '*' {
      assert r[0] == '\\' && r[1] == '.' && r[2] == '*';
      assert r[3..] == rest;
    } else if c == '?' {
      assert r[0] == '\\' && r[1] == '.';
      assert r[2..] == rest;
    } else if Special(c) {
      assert r[0] == '\\' && r[1] == c;
      assert r[2..] == rest;
    } else {
      assert r[0] == c;
      assert r[1..] == rest;
    }
  }

  /** The pipeline's expression always reads back as one token per pattern character. */
  lemma {:induction false} ParseToRegex(pattern: string)
    ensures Parse(ToRegex(pattern)) == Some(Tokens(pattern))
    decreases |pattern|
  {
    if |pattern| > 0 {
      ToRegexByChar(pattern);
      var rest := ToRegex(pattern[1..]);
      if |pattern| > 1 {
        ToRegexByChar(pattern[1..]);
      }
      ParseToRegex(pattern[1..]);
      ParseCharRegex(pattern[0], rest);
    }
  }

  // ---------------------------------------------------------------- matching

  /** Whole-string match of a token sequence, ignoring ASCII case. */
  function MatchTokens(t: seq<Token>, s: string): bool
    decreases |s|, |t|
  {
    if |t| == 0 then |s| == 0
    else match t[0]
      case One(c) => |s| > 0 && SameIgnoringCase(c, s[0]) && MatchTokens(t[1..], s[1..])
      case Many(c) =>
        MatchTokens(t[1..], s) || (|s| > 0 && SameIgnoringCase(c, s[0]) && MatchTokens(t, s[1..]))
  }

  /**
   The direct reading of the source's behaviour: `*` stands for any run of
   dots, `?` for a single dot, and every other character for itself,
   ignoring ASCII case.
   */
  function Glob(pattern: string, s: string): bool
    decreases |s|, |pattern|
  {
    if |pattern| == 0 then |s| == 0
    else if pattern[0] == '*' then
      Glob(pattern[1..], s) || (|s| > 0 && s[0] == '.' && Glob(pattern, s[1..]))
    else if pattern[0] == '?' then
      |s| > 0 && s[0] == '.' && Glob(pattern[1..], s[1..])
    else
      |s| > 0 && SameIgnoringCase(pattern[0], s[0]) && Glob(pattern[1..], s[1..])
  }

  lemma {:induction false} MatchTokensIsGlob(pattern: string, s: string)
    ensures MatchTokens(Tokens(pattern), s) == Glob(pattern, s)
    decreases |s|, |pattern|
  {
    if |pattern| > 0 {
      var t := Tokens(pattern);
      assert t[0] == CharToken(pattern[0]) && t[1..] == Tokens(pattern[1..]);
      MatchTokensIsGlob(pattern[1..], s);
      if |s| > 0 {
        MatchTokensIsGlob(pattern[1..], s[1..]);
        if pattern[0] == '*' {
          MatchTokensIsGlob(pattern, s[1..]);
        }
      }
    }
  }

  /**
   `matchesPattern`: false when either side is null; otherwise the
   compiled expression must match the whole target.  The expression always
   compiles, so the syntax-error branch never returns.
   */
  function MatchesPattern(pattern: Option<string>, target: Option<string>): (b: bool)
    ensures pattern.None? || target.None? ==> !b
    ensures pattern.Some? && target.Some? ==> (b <==> Glob(pattern.value, target.value))
  {
    if pattern.None? || target.None? then false
    else
      ParseToRegex(pattern.value);
      MatchTokensIsGlob(pattern.value, target.value);
      match Parse(ToRegex(pattern.value))
      case None => false
      case Some(t) => MatchTokens(t, target.value)
  }

  /** `*` matches exactly the runs of dots. */
  lemma {:induction false} StarMatchesOnlyDots(s: string)
    ensures Glob("*", s) <==> forall i :: 0 <= i < |s| ==> s[i] == '.'
    decreases |s|
  {
    assert "*"[1..] == "";
    if |s| > 0 {
      StarMatchesOnlyDots(s[1..]);
      assert forall i :: 1 <= i < |s| ==> s[i] == s[1..][i - 1];
    }
  }

  /** A pattern without wildcards matches exactly the same-length ids that agree ignoring case. */
  lemma {:induction false} LiteralPattern(pattern: string, s: string)
    requires forall i :: 0 <= i < |pattern| ==> pattern[i] != '*' && pattern[i] != '?'
    ensures Glob(pattern, s) <==> |s| == |pattern| && forall i :: 0 <= i < |s| ==> SameIgnoringCase(pattern[i], s[i])
    decreases |pattern|
  {
    if |pattern| > 0 && |s| > 0 {
      LiteralPattern(pattern[1..], s[1..]);
      assert forall i :: 1 <= i < |s| ==> s[i] == s[1..][i - 1];
      assert forall i :: 1 <= i < |pattern| ==> pattern[i] == pattern[1..][i - 1];
    }
  }

  /** A literal prefix followed by `*` needs the rest of the id to be dots. */
  lemma {:induction false} PrefixThenStar(prefix: string, s: string)
    requires forall i :: 0 <= i < |prefix| ==> prefix[i] != '*' && prefix[i] != '?'
    requires |s| >= |prefix|
    ensures Glob(prefix + "*", s) ==> forall i :: |prefix| <= i < |s| ==> s[i] == '.'
    decreases |prefix|
  {
    if |prefix| == 0 {
      assert prefix + "*" == "*";
      StarMatchesOnlyDots(s);
    } else {
      assert (prefix + "*")[1..] == prefix[1..] + "*";
      PrefixThenStar(prefix[1..], s[1..]);
      assert forall i :: |prefix| <= i < |s| ==> s[i] == s[1..][i - 1];
    }
  }

  /** The shell-style pattern "minecraft:the_*" does not match "minecraft:the_end". */
  lemma ShellStyleStarDoesNotMatch()
    ensures !MatchesPattern(Some("minecraft:the_*"), Some("minecraft:the_end"))
  {
    var prefix := "minecraft:the_";
    assert prefix + "*" == "minecraft:the_*";
    PrefixThenStar(prefix, "minecraft:the_end");
    assert "minecraft:the_end"[|prefix|] == 'e';
  }

  /** Case is ignored. */
  lemma CaseIsIgnored()
    ensures MatchesPattern(Some("End"), Some("eND"))
  {
    LiteralPattern("End", "eND");
  }

  /** `+` is literal: it does not repeat. */
  lemma PlusIsLiteral()
    ensures !MatchesPattern(Some("a+"), Some("aa"))
    ensures MatchesPattern(Some("a+"), Some("a+"))
  {
    LiteralPattern("a+", "aa");
    LiteralPattern("a+", "a+");
  }

  /** `.` is literal: it matches only a dot. */
  lemma DotIsLiteral()
    ensures !MatchesPattern(Some("a.c"), Some("abc"))
  {
    LiteralPattern("a.c", "abc");
    assert !SameIgnoringCase('.', 'b');
  }
}

=== FILE: world_event_detector.dfy ===
/**
 The server-side trigger scheduler: it turns world events (a dimension
 change, a login, entering or leaving a structure, the time of day) into
 requests to start a camera script on a player, either at once or after a
 per-player countdown of ticks.

 The game is reduced to inputs: whether a player is online, which structure
 (if any) is at a player's position, the day time of the player's level, the
 loaded scripts (a map from name to script) and the standalone bindings.  A
 packet sent to a player is a `Dispatch` appended to the step's output.
 Java's hash-map iteration order, which decides only the order of the
 output, is an input sequence that lists every key once.
 */
module WorldEventDetector {
  import opened Common
  import opened CameraScript
  import opened TriggerBinding
  import WildcardPattern
  import TimePattern

  /** `STRUCTURE_SCAN_INTERVAL`, in ticks. */
  const ScanInterval: int := 40
  /** Ticks in a Minecraft day. */
  const DayLength: int := 24000
  /** The smallest change of day time that causes a new time-of-day sample. */
  const ResampleGap: int := 1000

  /** A player's UUID. */
  type PlayerId = string
  /** A `ResourceLocation` in its `namespace:path` text form. */
  type Location = string

  /** `ScheduledTask`: a script start waiting for `remaining` more ticks. */
  datatype Task = Task(scriptName: string, delay: int, remaining: int)

  /** The per-player bookkeeping of `PlayerData`. */
  datatype PlayerData = PlayerData(
    lastDimension: Option<Location>,
    visited: set<Location>,
    currentStructure: Option<Location>,
    scanTimer: int,
    lastTriggerTimestamp: int,
    lastTimeOfDay: int)

  /** `new PlayerData()` */
  const FreshPlayerData: PlayerData := PlayerData(None, {}, None, 0, 0, 0)

  /** The detector's two maps: pending tasks and player data, both keyed by player. */
  datatype Detector = Detector(tasks: map<PlayerId, seq<Task>>, players: map<PlayerId, PlayerData>)

  /** The detector as first created: both maps empty. */
  const NewDetector: Detector := Detector(map[], map[])

  /** A `TriggerCameraScriptPacket` naming a script, sent to a player. */
  datatype Dispatch = Dispatch(player: PlayerId, scriptName: string)

  /** A request to start a script after `delay` ticks. */
  datatype Request = Request(scriptName: string, delay: int)

  /** The state after an event, with the packets it sent, in order. */
  datatype Step = Step(detector: Detector, sent: seq<Dispatch>)

  /** A player's pending tasks; a player with no entry has none. */
  function Queue(d: Detector, p: PlayerId): seq<Task> {
    if p in d.tasks then d.tasks[p] else []
  }

  /** `order` lists every element of `keys` exactly once. */
  predicate Enumerates<K(!new)>(order: seq<K>, keys: set<K>) {
    (forall k :: k in keys ==> k in order) && (forall k :: k in order ==> k in keys) &&
    (forall i, j :: 0 <= i < j < |order| ==> order[i] != order[j])
  }

  /** `initializePlayerData`: fresh data for a player seen for the first time. */
  function InitPlayer(d: Detector, p: PlayerId): (r: Detector)
    ensures r.tasks == d.tasks
    ensures r.players.Keys == d.players.Keys + {p}
    ensures p in d.players ==> r == d
    ensures p !in d.players ==> r.players[p] == FreshPlayerData
    ensures forall q :: q in d.players ==> r.players[q] == d.players[q]
  {
    if p in d.players then d else d.(players := d.players[p := FreshPlayerData])
  }

  // ---------------------------------------------------------------- scheduling

  /**
   `scheduleScriptTrigger(player, scriptName, delay)`: a delay of zero or
   less sends the packet at once; otherwise a task counting down from
   `delay` joins the end of the player's queue.
   */
  function Schedule(d: Detector, p: PlayerId, name: string, delay: int): (r: Step)
    ensures delay <= 0 ==> r.detector == d && r.sent == [Dispatch(p, name)]
    ensures delay > 0 ==> r.sent == [] && Queue(r.detector, p) == Queue(d, p) + [Task(name, delay, delay)]
    ensures r.detector.players == d.players
    ensures r.detector.tasks.Keys <= d.tasks.Keys + {p}
    ensures forall q :: q != p ==> Queue(r.detector, q) == Queue(d, q) && (q in r.detector.tasks <==> q in d.tasks)
  {
    if delay <= 0 then Step(d, [Dispatch(p, name)])
    else Step(d.(tasks := d.tasks[p := Append(Queue(d, p), Task(name, delay, delay))]), [])
  }

  /** The packets sent at once for the requests with no positive delay. */
  function Immediate(p: PlayerId, reqs: seq<Request>): seq<Dispatch> {
    if |reqs| == 0 then []
    else (if reqs[0].delay <= 0 then [Dispatch(p, reqs[0].scriptName)] else []) + Immediate(p, reqs[1..])
  }

  /** A packet is sent at once exactly for a request, to `p`, with no positive delay. */
  lemma {:induction false} ImmediateMembers(p: PlayerId, reqs: seq<Request>, x: Dispatch)
    ensures x in Immediate(p, reqs) <==> x.player == p && exists q :: q in reqs && q.delay <= 0 && q.scriptName == x.scriptName
    decreases |reqs|
  {
    if |reqs| > 0 {
      ImmediateMembers(p, reqs[1..], x);
      assert forall q :: q in reqs <==> q == reqs[0] || q in reqs[1..];
    }
  }

  /** The tasks queued for the requests with a positive delay, in request order. */
  function Delayed(reqs: seq<Request>): seq<Task> {
    if |reqs| == 0 then []
    else (if reqs[0].delay > 0 then [Task(reqs[0].scriptName, reqs[0].delay, reqs[0].delay)] else []) + Delayed(reqs[1..])
  }

  /** A task is queued exactly for a request with a positive delay, counting down from that delay. */
  lemma {:induction false} DelayedMembers(reqs: seq<Request>, t: Task)
    ensures t in Delayed(reqs) <==> t.delay > 0 && t.remaining == t.delay && Request(t.scriptName, t.delay) in reqs
    decreases |reqs|
  {
    if |reqs| > 0 {
      DelayedMembers(reqs[1..], t);
      assert forall q :: q in reqs <==> q == reqs[0] || q in reqs[1..];
    }
  }

  /** `scheduleScriptTrigger` applied to each request in turn, as the event handlers' loops do. */
  function ScheduleInTurn(d: Detector, p: PlayerId, reqs: seq<Request>): Step
    decreases |reqs|
  {
    if |reqs| == 0 then Step(d, [])
    else
      var first := Schedule(d, p, reqs[0].scriptName, reqs[0].delay);
      var rest := ScheduleInTurn(first.detector, p, reqs[1..]);
      Step(rest.detector, first.sent + rest.sent)
  }

  /**
   The effect of scheduling a list of requests, in closed form: the
   immediate ones are sent and the delayed ones join the player's queue.
   */
  function ScheduleAll(d: Detector, p: PlayerId, reqs: seq<Request>): (r: Step)
    ensures r.sent == Immediate(p, reqs)
    ensures Queue(r.detector, p) == Queue(d, p) + Delayed(reqs)
    ensures r.detector.players == d.players
    ensures r.detector.tasks.Keys <= d.tasks.Keys + {p}
    ensures forall q :: q != p ==> Queue(r.detector, q) == Queue(d, q) && (q in r.detector.tasks <==> q in d.tasks)
  {
    var delayed := Delayed(reqs);
    if delayed == [] then
      assert Queue(d, p) + delayed == Queue(d, p);
      Step(d, Immediate(p, reqs))
    else
      Step(d.(tasks := d.tasks[p := Queue(d, p) + delayed]), Immediate(p, reqs))
  }

  /** The closed form after an immediate first request: it is sent first, and the rest follow. */
  lemma ScheduleAllImmediateFirst(d: Detector, p: PlayerId, reqs: seq<Request>)
    requires |reqs| > 0 && reqs[0].delay <= 0
    ensures ScheduleAll(d, p, reqs)
         == Step(ScheduleAll(d, p, reqs[1..]).detector, [Dispatch(p, reqs[0].scriptName)] + ScheduleAll(d, p, reqs[1..]).sent)
  {
    assert Immediate(p, reqs) == [Dispatch(p, reqs[0].scriptName)] + Immediate(p, reqs[1..]);
    assert Delayed(reqs) == Delayed(reqs[1..]);
  }

  /** The closed form after a delayed first request: its task is queued first, and the rest follow. */
  lemma ScheduleAllDelayedFirst(d: Detector, p: PlayerId, reqs: seq<Request>)
    requires |reqs| > 0 && reqs[0].delay > 0
    ensures var task := Task(reqs[0].scriptName, reqs[0].delay, reqs[0].delay);
            var d1 := d.(tasks := d.tasks[p := Queue(d, p) + [task]]);
            ScheduleAll(d, p, reqs) == ScheduleAll(d1, p, reqs[1..])
  {
    var task := Task(reqs[0].scriptName, reqs[0].delay, reqs[0].delay);
    var d1 := d.(tasks := d.tasks[p := Queue(d, p) + [task]]);
    var tail := Delayed(reqs[1..]);
    assert Immediate(p, reqs) == Immediate(p, reqs[1..]);
    assert Delayed(reqs) == [task] + tail;
    assert Queue(d1, p) == Queue(d, p) + [task];
    if tail == [] {
      assert Delayed(reqs) == [task];
    } else {
      assert Queue(d1, p) + tail == Queue(d, p) + Delayed(reqs);
      assert d1.tasks[p := Queue(d1, p) + tail] == d.tasks[p := Queue(d, p) + Delayed(reqs)];
    }
  }

  /** Scheduling the requests one at a time gives exactly the closed form. */
  lemma {:induction false} ScheduleInTurnIsScheduleAll(d: Detector, p: PlayerId, reqs: seq<Request>)
    ensures ScheduleInTurn(d, p, reqs) == ScheduleAll(d, p, reqs)
    decreases |reqs|
  {
    if |reqs| > 0 {
      var first := Schedule(d, p, reqs[0].scriptName, reqs[0].delay);
      ScheduleInTurnIsScheduleAll(first.detector, p, reqs[1..]);
      if reqs[0].delay <= 0 {
        assert first == Step(d, [Dispatch(p, reqs[0].scriptName)]);
        ScheduleAllImmediateFirst(d, p, reqs);
      } else {
        var task := Task(reqs[0].scriptName, reqs[0].delay, reqs[0].delay);
        assert first == Step(d.(tasks := d.tasks[p := Queue(d, p) + [task]]), []);
        ScheduleAllDelayedFirst(d, p, reqs);
      }
    }
  }

  // ---------------------------------------------------------------- countdown

  /** One tick of one queue: the tasks still waiting, and the scripts whose time has come. */
  datatype Ticked = Ticked(kept: seq<Task>, fired: seq<string>)

  /**
   The inner loop of `processScheduledTasks`: every task loses one tick;
   a task left with none or fewer is removed and its script fires.
   */
  function TickQueue(q: seq<Task>): (r: Ticked)
    ensures |r.kept| + |r.fired| == |q|
    ensures forall i :: 0 <= i < |r.kept| ==> r.kept[i].remaining > 0
  {
    if |q| == 0 then Ticked([], [])
    else
      var t := Task(q[0].scriptName, q[0].delay, q[0].remaining - 1);
      var rest := TickQueue(q[1..]);
      if t.remaining <= 0 then Ticked(rest.kept, [t.scriptName] + rest.fired)
      else Ticked([t] + rest.kept, rest.fired)
  }

  /** Ticking two queues one after the other is ticking their concatenation. */
  lemma {:induction false} TickQueueAppend(a: seq<Task>, b: seq<Task>)
    ensures TickQueue(a + b) == Ticked(TickQueue(a).kept + TickQueue(b).kept, TickQueue(a).fired + TickQueue(b).fired)
    decreases |a|
  {
    if |a| == 0 {
      assert a + b == b;
    } else {
      assert (a + b)[0] == a[0];
      assert (a + b)[1..] == a[1..] + b;
      TickQueueAppend(a[1..], b);
    }
  }

  /** A queue after `k` ticks. */
  function AfterTicks(q: seq<Task>, k: nat): seq<Task> {
    if k == 0 then q else TickQueue(AfterTicks(q, k - 1)).kept
  }

  /** The scripts that fire on the `k`-th tick, counting from 1. */
  function FiredOnTick(q: seq<Task>, k: nat): seq<string>
    requires k >= 1
  {
    TickQueue(AfterTicks(q, k - 1)).fired
  }

  /** A queue's tasks count down independently of each other. */
  lemma {:induction false} AfterTicksAppend(a: seq<Task>, b: seq<Task>, k: nat)
    ensures AfterTicks(a + b, k) == AfterTicks(a, k) + AfterTicks(b, k)
  {
    if k > 0 {
      AfterTicksAppend(a, b, k - 1);
      TickQueueAppend(AfterTicks(a, k - 1), AfterTicks(b, k - 1));
    }
  }

  /**
   A task scheduled with delay `n > 0` waits `n - 1` ticks with its
   remaining count going down by one each tick, and fires on exactly the
   `n`-th tick, after which it is gone.
   */
  lemma {:induction false} ExactCountdown(name: string, n: int, k: nat)
    requires n > 0
    ensures k < n ==> AfterTicks([Task(name, n, n)], k) == [Task(name, n, n - k)]
    ensures k >= n ==> AfterTicks([Task(name, n, n)], k) == []
    ensures k >= 1 ==> FiredOnTick([Task(name, n, n)], k) == (if k == n then [name] else [])
  {
    if k > 0 {
      ExactCountdown(name, n, k - 1);
      var before := AfterTicks([Task(name, n, n)], k - 1);
      if k - 1 < n {
        assert before == [Task(name, n, n - (k - 1))];
        assert before[1..] == [];
      } else {
        assert before == [];
      }
    }
  }

  /**
   Appended behind any other tasks, a task scheduled with delay `n > 0`
   adds its script to what fires on exactly the `n`-th tick and to no other.
   */
  lemma ScheduledTaskFiresOnDelay(q: seq<Task>, name: string, n: int, k: nat)
    requires n > 0 && k >= 1
    ensures FiredOnTick(q + [Task(name, n, n)], k) == FiredOnTick(q, k) + (if k == n then [name] else [])
  {
    AfterTicksAppend(q, [Task(name, n, n)], k - 1);
    TickQueueAppend(AfterTicks(q, k - 1), AfterTicks([Task(name, n, n)], k - 1));
    ExactCountdown(name, n, k);
  }

  /** The names of the packets sent to one player, in order. */
  function SentTo(sent: seq<Dispatch>, p: PlayerId): seq<string> {
    if |sent| == 0 then []
    else (if sent[0].player == p then [sent[0].scriptName] else []) + SentTo(sent[1..], p)
  }

  lemma {:induction false} SentToAppend(a: seq<Dispatch>, b: seq<Dispatch>, p: PlayerId)
    ensures SentTo(a + b, p) == SentTo(a, p) + SentTo(b, p)
    decreases |a|
  {
    if |a| == 0 {
      assert a + b == b;
    } else {
      assert (a + b)[0] == a[0];
      assert (a + b)[1..] == a[1..] + b;
      SentToAppend(a[1..], b, p);
    }
  }

  /** One packet to `p` for each name, in order. */
  function Notify(p: PlayerId, names: seq<string>): (r: seq<Dispatch>)
    ensures |r| == |names|
    ensures forall i :: 0 <= i < |r| ==> r[i] == Dispatch(p, names[i])
  {
    if |names| == 0 then [] else [Dispatch(p, names[0])] + Notify(p, names[1..])
  }

  lemma {:induction false} SentToNotify(q: PlayerId, names: seq<string>, p: PlayerId)
    ensures SentTo(Notify(q, names), p) == if q == p then names else []
    decreases |names|
  {
    if |names| > 0 {
      SentToNotify(q, names[1..], p);
      assert Notify(q, names)[1..] == Notify(q, names[1..]);
    }
  }

  /** The packets the outer loop of `processScheduledTasks` sends, player by player. */
  function TaskDispatches(d: Detector, order: seq<PlayerId>, online: PlayerId -> bool): (r: seq<Dispatch>)
    ensures forall x :: x in r ==> online(x.player)
  {
    if |order| == 0 then []
    else
      var p := order[0];
      var mine := if online(p) then Notify(p, TickQueue(Queue(d, p)).fired) else [];
      mine + TaskDispatches(d, order[1..], online)
  }

  lemma {:induction false} SentToTaskDispatches(d: Detector, order: seq<PlayerId>, online: PlayerId -> bool, p: PlayerId)
    requires forall i, j :: 0 <= i < j < |order| ==> order[i] != order[j]
    ensures SentTo(TaskDispatches(d, order, online), p) ==
            if p in order && online(p) then TickQueue(Queue(d, p)).fired else []
    decreases |order|
  {
    if |order| > 0 {
      var q := order[0];
      var mine := if online(q) then Notify(q, TickQueue(Queue(d, q)).fired) else [];
      SentToAppend(mine, TaskDispatches(d, order[1..], online), p);
      SentToTaskDispatches(d, order[1..], online, p);
      if online(q) {
        SentToNotify(q, TickQueue(Queue(d, q)).fired, p);
      }
      assert p in order <==> p == q || p in order[1..];
      assert forall j :: 0 <= j < |order| - 1 ==> order[1..][j] == order[j + 1] != q;
    }
  }

  /**
   `processScheduledTasks`: every queue ticks once; the scripts that fire
   are sent to their player only when the player is online, but the tasks
   are removed either way; queues left empty are dropped from the map.
   */
  function ProcessScheduledTasks(d: Detector, order: seq<PlayerId>, online: PlayerId -> bool): (r: Step)
    requires Enumerates(order, d.tasks.Keys)
    ensures r.detector.players == d.players
    ensures forall p :: Queue(r.detector, p) == TickQueue(Queue(d, p)).kept
    ensures forall p :: p in r.detector.tasks ==> p in d.tasks && r.detector.tasks[p] != []
    ensures forall p :: SentTo(r.sent, p) == if online(p) then TickQueue(Queue(d, p)).fired else []
    ensures forall x :: x in r.sent ==> online(x.player)
  {
    var tasks := map p | p in d.tasks && TickQueue(d.tasks[p]).kept != [] :: TickQueue(d.tasks[p]).kept;
    var sent := TaskDispatches(d, order, online);
    forall p ensures SentTo(sent, p) == if online(p) then TickQueue(Queue(d, p)).fired else [] {
      SentToTaskDispatches(d, order, online, p);
    }
    Step(Detector(tasks, d.players), sent)
  }

  // ---------------------------------------------------------------- bindings and events

  /** The requests of the bindings that `keep` selects, each with its own delay. */
  function BindingRequests(bs: seq<Binding>, keep: Binding -> bool): (r: seq<Request>)
    ensures forall x :: x in r <==> exists b :: b in bs && keep(b) && x == Request(b.scriptName, b.delay)
  {
    if |bs| == 0 then []
    else
      var rest := BindingRequests(bs[1..], keep);
      assert forall b :: b in bs <==> b == bs[0] || b in bs[1..];
      if keep(bs[0]) then [Request(bs[0].scriptName, bs[0].delay)] + rest else rest
  }

  /** The names of a sequence of requests, delays dropped. */
  function Names(reqs: seq<Request>): (r: seq<string>)
    ensures |r| == |reqs|
    ensures forall i :: 0 <= i < |r| ==> r[i] == reqs[i].scriptName
  {
    if |reqs| == 0 then [] else [reqs[0].scriptName] + Names(reqs[1..])
  }

  /** The bindings a player's login starts. */
  function LoginRequests(bs: seq<Binding>): seq<Request> {
    BindingRequests(bs, (b: Binding) => b.kind == PlayerLogin)
  }

  /**
   `onPlayerJoin`: records the dimension as the last and as visited, then
   schedules every PLAYER_LOGIN binding with the binding's delay.
   */
  function OnLogin(d: Detector, p: PlayerId, dimension: Location, bs: seq<Binding>): (r: Step)
    ensures p in r.detector.players
    ensures r.detector.players[p].lastDimension == Some(dimension)
    ensures dimension in r.detector.players[p].visited
    ensures p in d.players ==> r.detector.players[p].visited == d.players[p].visited + {dimension}
    ensures r.sent == Immediate(p, LoginRequests(bs))
    ensures Queue(r.detector, p) == Queue(d, p) + Delayed(LoginRequests(bs))
    ensures forall q :: q != p ==> Queue(r.detector, q) == Queue(d, q)
    ensures forall q :: q != p && q in d.players ==> q in r.detector.players && r.detector.players[q] == d.players[q]
  {
    var d1 := InitPlayer(d, p);
    var data := d1.players[p];
    var d2 := d1.(players := d1.players[p := data.(lastDimension := Some(dimension), visited := data.visited + {dimension})]);
    ScheduleAll(d2, p, LoginRequests(bs))
  }

  /** A login sends a packet at once for exactly the PLAYER_LOGIN bindings with no positive delay. */
  lemma LoginDispatches(d: Detector, p: PlayerId, dimension: Location, bs: seq<Binding>, x: Dispatch)
    ensures x in OnLogin(d, p, dimension, bs).sent <==>
            x.player == p && exists b :: b in bs && b.kind == PlayerLogin && b.delay <= 0 && b.scriptName == x.scriptName
  {
    var reqs := LoginRequests(bs);
    ImmediateMembers(p, reqs, x);
    if x in OnLogin(d, p, dimension, bs).sent {
      var q :| q in reqs && q.delay <= 0 && q.scriptName == x.scriptName;
      var b :| b in bs && b.kind == PlayerLogin && q == Request(b.scriptName, b.delay);
    }
    if x.player == p && exists b :: b in bs && b.kind == PlayerLogin && b.delay <= 0 && b.scriptName == x.scriptName {
      var b :| b in bs && b.kind == PlayerLogin && b.delay <= 0 && b.scriptName == x.scriptName;
      assert Request(b.scriptName, b.delay) in reqs;
    }
  }

  /** A condition that fires on entering the dimension `dim`. */
  predicate DimensionFires(c: TriggerCondition, dim: Location) {
    c.kind == DimensionChange && WildcardPattern.MatchesPattern(c.parameter, Some(dim))
  }

  /**
   `(int) (delay * 20)`: seconds to ticks, truncated towards zero and
   saturated at the bounds of a Java `int`.
   */
  function DelayTicks(seconds: real): (r: int)
    ensures MinInt32 <= r <= MaxInt32
    ensures seconds >= 0.0 && seconds * 20.0 <= MaxInt32 as real ==> r as real <= seconds * 20.0 < r as real + 1.0
    ensures seconds <= 0.0 ==> r <= 0
    ensures seconds >= 0.0 ==> r >= 0
  {
    var x := seconds * 20.0;
    if x >= MaxInt32 as real then MaxInt32
    else if x <= MinInt32 as real then MinInt32
    else if x >= 0.0 then x.Floor
    else -((-x).Floor)
  }

  /** The requests one rule's conditions make: one per matching condition. */
  function ConditionRequests(name: string, cs: seq<TriggerCondition>, dim: Location, delay: int): (r: seq<Request>)
    ensures forall x :: x in r <==> x == Request(name, delay) && exists c :: c in cs && DimensionFires(c, dim)
    ensures |r| <= |cs|
    ensures forall i :: 0 <= i < |r| ==> r[i] == Request(name, delay)
  {
    if |cs| == 0 then []
    else
      var rest := ConditionRequests(name, cs[1..], dim, delay);
      assert forall c :: c in cs <==> c == cs[0] || c in cs[1..];
      if DimensionFires(cs[0], dim) then [Request(name, delay)] + rest else rest
  }

  /** The positions of the conditions that fire on entering `dim`. */
  function FiringIndices(cs: seq<TriggerCondition>, dim: Location): set<int> {
    set i | 0 <= i < |cs| && DimensionFires(cs[i], dim)
  }

  /** Adding a condition at the end adds its request, if it fires, at the end. */
  lemma {:induction false} ConditionRequestsSnoc(name: string, cs: seq<TriggerCondition>, c: TriggerCondition, dim: Location, delay: int)
    ensures ConditionRequests(name, cs + [c], dim, delay)
         == ConditionRequests(name, cs, dim, delay) + (if DimensionFires(c, dim) then [Request(name, delay)] else [])
  {
    if |cs| > 0 {
      assert (cs + [c])[1..] == cs[1..] + [c];
      ConditionRequestsSnoc(name, cs[1..], c, dim, delay);
    } else {
      assert [c][1..] == [];
    }
  }

  /** The firing positions of `cs` are those of all but its last condition, plus the last if it fires. */
  lemma FiringIndicesSnoc(cs: seq<TriggerCondition>, dim: Location)
    requires |cs| > 0
    ensures |FiringIndices(cs, dim)|
         == |FiringIndices(cs[..|cs| - 1], dim)| + (if DimensionFires(cs[|cs| - 1], dim) then 1 else 0)
  {
    var n := |cs| - 1;
    var front := FiringIndices(cs[..n], dim);
    var last: set<int> := if DimensionFires(cs[n], dim) then {n} else {};
    forall k | k in FiringIndices(cs, dim)
      ensures k in front + last
    {
      if k < n {
        assert cs[..n][k] == cs[k];
      }
    }
    forall k | k in front + last
      ensures k in FiringIndices(cs, dim)
    {
      if k < n {
        assert cs[..n][k] == cs[k];
      }
    }
    assert FiringIndices(cs, dim) == front + last;
    assert n !in front;
  }

  /**
   A rule makes one request per condition that fires, duplicates included:
   as many requests as there are firing positions.
   */
  lemma {:induction false} ConditionRequestsCount(name: string, cs: seq<TriggerCondition>, dim: Location, delay: int)
    ensures |ConditionRequests(name, cs, dim, delay)| == |FiringIndices(cs, dim)|
  {
    if |cs| == 0 {
      assert FiringIndices(cs, dim) == {};
    } else {
      var n := |cs| - 1;
      assert cs == cs[..n] + [cs[n]];
      ConditionRequestsCount(name, cs[..n], dim, delay);
      ConditionRequestsSnoc(name, cs[..n], cs[n], dim, delay);
      FiringIndicesSnoc(cs, dim);
    }
  }

  /** The requests the rules of one script make. */
  function RuleRequests(name: string, rules: seq<ShotRule>, dim: Location): (r: seq<Request>)
    ensures forall x :: x in r <==> exists rule :: rule in rules && x in ConditionRequests(name, rule.conditions, dim, DelayTicks(rule.delay))
  {
    if |rules| == 0 then []
    else
      var rest := RuleRequests(name, rules[1..], dim);
      assert forall u :: u in rules <==> u == rules[0] || u in rules[1..];
      ConditionRequests(name, rules[0].conditions, dim, DelayTicks(rules[0].delay)) + rest
  }

  /** The requests of all loaded scripts, in the map's iteration order. */
  function DimensionRequests(scripts: map<string, Script>, order: seq<string>, dim: Location): (r: seq<Request>)
    ensures forall x :: x in r <==> exists n :: n in order && n in scripts && x in RuleRequests(n, scripts[n].shotRules, dim)
  {
    if |order| == 0 then []
    else
      var rest := DimensionRequests(scripts, order[1..], dim);
      assert forall n :: n in order <==> n == order[0] || n in order[1..];
      (if order[0] in scripts then RuleRequests(order[0], scripts[order[0]].shotRules, dim) else []) + rest
  }

  /**
   `onPlayerChangedDimension`: records the new dimension, then schedules
   one start per matching DIMENSION_CHANGE condition of every rule of every
   loaded script, with the rule's delay in ticks.  The standalone bindings
   play no part, and the visited set is left alone.
   */
  function OnDimensionChange(d: Detector, p: PlayerId, dim: Location, scripts: map<string, Script>, order: seq<string>): (r: Step)
    requires Enumerates(order, scripts.Keys)
    ensures p in r.detector.players
    ensures r.detector.players[p].lastDimension == Some(dim)
    ensures p in d.players ==> r.detector.players[p] == d.players[p].(lastDimension := Some(dim))
    ensures r.sent == Immediate(p, DimensionRequests(scripts, order, dim))
    ensures Queue(r.detector, p) == Queue(d, p) + Delayed(DimensionRequests(scripts, order, dim))
    ensures forall q :: q != p ==> Queue(r.detector, q) == Queue(d, q)
  {
    var d1 := InitPlayer(d, p);
    var d2 := d1.(players := d1.players[p := d1.players[p].(lastDimension := Some(dim))]);
    ScheduleAll(d2, p, DimensionRequests(scripts, order, dim))
  }

  /**
   A dimension change requests script `n` with delay `k` exactly when some
   rule of the loaded script `n` has a matching DIMENSION_CHANGE condition
   and `k` is that rule's delay in ticks.
   */
  lemma DimensionRequestsMatch(scripts: map<string, Script>, order: seq<string>, dim: Location, x: Request)
    requires Enumerates(order, scripts.Keys)
    ensures x in DimensionRequests(scripts, order, dim) <==>
            x.scriptName in scripts &&
            exists rule, c :: rule in scripts[x.scriptName].shotRules && c in rule.conditions &&
                              DimensionFires(c, dim) && x.delay == DelayTicks(rule.delay)
  {
    if x in DimensionRequests(scripts, order, dim) {
      var n :| n in order && n in scripts && x in RuleRequests(n, scripts[n].shotRules, dim);
      var rule :| rule in scripts[n].shotRules && x in ConditionRequests(n, rule.conditions, dim, DelayTicks(rule.delay));
      var c :| c in rule.conditions && DimensionFires(c, dim);
    }
    if x.scriptName in scripts &&
       exists rule, c :: rule in scripts[x.scriptName].shotRules && c in rule.conditions &&
                         DimensionFires(c, dim) && x.delay == DelayTicks(rule.delay) {
      var n := x.scriptName;
      var rule, c :| rule in scripts[n].shotRules && c in rule.conditions && DimensionFires(c, dim) && x.delay == DelayTicks(rule.delay);
      assert x == Request(n, DelayTicks(rule.delay));
      assert x in ConditionRequests(n, rule.conditions, dim, DelayTicks(rule.delay));
      assert x in RuleRequests(n, scripts[n].shotRules, dim);
    }
  }

  // ---------------------------------------------------------------- structures

  /** The bindings of `kind` whose id pattern matches the structure `loc`. */
  function StructureRequests(bs: seq<Binding>, kind: TriggerType, loc: Location): seq<Request> {
    BindingRequests(bs, (b: Binding) => b.kind == kind && WildcardPattern.MatchesPattern(Some(b.id), Some(loc)))
  }

  /**
   `scanForStructures` with `found` the structure at the player's position:
   a structure other than the current one fires the entry bindings for it
   and becomes current (there is no exit for the one left); finding nothing
   while inside one fires its exit bindings and clears it.  Both send at
   once, whatever the bindings' delays.
   */
  function ScanForStructures(d: Detector, p: PlayerId, found: Option<Location>, bs: seq<Binding>): (r: Step)
    ensures r.detector.tasks == d.tasks
    ensures p in r.detector.players && r.detector.players.Keys == d.players.Keys + {p}
    ensures forall q :: q != p && q in d.players ==> r.detector.players[q] == d.players[q]
    ensures var before := InitPlayer(d, p).players[p];
            r.detector.players[p] == before.(currentStructure := found) &&
            r.sent == (if found.Some? && before.currentStructure != found then
                         Notify(p, Names(StructureRequests(bs, StructureEnter, found.value)))
                       else if found.None? && before.currentStructure.Some? then
                         Notify(p, Names(StructureRequests(bs, StructureExit, before.currentStructure.value)))
                       else [])
  {
    var d1 := InitPlayer(d, p);
    var data := d1.players[p];
    match found
    case Some(s) =>
      if data.currentStructure != Some(s) then
        Step(d1.(players := d1.players[p := data.(currentStructure := Some(s))]),
             Notify(p, Names(StructureRequests(bs, StructureEnter, s))))
      else Step(d1, [])
    case None =>
      if data.currentStructure.Some? then
        Step(d1.(players := d1.players[p := data.(currentStructure := None)]),
             Notify(p, Names(StructureRequests(bs, StructureExit, data.currentStructure.value))))
      else Step(d1, [])
  }

  /** A second scan that finds the same thing sends nothing and changes nothing. */
  lemma ScanIsIdempotent(d: Detector, p: PlayerId, found: Option<Location>, bs: seq<Binding>)
    ensures var once := ScanForStructures(d, p, found, bs);
            ScanForStructures(once.detector, p, found, bs) == Step(once.detector, [])
  {
  }

  /**
   Moving straight from structure `a` into a different structure `b`
   fires the entry bindings of `b` and none of the exit bindings of `a`.
   */
  lemma SwitchingStructuresSkipsExit(d: Detector, p: PlayerId, a: Location, b: Location, bs: seq<Binding>)
    requires p in d.players && d.players[p].currentStructure == Some(a) && a != b
    ensures ScanForStructures(d, p, Some(b), bs).sent == Notify(p, Names(StructureRequests(bs, StructureEnter, b)))
  {
  }

  /** A structure packet names exactly a binding of the right kind whose pattern matches. */
  lemma StructureDispatchesMatch(p: PlayerId, bs: seq<Binding>, kind: TriggerType, loc: Location, x: Dispatch)
    ensures x in Notify(p, Names(StructureRequests(bs, kind, loc))) <==>
            x.player == p && exists b :: b in bs && b.kind == kind && WildcardPattern.MatchesPattern(Some(b.id), Some(loc)) && b.scriptName == x.scriptName
  {
    var reqs := StructureRequests(bs, kind, loc);
    var out := Notify(p, Names(reqs));
    if x in out {
      var i :| 0 <= i < |out| && out[i] == x;
      assert reqs[i] in reqs;
      var b :| b in bs && b.kind == kind && WildcardPattern.MatchesPattern(Some(b.id), Some(loc)) && reqs[i] == Request(b.scriptName, b.delay);
    }
    if x.player == p && exists b :: b in bs && b.kind == kind && WildcardPattern.MatchesPattern(Some(b.id), Some(loc)) && b.scriptName == x.scriptName {
      var b :| b in bs && b.kind == kind && WildcardPattern.MatchesPattern(Some(b.id), Some(loc)) && b.scriptName == x.scriptName;
      assert Request(b.scriptName, b.delay) in reqs;
      var i :| 0 <= i < |reqs| && reqs[i] == Request(b.scriptName, b.delay);
      assert out[i] == x;
    }
  }

  // ---------------------------------------------------------------- time of day

  /**
   `getDayTime() % 24000` with Java's `%`: the remainder takes the sign of
   the dividend.
   */
  function TimeOfDayOf(dayTime: int): (r: int)
    ensures -DayLength < r < DayLength
    ensures dayTime >= 0 ==> 0 <= r
    ensures 0 <= dayTime < DayLength ==> r == dayTime
    ensures dayTime <= 0 ==> r <= 0
    ensures (dayTime - r) % DayLength == 0
  {
    if dayTime >= 0 then dayTime % DayLength else -((-dayTime) % DayLength)
  }

  /** The TIME_OF_DAY bindings whose id pattern matches day time `t`. */
  function TimeRequests(bs: seq<Binding>, t: int): seq<Request> {
    BindingRequests(bs, (b: Binding) => b.kind == TimeOfDay && TimePattern.IsTimeMatch(b.id, t))
  }

  /** More than `ResampleGap` ticks apart, in either direction. */
  predicate FarApart(a: int, b: int) {
    a - b > ResampleGap || b - a > ResampleGap
  }

  /**
   `checkTimeOfDay`: only for a player with data, and only when the day
   time has moved more than 1000 ticks from the last sample, the sample is
   renewed and every matching TIME_OF_DAY binding is scheduled with its
   own delay.
   */
  function CheckTimeOfDay(d: Detector, p: PlayerId, dayTime: int, bs: seq<Binding>): (r: Step)
    ensures p !in d.players ==> r == Step(d, [])
    ensures p in d.players && !FarApart(TimeOfDayOf(dayTime), d.players[p].lastTimeOfDay) ==> r == Step(d, [])
    ensures p in d.players && FarApart(TimeOfDayOf(dayTime), d.players[p].lastTimeOfDay) ==>
            var now := TimeOfDayOf(dayTime);
            r.detector.players == d.players[p := d.players[p].(lastTimeOfDay := now)] &&
            r.sent == Immediate(p, TimeRequests(bs, now)) &&
            Queue(r.detector, p) == Queue(d, p) + Delayed(TimeRequests(bs, now))
    ensures forall q :: q != p ==> Queue(r.detector, q) == Queue(d, q) && (q in r.detector.tasks <==> q in d.tasks)
    ensures r.detector.tasks.Keys <= d.tasks.Keys + {p}
  {
    if p !in d.players then Step(d, [])
    else
      var now := TimeOfDayOf(dayTime);
      if FarApart(now, d.players[p].lastTimeOfDay) then
        var d1 := d.(players := d.players[p := d.players[p].(lastTimeOfDay := now)]);
        ScheduleAll(d1, p, TimeRequests(bs, now))
      else Step(d, [])
  }

  /** Right after a sample, checking again at the same day time does nothing. */
  lemma NoResampleAtSameTime(d: Detector, p: PlayerId, dayTime: int, bs: seq<Binding>)
    ensures var once := CheckTimeOfDay(d, p, dayTime, bs);
            CheckTimeOfDay(once.detector, p, dayTime, bs) == Step(once.detector, [])
  {
  }

  // ---------------------------------------------------------------- server tick

  /** The game as seen by one server tick. */
  datatype World = World(
    online: PlayerId -> bool,
    structureAt: PlayerId -> Option<Location>,
    dayTime: PlayerId -> int,
    bindings: seq<Binding>)

  /** Every player's scan timer lies in [0, `ScanInterval`). */
  predicate TimersInRange(d: Detector) {
    forall p :: p in d.players ==> 0 <= d.players[p].scanTimer < ScanInterval
  }

  /** The scan timer rolls over to 0 on reaching the interval. */
  function NextTimer(timer: int): (r: int)
    ensures 0 <= timer < ScanInterval ==> r == (timer + 1) % ScanInterval
    ensures r == 0 || r == timer + 1
  {
    if timer + 1 >= ScanInterval then 0 else timer + 1
  }

  /**
   The loop body of `onServerTick` for one player: the timer goes up; on
   reaching the interval the structure scan and the time-of-day check run
   (only when the player is online) and the timer goes back to 0.
   */
  function TickPlayer(d: Detector, p: PlayerId, w: World): (r: Step)
    requires p in d.players
    ensures r.detector.players.Keys == d.players.Keys
    ensures r.detector.players[p].scanTimer == NextTimer(d.players[p].scanTimer)
    ensures forall q :: q != p && q in d.players ==> r.detector.players[q] == d.players[q]
    ensures forall q :: q != p ==> Queue(r.detector, q) == Queue(d, q) && (q in r.detector.tasks <==> q in d.tasks)
    ensures r.detector.tasks.Keys <= d.tasks.Keys + {p}
    ensures d.players[p].scanTimer + 1 < ScanInterval ==>
            r.sent == [] && r.detector == d.(players := d.players[p := d.players[p].(scanTimer := d.players[p].scanTimer + 1)])
    ensures !w.online(p) ==> r.sent == [] && r.detector.tasks == d.tasks
  {
    var timer := d.players[p].scanTimer + 1;
    var d1 := d.(players := d.players[p := d.players[p].(scanTimer := timer)]);
    if timer >= ScanInterval then
      if w.online(p) then
        var scan := ScanForStructures(d1, p, w.structureAt(p), w.bindings);
        var time := CheckTimeOfDay(scan.detector, p, w.dayTime(p), w.bindings);
        var d2 := time.detector;
        Step(d2.(players := d2.players[p := d2.players[p].(scanTimer := 0)]), scan.sent + time.sent)
      else
        Step(d1.(players := d1.players[p := d1.players[p].(scanTimer := 0)]), [])
    else Step(d1, [])
  }

  /** The loop of `onServerTick` over the player map, in iteration order. */
  function TickPlayers(d: Detector, order: seq<PlayerId>, w: World): (r: Step)
    requires forall p :: p in order ==> p in d.players
    ensures r.detector.players.Keys == d.players.Keys
    ensures TimersInRange(d) ==> TimersInRange(r.detector)
    ensures forall q :: q !in order ==> Queue(r.detector, q) == Queue(d, q) && (q in r.detector.tasks <==> q in d.tasks)
    ensures forall q :: q !in order && q in d.players ==> r.detector.players[q] == d.players[q]
    decreases |order|
  {
    if |order| == 0 then Step(d, [])
    else
      var first := TickPlayer(d, order[0], w);
      var rest := TickPlayers(first.detector, order[1..], w);
      assert forall q :: q in order <==> q == order[0] || q in order[1..];
      Step(rest.detector, first.sent + rest.sent)
  }

  /**
   `onServerTick` at the end of a tick: the scheduled tasks are processed
   first, then every player's scan timer advances.
   */
  function OnServerTick(d: Detector, taskOrder: seq<PlayerId>, playerOrder: seq<PlayerId>, w: World): (r: Step)
    requires Enumerates(taskOrder, d.tasks.Keys)
    requires Enumerates(playerOrder, d.players.Keys)
    ensures r.detector.players.Keys == d.players.Keys
    ensures TimersInRange(d) ==> TimersInRange(r.detector)
  {
    var tasks := ProcessScheduledTasks(d, taskOrder, w.online);
    var players := TickPlayers(tasks.detector, playerOrder, w);
    Step(players.detector, tasks.sent + players.sent)
  }

  /** A player's timer counts 0, 1, …, 39 and back to 0; the scans run on the tick it wraps. */
  lemma ScanTimerCycles(d: Detector, p: PlayerId, w: World)
    requires p in d.players && 0 <= d.players[p].scanTimer < ScanInterval
    ensures var r := TickPlayer(d, p, w);
            r.detector.players[p].scanTimer == (d.players[p].scanTimer + 1) % ScanInterval &&
            (r.sent != [] ==> r.detector.players[p].scanTimer == 0)
  {
  }
}
